=== FILE: README.md ===
# IntelliJShortcutMapper exporter, modelled in Dafny

IntelliJShortcutMapper exports the keyboard shortcuts of an IntelliJ-based
IDE as one JSON-shaped text. It lists the commands bound in both the
default (Windows/Linux) keymap and the macOS keymap. Each command gets a
readable name and one display shortcut per platform.

All the logic is in `actionPerformed` and `formatShortcut` of
`src/ShortcutExporterAction.java`. The rest is calls into host services.
This project models the pure text pipeline inside those two methods:

- **Strings** (`strings.dfy`): literal search and replacement.
  - `ReplaceAll` is `String.replaceAll` with a literal pattern and a
    replacement holding neither `$` nor `\`: leftmost, non-overlapping
    matches.
  - `Join` is `StringUtil.join`.
- **Rules** (`rules.dfy`): ordered rewrite tables.
  - A rule is unanchored, anchored at both ends (`^X$`) or anchored at the
    start (`^X`).
  - `ApplyRules` runs a table in order, like a chain of `replaceAll` calls.
  - `DollarAt` is Java's `$` without MULTILINE. It holds at the end of the
    input and also just before one final line terminator.
- **ShortcutFormat** (`shortcut_format.dfy`): `formatShortcut` as four
  tables (modifier phrases, layout, key names, clean-up).
  - `DropButtons` and `BindingText` drop the raw bindings that mention
    `button` and join the rest with `,`.
- **ShortcutExamples** (`shortcut_examples.dfy`): worked formatter examples,
  each proved end to end from the raw binding to the display text. A long
  text is cut into short pieces at characters a table never rewrites, and
  each piece is stepped through the table rule by rule.
- **ActionNames** (`action_names.dfy`): the name chain on a command's
  template text. It runs in four stages: navigation renames, extraction
  renames, qualifier words, and the ellipsis stage.
- **ActionNameExamples** (`action_name_examples.dfy`): worked
  name-normalisation examples.
- **Output** (`output.dfy`): the document.
  - `Visit` lists the entries for an id order, given how each id is
    decided.
  - `Build` is the builder loop with its `started` flag.
  - `Document` is the header, the entries joined by `,\n`, and the footer.
- **Export** (`export.dfy`): the export as a whole.
  - `CommonIds` intersects the two keymaps.
  - `EntryFor` resolves a command and applies the inclusion filter.
  - `ExportKeymaps` produces the whole text.

Host data are inputs:
- A `Keymap` is a set of command ids plus each id's bindings, already
  printed as raw strings (`Shortcut.toString`).
- The command registry is a map from id to template text. An id missing
  from the map is a command the registry cannot resolve.
- The product name and the major version are strings.
- The order in which the `HashSet` of common ids is iterated is an input
  sequence that visits each common id exactly once (`IsVisitOrder`).

Three behaviours of the code are kept as written:
- The length filter measures the raw template text, not the normalised
  name. It measures in UTF-16 units (`String.length`), so one character
  outside the Basic Multilingual Plane already passes the `> 1` test.
- The `^X$` rules use Java's `$`. "Declaration\n" is therefore renamed
  too, and keeps its newline (`ActionNameExamples.DeclarationBeforeNewline`);
  so is "Declaration\r\n" (`ActionNameExamples.DeclarationBeforeCrLf`).
- Names and shortcuts are written unescaped, exactly as the code writes
  them.

## Model

Each module's group opens with its definitions: the functions that compute
what the cited lines compute. The rows after them are the lemmas and methods
that state properties of those definitions.

| member | source | states |
|---|---|---|
| Strings.ReplaceAll | src/ShortcutExporterAction.java:125-182 | `replaceAll` with a literal pattern (every call of the formatter, and the unanchored rules of the name chain): matches are taken leftmost first, the scan resumes after each one, so they never overlap |
| Strings.Join | src/ShortcutExporterAction.java:39-49 | `StringUtil.join`: the parts in order, with the separator between neighbours only |
| Strings.ReplaceAllNoOccurrence | src/ShortcutExporterAction.java:125-182 | replacing a literal that does not occur leaves the text unchanged |
| Strings.ReplaceAllLeftmost | src/ShortcutExporterAction.java:125-182 | the leftmost occurrence is the one replaced, and the scan resumes right after it |
| Strings.ReplaceAllSelf | src/ShortcutExporterAction.java:125-182 | replacing a literal by itself is the identity |
| Strings.ReplaceAllSplit | src/ShortcutExporterAction.java:125-182 | replacement distributes over a concatenation whose seam character is outside the pattern |
| Strings.DeleteCharEmpty | src/ShortcutExporterAction.java:138 | deleting every copy of a character leaves nothing exactly when the text held nothing else |
| Strings.DeleteTripleLeadingRun | src/ShortcutExporterAction.java:82 | deleting `...` shrinks a leading run of dots to its length modulo three |
| Strings.DeleteTripleLeavesNone | src/ShortcutExporterAction.java:82 | after every `...` is deleted, no `...` remains, even where runs of dots met |
| Strings.JoinFrame | src/ShortcutExporterAction.java:49 | a join starts with its first part and ends with its last part |
| Strings.JoinLength | src/ShortcutExporterAction.java:49 | a join is as long as its parts plus one separator between each two neighbours |
| Strings.JoinEmpty | src/ShortcutExporterAction.java:49 | a join is empty exactly when there are no parts, or one empty part |
| Strings.JoinBlank | src/ShortcutExporterAction.java:49 | a `,` join is blank exactly when there are no parts, or one blank part |
| Rules.DollarAt | src/ShortcutExporterAction.java:69-72 | Java's `$` without MULTILINE, as used by the whole-label rules: the end of the input, or just before one final line terminator, where `\r\n` is one terminator |
| Rules.ApplyRule | src/ShortcutExporterAction.java:64-83 | one `replaceAll` call of a chain, for a literal, a `^X$` or a `^X` pattern; the anchored ones match only at position 0 |
| Rules.ApplyRules | src/ShortcutExporterAction.java:64-83 | a chain of `replaceAll` calls, each applied to the previous one's result, first call first |
| Rules.WholeInputExact | src/ShortcutExporterAction.java:69-72 | on single-line text, a `^X$` rule fires exactly when the text equals X |
| Rules.WholeInputFiresOnlyOnWhole | src/ShortcutExporterAction.java:69-72 | a `^X$` rule changes only X itself, or X followed by one final line terminator |
| Rules.ApplyRulesAppend | src/ShortcutExporterAction.java:64-83 | running two tables in turn is running their concatenation |
| Rules.ApplyRulesKeepsNonBlank | src/ShortcutExporterAction.java:125-137 | rules whose replacements hold a non-space keep a non-space in the text |
| Rules.ApplyRulesBlankFixed | src/ShortcutExporterAction.java:125-137 | blank text passes unchanged through rules whose patterns hold a non-space |
| Rules.ApplyRulesFireBeforeTerminator | src/ShortcutExporterAction.java:69-72 | a `^X$` rule fires on X followed by any tail where Java's `$` matches (nothing, one line terminator, or `\r\n`), and keeps that tail |
| Rules.ApplyRulesAnchoredStep | src/ShortcutExporterAction.java:69-72 | an anchored rename that puts a prefix in front fires at most once along its table |
| Rules.ApplyRulesUntouched | src/ShortcutExporterAction.java:125-182 | text made only of characters no rule of the table touches passes the table unchanged |
| Rules.ApplyRulesSplit | src/ShortcutExporterAction.java:125-182 | a table works on the two sides of a seam separately when no pattern holds the seam character |
| ShortcutFormat.DropButtons | src/ShortcutExporterAction.java:44-49 | the `filter` that drops raw bindings containing `button`, keeping the rest in order |
| ShortcutFormat.BindingText | src/ShortcutExporterAction.java:39-49 | the raw bindings of one keymap, with mouse gestures dropped and the rest joined by `,` |
| ShortcutFormat.Format | src/ShortcutExporterAction.java:124-183 | `formatShortcut`: the modifier, layout, key-name and clean-up calls in source order |
| ShortcutFormat.DropButtonsSpec | src/ShortcutExporterAction.java:39-49 | exactly the raw bindings without `button` are kept: none when all mention it, all when none does |
| ShortcutFormat.DropButtonsAppend | src/ShortcutExporterAction.java:39-49 | the filter keeps the bindings' order: filtering two lists in turn is filtering their concatenation |
| ShortcutFormat.FormatStages | src/ShortcutExporterAction.java:124-183 | formatting is the modifier, layout, key-name and clean-up tables in source order |
| ShortcutFormat.FormatEmpty | src/ShortcutExporterAction.java:124-183 | formatting empty text gives empty text |
| ShortcutFormat.FormatEmptyIffBlank | src/ShortcutExporterAction.java:124-183 | the display text is empty exactly when the raw text is blank |
| ShortcutFormat.BindingTextBlank | src/ShortcutExporterAction.java:39-49 | the joined binding text is blank exactly when every binding is a mouse gesture, or one keyboard binding is left and it is blank |
| ShortcutFormat.OnlyButtonsFormatEmpty | src/ShortcutExporterAction.java:39-49 | bindings that are all mouse gestures give empty display text |
| ShortcutFormat.KeyNamesInert | src/ShortcutExporterAction.java:144-180 | text without two adjacent upper-case letters passes the key-name table unchanged |
| ShortcutExamples.NoModifierBinding | src/ShortcutExporterAction.java:124-183 | `[pressed F1]` is shown as `"F1"` |
| ShortcutExamples.ThreeModifiers | src/ShortcutExporterAction.java:124-183 | `[shift ctrl alt pressed A]` is shown as `"Shift+Ctrl+Alt+A"`: the phrase is joined with `+` before its words are capitalised |
| ShortcutExamples.CommandKey | src/ShortcutExporterAction.java:124-183 | `[meta pressed C]` is shown as `"Command+C"` |
| ShortcutExamples.AlternativeBindings | src/ShortcutExporterAction.java:124-183 | `[ctrl pressed C],[ctrl pressed INSERT]` is shown as `"Ctrl+C or Ctrl+Insert"` |
| ShortcutExamples.TwoStrokeBinding | src/ShortcutExporterAction.java:124-183 | `[ctrl pressed A]+[pressed B]` is shown as `"Ctrl+A or B"`: the `+` left after ` or ` is dropped |
| ShortcutExamples.PageDownKey | src/ShortcutExporterAction.java:124-183 | `[pressed PAGE_DOWN]` is shown as `"Page Up"`: the key table at line 145 names `PAGE_DOWN` "Page Up", as written |
| ShortcutExamples.CloseBracketKey | src/ShortcutExporterAction.java:124-183 | `[pressed CLOSE_BRACKET]` is shown as `"["`: the key table at line 157 names `CLOSE_BRACKET` `[` |
| ShortcutExamples.OpenBracketKey | src/ShortcutExporterAction.java:124-183 | `[pressed OPEN_BRACKET]` is shown as `"]"`: the key table at line 158 names `OPEN_BRACKET` `]` |
| ShortcutExamples.UnnamedKey | src/ShortcutExporterAction.java:124-183 | `[pressed END]` is shown as `"END"`: a key the table does not name passes unchanged |
| ActionNames.ActionName | src/ShortcutExporterAction.java:64-83 | the exported name: the template text through the nineteen `replaceAll` calls in source order |
| ActionNames.NameStages | src/ShortcutExporterAction.java:64-83 | the name chain is navigation, extraction, qualifiers, then the ellipsis stage |
| ActionNames.NavigateStage | src/ShortcutExporterAction.java:65-72 | on a single-line label without dots, the navigation stage renames exactly "Type Declaration", "Declaration", "Implementation(s)" and labels starting with "Super Method" |
| ActionNames.SuperMethodPrefixOnly | src/ShortcutExporterAction.java:71 | among the other dotless single-line labels, the navigation stage changes exactly those starting with "Super Method", and only by putting "Navigate to " in front |
| ActionNames.ExtractStage | src/ShortcutExporterAction.java:73-78 | a label without dots passes the extraction stage unchanged |
| ActionNames.QualifierStage | src/ShortcutExporterAction.java:79-81 | a label without the three qualified words passes the qualifier stage unchanged |
| ActionNames.EllipsisStage | src/ShortcutExporterAction.java:82-83 | the deletion leaves no `...`, and when no "New Folder" is left after it, the stage's result holds no `...` |
| ActionNames.EllipsisStageKeeps | src/ShortcutExporterAction.java:82-83 | a label without dots and without "New Folder" passes the ellipsis stage unchanged |
| ActionNames.ActionNameKeeps | src/ShortcutExporterAction.java:64-83 | a label that no rule names is exported as it is |
| ActionNameExamples.DeclarationRenamed | src/ShortcutExporterAction.java:70 | "Declaration" becomes "Navigate to Declaration" |
| ActionNameExamples.DeclarationInsideKept | src/ShortcutExporterAction.java:69-72 | "Go to Declaration" is kept: the rule is anchored at both ends |
| ActionNameExamples.DeclarationBeforeNewline | src/ShortcutExporterAction.java:70 | "Declaration\n" is renamed as well, and keeps its newline |
| ActionNameExamples.DeclarationBeforeCrLf | src/ShortcutExporterAction.java:70 | "Declaration\r\n" is renamed as well, and keeps both terminator characters |
| ActionNameExamples.SuperMethodRenamed | src/ShortcutExporterAction.java:71 | "Super Method" becomes "Navigate to Super Method" |
| ActionNameExamples.SuperMethodInsideKept | src/ShortcutExporterAction.java:71 | "Go to Super Method" is kept: the rule is anchored at the start |
| ActionNameExamples.ClassNavigates | src/ShortcutExporterAction.java:65 | "Class..." becomes "Navigate to Class" |
| ActionNameExamples.FunctionalParameterExtracted | src/ShortcutExporterAction.java:76-77 | "Functional Parameter..." becomes "Extract Functional Parameter"; with the two rules swapped it would become "Functional Extract Parameter" |
| ActionNameExamples.BasicCompletion | src/ShortcutExporterAction.java:79 | "Basic" becomes "Basic Completion" |
| ActionNameExamples.NewFolderEllipsis | src/ShortcutExporterAction.java:82-83 | "New Folder" becomes "New...", and those dots survive |
| Output.Visit | src/ShortcutExporterAction.java:37-114 | the entries the loop writes when it visits the ids in the given order and settles each one |
| Output.Header | src/ShortcutExporterAction.java:30 | the fixed opening lines, with the product name and major version written in |
| Output.Render | src/ShortcutExporterAction.java:111 | one entry: the quoted name, then the two display shortcuts in brackets, separated by `, ` |
| Output.Document | src/ShortcutExporterAction.java:30-116 | the header, the rendered entries joined by `,\n`, and the fixed closing lines |
| Output.Build | src/ShortcutExporterAction.java:36-112 | the builder loop with its `started` flag writes the entries joined by `,\n`, in visit order |
| Output.Assemble | src/ShortcutExporterAction.java:30-116 | header, loop and footer write exactly the document |
| Output.VisitMembers | src/ShortcutExporterAction.java:37-112 | the entries are exactly the decided entries of the visited ids |
| Output.VisitAppend | src/ShortcutExporterAction.java:37 | visiting two id lists in turn writes the first list's entries, then the second's |
| Output.VisitDistinct | src/ShortcutExporterAction.java:37 | distinct ids give entries with distinct ids |
| Output.DocumentEmpty | src/ShortcutExporterAction.java:30-116 | with nothing to export, the header is followed directly by the footer |
| Output.DocumentFrame | src/ShortcutExporterAction.java:108-116 | no separator before the first entry or after the last |
| Output.DocumentLength | src/ShortcutExporterAction.java:108-116 | the document has one separator between each two entries and no others |
| Export.IsVisitOrder | src/ShortcutExporterAction.java:37 | the order in which iterating the `HashSet` of common ids visits them: each id exactly once |
| Export.Shortcuts | src/ShortcutExporterAction.java:39-63 | the display shortcut of one command in one keymap: its bindings filtered, joined and formatted |
| Export.Included | src/ShortcutExporterAction.java:84-107 | the `if` condition: no denied fragment or name, the macOS shortcut not the denied one, both shortcuts non-empty, and the template text longer than one UTF-16 unit |
| Export.EntryFor | src/ShortcutExporterAction.java:61-107 | the entry written for one id: none when the registry does not resolve it or the condition fails |
| Export.CommonIds | src/ShortcutExporterAction.java:31-33 | an id is common exactly when both keymaps bind it |
| Export.Utf16Length | src/ShortcutExporterAction.java:107 | the UTF-16 length lies between the character count and twice that |
| Export.Utf16LengthBmp | src/ShortcutExporterAction.java:107 | text inside the Basic Multilingual Plane is as long in UTF-16 units as in characters |
| Export.UnresolvedSkipped | src/ShortcutExporterAction.java:61 | a command the registry cannot resolve is skipped |
| Export.ShortTextSkipped | src/ShortcutExporterAction.java:107 | a template text of at most one UTF-16 unit is skipped |
| Export.NoKeyboardBindingSkipped | src/ShortcutExporterAction.java:39-106 | a command with no keyboard binding on either platform is skipped |
| Export.DeniedNameSkipped | src/ShortcutExporterAction.java:86-104 | a normalised name on the deny list is skipped |
| Export.DeniedFragmentSkipped | src/ShortcutExporterAction.java:84-85 | a normalised name containing a denied fragment is skipped |
| Export.EntryForIff | src/ShortcutExporterAction.java:61-107 | a command gets an entry exactly when it resolves, its template text is longer than one UTF-16 unit, its name is not denied, both keymaps leave non-blank keyboard binding text, and its macOS shortcut is not the denied one |
| Export.OnlyCommonExported | src/ShortcutExporterAction.java:31-37 | only commands bound in both keymaps are exported, each by its own entry, none twice |
| Export.AcceptedExported | src/ShortcutExporterAction.java:31-107 | every common command that passes the filter is exported |
| Export.OneSidedNotExported | src/ShortcutExporterAction.java:31-37 | a command bound in only one keymap is never exported |
| Export.ExportKeymaps | src/ShortcutExporterAction.java:24-116 | for a visit order of the common ids, the export writes exactly the document of the entries decided in that order: each written entry belongs to a common id and is the one `EntryFor` gives it, every accepted common command is written, and no id is written twice |

## Left out

- Host services (`KeymapManagerEx`, `ActionManager`, `ApplicationNamesInfo`, `ApplicationInfoEx`) are not modelled. Their results are inputs.
- `Shortcut.toString` is foreign code. Raw binding strings are given.
- The clipboard write (line 118) and the info dialog (line 120) are pure side effects and are left out.
- The iteration order of the `HashSet` (line 37) is unspecified. It is an input sequence that enumerates the common ids.
- The removal of the common ids from the two id sets (lines 34-35) is not modelled. Nothing reads those sets afterwards.
- The general Java regex engine is not modelled. Every pattern in the chains is a literal, possibly anchored with `^` and `$`, and those three forms are modelled directly.
- JSON validity is not claimed. The code escapes nothing, and the model writes names and shortcuts as they are.
- A `null` template text from the host is not modelled. The command registry maps each resolvable id to a string.
- Duplicate names in the output are not ruled out. The code does not rule them out either: two commands can normalise to the same name.
- ActionNames.NavigateStage: stated only for single-line labels without dots. The four dotted navigation rules (lines 65-68) and the dotted extraction rules (lines 73-78) have no all-inputs lemma; they are shown on examples only (`ActionNameExamples.ClassNavigates`, `ActionNameExamples.FunctionalParameterExtracted`). A label with a trailing line terminator is shown by `ActionNameExamples.DeclarationBeforeNewline` and `ActionNameExamples.DeclarationBeforeCrLf`.
- ActionNames.ActionNameKeeps: states one direction only, that a label no rule names is kept. It does not claim that every other label changes.

=== FILE: action_name_examples.dfy ===
/**
 * Concrete command labels and the names the exporter writes for them.
 *
 * Each example goes through the chain stage by stage: facts about the
 * label's characters (a `...Text` lemma) decide which rules cannot match,
 * and the stage lemmas of `ActionNames` do the rest.
 */
module ActionNameExamples {
  import opened Strings
  import opened Rules
  import opened ActionNames

  /** Characters the prefix "Navigate to " lacks. */
  lemma NavigateToText()
    ensures '.' !in NavigateTo && 'B' !in NavigateTo && 'T' !in NavigateTo
    ensures 'F' !in NavigateTo && 'y' !in NavigateTo
  {
  }

  /** The navigation stage on a printable label without dots, in terms of the anchored renaming. */
  lemma PrintableNavigate(s: string)
    requires forall c :: c in s ==> ' ' <= c <= '~'
    requires '.' !in s
    ensures ApplyRules(s, NavigateRules) == AnchoredRename(s)
  {
    SingleLineByChars(s);
    NavigateStage(s);
  }

  /** "Declaration" is printable and lacks the dot. */
  lemma DeclarationLine()
    ensures forall c :: c in "Declaration" ==> ' ' <= c <= '~'
    ensures '.' !in "Declaration"
  {
  }

  /** Renamed, "Declaration" holds none of the words the later stages rewrite. */
  lemma DeclarationRenamedText()
    ensures var n := NavigateTo + "Declaration";
      '.' !in n && !Occurs(n, "Basic") && !Occurs(n, "Test") && !Occurs(n, "SmartType") && !Occurs(n, "New Folder")
  {
    var n := NavigateTo + "Declaration";
    NavigateToText();
    assert 'B' !in "Declaration" && 'T' !in "Declaration" && 'F' !in "Declaration" && 'y' !in "Declaration";
    NotOccursByChar(n, "Basic", 'B');
    NotOccursByChar(n, "Test", 'T');
    NotOccursByChar(n, "SmartType", 'y');
    NotOccursByChar(n, "New Folder", 'F');
  }

  /** The label "Declaration" alone is renamed by the whole-label rule. */
  lemma DeclarationRenamed()
    ensures ActionName("Declaration") == NavigateTo + "Declaration"
  {
    var n := NavigateTo + "Declaration";
    DeclarationLine();
    PrintableNavigate("Declaration");
    DeclarationRenamedText();
    LaterStagesKeep(n);
    ActionNameByStages("Declaration", n, n, n, n);
  }

  /** "Go to Declaration" is printable, lacks the dot and opens with `G`. */
  lemma GoToDeclarationLine()
    ensures forall c :: c in "Go to Declaration" ==> ' ' <= c <= '~'
    ensures '.' !in "Go to Declaration" && "Go to Declaration"[0] == 'G'
  {
  }

  /** "Go to Declaration" holds none of the words the later stages rewrite. */
  lemma GoToDeclarationText()
    ensures var s := "Go to Declaration";
      !Occurs(s, "Basic") && !Occurs(s, "Test") && !Occurs(s, "SmartType") && !Occurs(s, "New Folder")
  {
    var s := "Go to Declaration";
    assert 'B' !in s && 'T' !in s && 'y' !in s && 'F' !in s;
    NotOccursByChar(s, "Basic", 'B');
    NotOccursByChar(s, "Test", 'T');
    NotOccursByChar(s, "SmartType", 'y');
    NotOccursByChar(s, "New Folder", 'F');
  }

  /** A label that merely contains "Declaration" is not renamed: the rule is anchored at both ends. */
  lemma DeclarationInsideKept()
    ensures ActionName("Go to Declaration") == "Go to Declaration"
  {
    var s := "Go to Declaration";
    GoToDeclarationLine();
    GoToDeclarationText();
    SingleLineByChars(s);
    PrefixAgrees(s, "Super Method", 0);
    ActionNameKeeps(s);
  }

  /** "Declaration" followed by a newline, piece by piece. */
  lemma DeclarationNewlineText()
    ensures '.' !in "Declaration\n" && "Declaration\n"[0] == 'D'
    ensures "Declaration\n" == "Declaration" + ['\n']
    ensures NavigateTo + "Declaration\n" == NavigateTo + "Declaration" + ['\n']
  {
  }

  /**
   * Java's `$` also matches before a final line terminator, so the
   * whole-label rule renames "Declaration" followed by a newline too, and
   * the newline stays.
   */
  lemma DeclarationBeforeNewline()
    ensures ApplyRules("Declaration\n", NavigateRules) == NavigateTo + "Declaration\n"
  {
    DeclarationNewlineText();
    NewlineBeforeAnchors();
    NewlineDeclarationFires();
    NewlineAfterDeclaration();
  }

  /** The four `...` rules and `^Type Declaration$` leave "Declaration\n" alone. */
  lemma NewlineBeforeAnchors()
    ensures ApplyRules("Declaration\n", NavigateRules) == ApplyRules("Declaration\n", NavigateRules[5..])
  {
    var s := "Declaration\n";
    DeclarationNewlineText();
    NavigateTable();
    NavigateAnchors();
    NavigateDotRules(s);
    ApplyRulesPassAnchored(s, NavigateRules, 4, 0);
  }

  /** `^Declaration$` fires on "Declaration\n", before its final newline. */
  lemma NewlineDeclarationFires()
    ensures ApplyRules("Declaration\n", NavigateRules[5..]) == ApplyRules(NavigateTo + "Declaration" + ['\n'], NavigateRules[6..])
  {
    DeclarationNewlineText();
    NavigateTable();
    ApplyRulesFireBeforeTerminator("Declaration\n", "\n", NavigateRules, 5);
  }

  /** The renamed text starts with `N`, which no later anchored pattern does. */
  lemma NewlineAfterDeclaration()
    ensures ApplyRules(NavigateTo + "Declaration" + ['\n'], NavigateRules[6..]) == NavigateTo + "Declaration" + ['\n']
  {
    var t := NavigateTo + "Declaration" + ['\n'];
    NavigateAnchors();
    assert t[0] == NavigateTo[0];
    ApplyRulesSkipAnchored(t, NavigateRules, 6);
  }

  /** "Declaration" followed by `\r\n`, piece by piece. */
  lemma DeclarationCrLfText()
    ensures '.' !in "Declaration\r\n" && "Declaration\r\n"[0] == 'D'
    ensures "Declaration\r\n" == "Declaration" + "\r\n"
    ensures NavigateTo + "Declaration\r\n" == NavigateTo + "Declaration" + "\r\n"
  {
  }

  /**
   * `\r\n` counts as one line terminator for Java's `$`, so "Declaration"
   * followed by it is renamed as well, and both characters stay.
   */
  lemma DeclarationBeforeCrLf()
    ensures ApplyRules("Declaration\r\n", NavigateRules) == NavigateTo + "Declaration\r\n"
  {
    DeclarationCrLfText();
    CrLfBeforeAnchors();
    CrLfDeclarationFires();
    CrLfAfterDeclaration();
  }

  /** The four `...` rules and `^Type Declaration$` leave "Declaration\r\n" alone. */
  lemma CrLfBeforeAnchors()
    ensures ApplyRules("Declaration\r\n", NavigateRules) == ApplyRules("Declaration\r\n", NavigateRules[5..])
  {
    var s := "Declaration\r\n";
    DeclarationCrLfText();
    NavigateTable();
    NavigateAnchors();
    NavigateDotRules(s);
    ApplyRulesPassAnchored(s, NavigateRules, 4, 0);
  }

  /** `^Declaration$` fires on "Declaration\r\n", before its final `\r\n`. */
  lemma CrLfDeclarationFires()
    ensures ApplyRules("Declaration\r\n", NavigateRules[5..]) == ApplyRules(NavigateTo + "Declaration" + "\r\n", NavigateRules[6..])
  {
    DeclarationCrLfText();
    NavigateTable();
    ApplyRulesFireBeforeTerminator("Declaration\r\n", "\r\n", NavigateRules, 5);
  }

  /** The renamed text starts with `N`, which no later anchored pattern does. */
  lemma CrLfAfterDeclaration()
    ensures ApplyRules(NavigateTo + "Declaration" + "\r\n", NavigateRules[6..]) == NavigateTo + "Declaration" + "\r\n"
  {
    var t := NavigateTo + "Declaration" + "\r\n";
    NavigateAnchors();
    assert t[0] == NavigateTo[0];
    ApplyRulesSkipAnchored(t, NavigateRules, 6);
  }

  /** "Super Method" is printable and lacks the dot. */
  lemma SuperMethodLine()
    ensures forall c :: c in "Super Method" ==> ' ' <= c <= '~'
    ensures '.' !in "Super Method"
  {
  }

  /** Renamed, "Super Method" holds none of the words the later stages rewrite. */
  lemma SuperMethodRenamedText()
    ensures var n := NavigateTo + "Super Method";
      '.' !in n && !Occurs(n, "Basic") && !Occurs(n, "Test") && !Occurs(n, "SmartType") && !Occurs(n, "New Folder")
  {
    var n := NavigateTo + "Super Method";
    NavigateToText();
    assert 'B' !in "Super Method" && 'T' !in "Super Method" && 'F' !in "Super Method" && 'y' !in "Super Method";
    NotOccursByChar(n, "Basic", 'B');
    NotOccursByChar(n, "Test", 'T');
    NotOccursByChar(n, "SmartType", 'y');
    NotOccursByChar(n, "New Folder", 'F');
  }

  /** "Super Method" is renamed by the prefix rule. */
  lemma SuperMethodRenamed()
    ensures ActionName("Super Method") == NavigateTo + "Super Method"
  {
    var n := NavigateTo + "Super Method";
    SuperMethodLine();
    PrintableNavigate("Super Method");
    SuperMethodRenamedText();
    LaterStagesKeep(n);
    ActionNameByStages("Super Method", n, n, n, n);
  }

  /** "Go to Super Method" is printable, lacks the dot and opens with `G`. */
  lemma GoToSuperMethodLine()
    ensures forall c :: c in "Go to Super Method" ==> ' ' <= c <= '~'
    ensures '.' !in "Go to Super Method" && "Go to Super Method"[0] == 'G'
  {
  }

  /** "Go to Super Method" holds none of the words the later stages rewrite. */
  lemma GoToSuperMethodText()
    ensures var s := "Go to Super Method";
      !Occurs(s, "Basic") && !Occurs(s, "Test") && !Occurs(s, "SmartType") && !Occurs(s, "New Folder")
  {
    var s := "Go to Super Method";
    assert 'B' !in s && 'T' !in s && 'y' !in s && 'F' !in s;
    NotOccursByChar(s, "Basic", 'B');
    NotOccursByChar(s, "Test", 'T');
    NotOccursByChar(s, "SmartType", 'y');
    NotOccursByChar(s, "New Folder", 'F');
  }

  /** "Super Method" later in a label does not trigger `^Super Method`: the rule is anchored at the start. */
  lemma SuperMethodInsideKept()
    ensures ActionName("Go to Super Method") == "Go to Super Method"
  {
    var s := "Go to Super Method";
    GoToSuperMethodLine();
    GoToSuperMethodText();
    SingleLineByChars(s);
    PrefixAgrees(s, "Super Method", 0);
    ActionNameKeeps(s);
  }

  /** A name without dots, `B`, `T`, `y` and one character of "New Folder" passes the three later stages unchanged. */
  lemma LaterStagesKeepLacking(n: string, f: char)
    requires '.' !in n && 'B' !in n && 'T' !in n && 'y' !in n && f in "New Folder" && f !in n
    ensures ApplyRules(n, ExtractRules) == n
    ensures ApplyRules(n, QualifierRules) == n
    ensures ApplyRules(n, EllipsisRules) == n
  {
    NotOccursByChar(n, "Basic", 'B');
    NotOccursByChar(n, "Test", 'T');
    NotOccursByChar(n, "SmartType", 'y');
    NotOccursByChar(n, "New Folder", f);
    LaterStagesKeep(n);
  }

  /** "Class" lacks the characters `LaterStagesKeepLacking` asks for. */
  lemma ClassText()
    ensures forall c :: c in ".BTyF" ==> c !in "Class"
  {
  }

  /** The first navigation rule turns the whole menu label "Class..." into its navigation name. */
  lemma ClassFires()
    ensures ApplyRules("Class...", NavigateRules) == ApplyRules(NavigateTo + "Class", NavigateRules[1..])
  {
    assert NavigateRules[0] == Plain("Class...", NavigateTo + "Class");
    ReplaceAllWhole("Class...", NavigateTo + "Class");
    ApplyRulesFire("Class...", NavigateRules, 0);
    assert NavigateRules[0..] == NavigateRules;
  }

  /** After a navigation rename, the rest of the table finds no dots and no anchored pattern opening with `N`. */
  lemma NavigateRenamedRest(n: string, k: nat)
    requires 1 <= k <= 4 && '.' !in n && n != [] && n[0] == NavigateTo[0]
    ensures ApplyRules(n, NavigateRules[k..]) == n
  {
    NavigateTable();
    NavigateAnchors();
    ApplyRulesPassByChars(n, NavigateRules, k, 4, "...."[k..]);
    ApplyRulesSkipAnchored(n, NavigateRules, 4);
  }

  /** The menu label "Class..." is exported as a navigation. */
  lemma ClassNavigates()
    ensures ActionName("Class...") == NavigateTo + "Class"
  {
    var n := NavigateTo + "Class";
    ClassText();
    NavigateToText();
    assert n[0] == NavigateTo[0];
    ClassFires();
    NavigateRenamedRest(n, 1);
    LaterStagesKeepLacking(n, 'F');
    ActionNameByStages("Class...", n, n, n, n);
  }

  /** Characters "Functional Parameter..." lacks, and its first character. */
  lemma FunctionalParameterChars()
    ensures forall c :: c in "CSLMV" ==> c !in "Functional Parameter..."
    ensures "Functional Parameter..."[0] == 'F'
  {
  }

  /** In "Functional Parameter..." no `F` is followed by `i`. */
  lemma FunctionalParameterPair()
    ensures NoPair("Functional Parameter...", 'F', 'i')
  {
  }

  /**
   * The navigation stage leaves alone a label opening with `F` that lacks
   * `C`, `S` and `L` and never has `F` before `i`: no menu pattern occurs
   * and no anchored pattern opens with `F`.
   */
  lemma NavigateKeepsF(s: string)
    requires 'C' !in s && 'S' !in s && 'L' !in s && NoPair(s, 'F', 'i') && s != [] && s[0] == 'F'
    ensures ApplyRules(s, NavigateRules) == s
  {
    NavigateMenuKeepsF(s);
    NavigateAnchorsOpen();
    ApplyRulesSkipAnchored(s, NavigateRules, 4);
  }

  /** The four menu rules of the navigation table find nothing in such a label. */
  lemma NavigateMenuKeepsF(s: string)
    requires 'C' !in s && 'S' !in s && 'L' !in s && NoPair(s, 'F', 'i')
    ensures ApplyRules(s, NavigateRules) == ApplyRules(s, NavigateRules[4..])
  {
    NavigateMenuTable();
    assert NavigateRules[0..] == NavigateRules;
    ApplyRulesPassByChars(s, NavigateRules, 0, 1, "C");
    ApplyRulesPassByPair(s, NavigateRules, 1, 0);
    ApplyRulesPassByChars(s, NavigateRules, 2, 4, "SL");
  }

  /** The navigation menu patterns hold `C`, then `F` before `i`, then `S` and `L`. */
  lemma NavigateMenuTable()
    ensures NavigateRules[0].Anywhere? && 'C' in NavigateRules[0].pat
    ensures NavigateRules[1].Anywhere? && |NavigateRules[1].pat| > 1 && NavigateRules[1].pat[0] == 'F' && NavigateRules[1].pat[1] == 'i'
    ensures forall k :: 2 <= k < 4 ==> NavigateRules[k].Anywhere? && "SL"[k - 2] in NavigateRules[k].pat
  {
  }

  /** The anchored navigation patterns open with `T`, `D`, `S` or `I`. */
  lemma NavigateAnchorsOpen()
    ensures |NavigateRules| == 8
    ensures forall k :: 4 <= k < 8 ==> !NavigateRules[k].Anywhere? && NavigateRules[k].pat[0] in "TDSI"
  {
  }

  /** The extraction table names a character of each of its first three patterns, and its fourth rule. */
  lemma ExtractHead()
    ensures forall k :: 0 <= k < 3 ==> ExtractRules[k].Anywhere? && "MCV"[k] in ExtractRules[k].pat
    ensures ExtractRules[3] == Plain("Functional Parameter...", "Extract Functional Parameter")
  {
  }

  /** The fourth extraction rule fires on "Functional Parameter..." once the first three found nothing. */
  lemma FunctionalParameterFires()
    ensures ApplyRules("Functional Parameter...", ExtractRules) == ApplyRules("Extract Functional Parameter", ExtractRules[4..])
  {
    var s := "Functional Parameter...";
    FunctionalParameterChars();
    ExtractHead();
    assert ExtractRules[0..] == ExtractRules;
    ApplyRulesPassByChars(s, ExtractRules, 0, 3, "MCV");
    ReplaceAllWhole(s, "Extract Functional Parameter");
    ApplyRulesFire(s, ExtractRules, 3);
  }

  /** "Extract Functional Parameter" lacks the characters `LaterStagesKeepLacking` asks for. */
  lemma ExtractedText()
    ensures forall c :: c in ".BTyN" ==> c !in "Extract Functional Parameter"
  {
  }

  /** A name without dots passes the last two extraction rules unchanged. */
  lemma ExtractLastTwo(e: string)
    requires '.' !in e
    ensures ApplyRules(e, ExtractRules[4..]) == e
  {
    ExtractTable();
    ApplyRulesPassByChars(e, ExtractRules, 4, 6, "..");
    assert ExtractRules[6..] == [];
  }

  /** Where "Parameter..." sits in "Functional Parameter...". */
  lemma FunctionalParameterSplit()
    ensures "Functional Parameter..." == "Functional " + "Parameter..." + []
    ensures 'P' !in "Functional "
    ensures "Functional " + "Extract Parameter" + [] == "Functional Extract Parameter"
  {
  }

  /**
   * "Functional Parameter..." is exported as "Extract Functional Parameter"
   * because its rule comes before the "Parameter..." rule, which would
   * otherwise rewrite the tail of the label and give "Functional Extract
   * Parameter".
   */
  lemma FunctionalParameterExtracted()
    ensures ActionName("Functional Parameter...") == "Extract Functional Parameter"
    ensures ReplaceAll("Functional Parameter...", "Parameter...", "Extract Parameter") == "Functional Extract Parameter"
  {
    var s := "Functional Parameter...";
    var e := "Extract Functional Parameter";
    FunctionalParameterChars();
    FunctionalParameterPair();
    NavigateKeepsF(s);
    FunctionalParameterFires();
    ExtractedText();
    ExtractLastTwo(e);
    LaterStagesKeepLacking(e, 'N');
    ActionNameByStages(s, s, e, e, e);
    FunctionalParameterSplit();
    ReplaceAllHit(s, "Functional ", [], "Parameter...", "Extract Parameter");
    assert ReplaceAll([], "Parameter...", "Extract Parameter") == [];
  }

  /** "Basic" is printable, lacks the dot and is not a navigation label. */
  lemma BasicLine()
    ensures forall c :: c in "Basic" ==> ' ' <= c <= '~'
    ensures '.' !in "Basic" && "Basic"[0] == 'B'
  {
  }

  /** The qualifier table: "Basic" first, then two rules whose patterns hold `T` and `S`. */
  lemma QualifierTable()
    ensures |QualifierRules| == 3 && QualifierRules[0] == Plain("Basic", "Basic Completion")
    ensures forall k :: 1 <= k < 3 ==> QualifierRules[k].Anywhere? && "TS"[k - 1] in QualifierRules[k].pat
  {
  }

  /** "Basic Completion" lacks `T` and `S`, and replacing "Basic" in "Basic" gives it. */
  lemma BasicCompletionText()
    ensures forall c :: c in "TS" ==> c !in "Basic Completion"
    ensures ReplaceAll("Basic", "Basic", "Basic Completion") == "Basic Completion"
  {
    assert ReplaceAll("Basic", "Basic", "Basic Completion") == "Basic Completion" + ReplaceAll([], "Basic", "Basic Completion");
  }

  /** The qualifier stage on "Basic": the first rule fires, the other two find nothing. */
  lemma QualifierBasic()
    ensures ApplyRules("Basic", QualifierRules) == "Basic Completion"
  {
    QualifierBasicFires();
    QualifierBasicRest();
  }

  /** The first qualifier rule turns "Basic" into "Basic Completion". */
  lemma QualifierBasicFires()
    ensures ApplyRules("Basic", QualifierRules) == ApplyRules("Basic Completion", QualifierRules[1..])
  {
    QualifierTable();
    BasicCompletionText();
    ApplyRulesFire("Basic", QualifierRules, 0);
    assert QualifierRules[0..] == QualifierRules;
  }

  /** The other two qualifier rules find nothing in "Basic Completion". */
  lemma QualifierBasicRest()
    ensures ApplyRules("Basic Completion", QualifierRules[1..]) == "Basic Completion"
  {
    QualifierTable();
    BasicCompletionText();
    ApplyRulesPassByChars("Basic Completion", QualifierRules, 1, 3, "TS");
    assert QualifierRules[3..] == [];
  }

  /** The ellipsis stage leaves "Basic Completion" alone. */
  lemma EllipsisBasic()
    ensures ApplyRules("Basic Completion", EllipsisRules) == "Basic Completion"
  {
    var q := "Basic Completion";
    assert '.' !in q && 'F' !in q;
    NotOccursByChar(q, "New Folder", 'F');
    EllipsisStageKeeps(q);
  }

  /** The bare word "Basic" gains its qualifier. */
  lemma BasicCompletion()
    ensures ActionName("Basic") == "Basic Completion"
  {
    BasicLine();
    PrintableNavigate("Basic");
    ExtractStage("Basic");
    QualifierBasic();
    EllipsisBasic();
    ActionNameByStages("Basic", "Basic", "Basic", "Basic Completion", "Basic Completion");
  }

  /** "New Folder" is printable, lacks the dot and is not a navigation label. */
  lemma NewFolderLine()
    ensures forall c :: c in "New Folder" ==> ' ' <= c <= '~'
    ensures '.' !in "New Folder" && "New Folder"[0] == 'N'
  {
  }

  /** "New Folder" holds none of the qualified words. */
  lemma NewFolderText()
    ensures !Occurs("New Folder", "Basic") && !Occurs("New Folder", "Test") && !Occurs("New Folder", "SmartType")
  {
    assert 'B' !in "New Folder" && 'T' !in "New Folder" && 'S' !in "New Folder";
    NotOccursByChar("New Folder", "Basic", 'B');
    NotOccursByChar("New Folder", "Test", 'T');
    NotOccursByChar("New Folder", "SmartType", 'S');
  }

  /** The ellipsis stage on "New Folder": nothing to delete, then the rename. */
  lemma EllipsisNewFolder()
    ensures ApplyRules("New Folder", EllipsisRules) == "New..."
  {
    var s := "New Folder";
    assert '.' !in s;
    ReplaceAllLacking(s, "...", "", '.');
    assert ReplaceAll(s, "New Folder", "New...") == "New..." + ReplaceAll([], "New Folder", "New...");
    assert ApplyRules(s, EllipsisRules) == ReplaceAll(ReplaceAll(s, "...", ""), "New Folder", "New...");
  }

  /** "New Folder" becomes "New...", and those dots survive: they are written after the ellipsis deletion. */
  lemma NewFolderEllipsis()
    ensures ActionName("New Folder") == "New..."
  {
    var s := "New Folder";
    NewFolderLine();
    PrintableNavigate(s);
    ExtractStage(s);
    NewFolderText();
    QualifierStage(s);
    EllipsisNewFolder();
    ActionNameByStages(s, s, s, s, "New...");
  }
}

=== FILE: action_names.dfy ===
/**
 * How a command's host-supplied label becomes the name the exporter writes
 * (the `replaceAll` chain on the template text in `actionPerformed`).
 *
 * Terse or truncated labels are spelled out: trailing `...` menu labels
 * become "Navigate to ..." or "Extract ..." names, a few whole labels and
 * one label prefix gain "Navigate to ", three words gain a qualifier, and
 * finally every remaining `...` is deleted and "New Folder" becomes "New...".
 */
module ActionNames {
  import opened Strings
  import opened Rules

  /** The words the navigation renames put in front. */
  const NavigateTo: string := "Navigate to "

  /** Menu labels that open a navigation popup, and the anchored navigation labels. */
  const NavigateRules: seq<Rule> := [
    Plain("Class...", NavigateTo + "Class"),
    Plain("File...", NavigateTo + "File"),
    Plain("Symbol...", NavigateTo + "Symbol"),
    Plain("Line...", NavigateTo + "Line"),
    Whole("Type Declaration", NavigateTo + "Type Declaration"),
    Whole("Declaration", NavigateTo + "Declaration"),
    Leading("Super Method", NavigateTo + "Super Method"),
    Whole("Implementation(s)", NavigateTo + "Implementation(s)")
  ]

  /** Refactoring menu labels; "Functional Parameter..." is listed before "Parameter...". */
  const ExtractRules: seq<Rule> := [
    Plain("Method...", "Extract Method"),
    Plain("Constant...", "Extract Constant"),
    Plain("Variable...", "Extract Variable"),
    Plain("Functional Parameter...", "Extract Functional Parameter"),
    Plain("Parameter...", "Extract Parameter"),
    Plain("Field...", "Extract Field")
  ]

  /** Bare words that get a qualifier, wherever they occur in the label. */
  const QualifierRules: seq<Rule> := [
    Plain("Basic", "Basic Completion"),
    Plain("Test", NavigateTo + "Test"),
    Plain("SmartType", "Smart Completion")
  ]

  /** Every remaining ellipsis goes, and only then "New Folder" becomes "New...". */
  const EllipsisRules: seq<Rule> := [
    Plain("...", ""),
    Plain("New Folder", "New...")
  ]

  /** The complete chain, in source order. */
  const NameRules: seq<Rule> := NavigateRules + ExtractRules + QualifierRules + EllipsisRules

  /** The exported name of a command whose template text is `text`. */
  function ActionName(text: string): string
  {
    ApplyRules(text, NameRules)
  }

  /**
   * What the anchored navigation rules promise, stated directly: a label that
   * is exactly "Type Declaration", "Declaration" or "Implementation(s)", or
   * that starts with "Super Method", gets `NavigateTo` in front; any other
   * label is left alone.
   */
  function AnchoredRename(s: string): string
  {
    if s == "Type Declaration" || s == "Declaration" || s == "Implementation(s)" || "Super Method" <= s
    then NavigateTo + s
    else s
  }

  // ---------------------------------------------------------------------
  // The four stages

  /** The chain is navigation, then extraction, then qualifiers, then the ellipsis stage. */
  lemma NameStages(text: string)
    ensures ActionName(text) ==
      ApplyRules(ApplyRules(ApplyRules(ApplyRules(text, NavigateRules), ExtractRules), QualifierRules), EllipsisRules)
  {
    ApplyRulesAppend(text, NavigateRules + ExtractRules + QualifierRules, EllipsisRules);
    ApplyRulesAppend(text, NavigateRules + ExtractRules, QualifierRules);
    ApplyRulesAppend(text, NavigateRules, ExtractRules);
  }

  /** The shape of the navigation table: four unanchored `...` rules, then four anchored rules. */
  lemma NavigateTable()
    ensures |NavigateRules| == 8
    ensures forall k :: 0 <= k < 4 ==> NavigateRules[k].Anywhere? && "...."[k] in NavigateRules[k].pat
    ensures NavigateRules[4] == Whole("Type Declaration", NavigateTo + "Type Declaration")
    ensures NavigateRules[5] == Whole("Declaration", NavigateTo + "Declaration")
    ensures NavigateRules[6] == Leading("Super Method", NavigateTo + "Super Method")
    ensures NavigateRules[7] == Whole("Implementation(s)", NavigateTo + "Implementation(s)")
  {
  }

  /**
   * Each anchored navigation rule puts `NavigateTo` in front of what it
   * matches, and none of their patterns starts with the `N` of `NavigateTo`.
   */
  lemma NavigateAnchors()
    ensures forall k :: 4 <= k < |NavigateRules| ==>
      && !NavigateRules[k].Anywhere?
      && NavigateRules[k].rep == NavigateTo + NavigateRules[k].pat
      && NavigateRules[k].pat[0] != NavigateTo[0]
  {
    NavigateTable();
  }

  /**
   * On a single-line label without dots, the navigation stage is exactly the
   * anchored renaming: `^X$` fires only on the whole label and `^Super Method`
   * only on a prefix, and a label renamed once is never renamed again.
   */
  lemma NavigateStage(s: string)
    requires '.' !in s && SingleLine(s)
    ensures ApplyRules(s, NavigateRules) == AnchoredRename(s)
  {
    NavigateDotRules(s);
    NavigateAnchoredRules(s);
  }

  /** The four `...` rules leave a label without dots alone. */
  lemma NavigateDotRules(s: string)
    requires '.' !in s
    ensures ApplyRules(s, NavigateRules) == ApplyRules(s, NavigateRules[4..])
  {
    NavigateTable();
    ApplyRulesPassByChars(s, NavigateRules, 0, 4, "....");
  }

  /** The anchored half of the navigation table is the anchored renaming. */
  lemma NavigateAnchoredRules(s: string)
    requires SingleLine(s)
    ensures ApplyRules(s, NavigateRules[4..]) == AnchoredRename(s)
  {
    TypeDeclarationRule(s);
    DeclarationRule(s);
    SuperMethodRule(s);
    ImplementationsRule(s);
  }

  /** `^Type Declaration$` renames exactly the label "Type Declaration", after which the later anchored rules do nothing. */
  lemma TypeDeclarationRule(s: string)
    requires SingleLine(s)
    ensures ApplyRules(s, NavigateRules[4..]) ==
      if s == "Type Declaration" then NavigateTo + s else ApplyRules(s, NavigateRules[5..])
  {
    NavigateTable();
    NavigateAnchors();
    ApplyRulesAnchoredStep(s, NavigateTo, NavigateRules, 4);
  }

  /** `^Declaration$` renames exactly the label "Declaration", after which the later anchored rules do nothing. */
  lemma DeclarationRule(s: string)
    requires SingleLine(s)
    ensures ApplyRules(s, NavigateRules[5..]) ==
      if s == "Declaration" then NavigateTo + s else ApplyRules(s, NavigateRules[6..])
  {
    NavigateTable();
    NavigateAnchors();
    ApplyRulesAnchoredStep(s, NavigateTo, NavigateRules, 5);
  }

  /** `^Super Method` renames every label that starts with "Super Method", after which the last anchored rule does nothing. */
  lemma SuperMethodRule(s: string)
    requires SingleLine(s)
    ensures ApplyRules(s, NavigateRules[6..]) ==
      if "Super Method" <= s then NavigateTo + s else ApplyRules(s, NavigateRules[7..])
  {
    NavigateTable();
    NavigateAnchors();
    ApplyRulesAnchoredStep(s, NavigateTo, NavigateRules, 6);
  }

  /**
   * `^Super Method` within the navigation stage: of the single-line labels
   * without dots other than the three whole navigation labels, the stage
   * changes exactly those that start with "Super Method", and changes them
   * only by putting `NavigateTo` in front.
   */
  lemma SuperMethodPrefixOnly(s: string)
    requires '.' !in s && SingleLine(s)
    requires s != "Type Declaration" && s != "Declaration" && s != "Implementation(s)"
    ensures ApplyRules(s, NavigateRules) != s <==> "Super Method" <= s
    ensures "Super Method" <= s ==> ApplyRules(s, NavigateRules) == NavigateTo + s
  {
    NavigateStage(s);
    assert |NavigateTo + s| > |s|;
  }

  /** `^Implementation\(s\)$` renames exactly the label "Implementation(s)". */
  lemma ImplementationsRule(s: string)
    requires SingleLine(s)
    ensures ApplyRules(s, NavigateRules[7..]) ==
      if s == "Implementation(s)" then NavigateTo + s else s
  {
    NavigateTable();
    NavigateAnchors();
    ApplyRulesAnchoredStep(s, NavigateTo, NavigateRules, 7);
    assert NavigateRules[8..] == [];
  }

  /** Every extraction pattern ends in `...`. */
  lemma ExtractTable()
    ensures forall k :: 0 <= k < |ExtractRules| ==> ExtractRules[k].Anywhere? && "......"[k] in ExtractRules[k].pat
    ensures |ExtractRules| == 6
  {
  }

  /** A label without dots passes the extraction stage unchanged. */
  lemma ExtractStage(s: string)
    requires '.' !in s
    ensures ApplyRules(s, ExtractRules) == s
  {
    ExtractTable();
    ApplyRulesPassByChars(s, ExtractRules, 0, 6, "......");
    assert ExtractRules[6..] == [];
  }

  /** A label holding none of the three qualified words passes the qualifier stage unchanged. */
  lemma QualifierStage(s: string)
    requires !Occurs(s, "Basic") && !Occurs(s, "Test") && !Occurs(s, "SmartType")
    ensures ApplyRules(s, QualifierRules) == s
  {
    forall k | 0 <= k < |QualifierRules|
      ensures ApplyRule(s, QualifierRules[k]) == s
    {
      AnywhereAbsent(s, QualifierRules[k]);
    }
    ApplyRulesPass(s, QualifierRules, 0, 3);
    assert QualifierRules[0..] == QualifierRules;
    assert QualifierRules[3..] == [];
  }

  /**
   * The ellipsis stage deletes every `...` before it rewrites "New Folder":
   * what the deletion leaves holds no `...` at all (a run of dots shrinks to
   * its length modulo three), so when no "New Folder" is left after the
   * deletion, the stage's result holds no `...` either.
   */
  lemma EllipsisStage(s: string)
    ensures !Occurs(ReplaceAll(s, "...", ""), "...")
    ensures !Occurs(ReplaceAll(s, "...", ""), "New Folder") ==> !Occurs(ApplyRules(s, EllipsisRules), "...")
  {
    var d := ReplaceAll(s, "...", "");
    DeleteTripleLeavesNone(s, '.');
    assert ApplyRules(s, EllipsisRules) == ReplaceAll(d, "New Folder", "New...");
    if !Occurs(d, "New Folder") {
      ReplaceAllNoOccurrence(d, "New Folder", "New...");
    }
  }

  /** A label without dots and without "New Folder" passes the ellipsis stage unchanged. */
  lemma EllipsisStageKeeps(s: string)
    requires '.' !in s && !Occurs(s, "New Folder")
    ensures ApplyRules(s, EllipsisRules) == s
  {
    ReplaceAllLacking(s, "...", "", '.');
    ReplaceAllNoOccurrence(s, "New Folder", "New...");
    assert ApplyRules(s, EllipsisRules) == ReplaceAll(ReplaceAll(s, "...", ""), "New Folder", "New...");
  }

  /**
   * A single-line label without dots, without the qualified words, without
   * "New Folder" and not hit by an anchored rule is exported as it is: the
   * chain rewrites only what its tables name.
   */
  lemma ActionNameKeeps(s: string)
    requires '.' !in s && SingleLine(s) && AnchoredRename(s) == s
    requires !Occurs(s, "Basic") && !Occurs(s, "Test") && !Occurs(s, "SmartType") && !Occurs(s, "New Folder")
    ensures ActionName(s) == s
  {
    NameStages(s);
    NavigateStage(s);
    ExtractStage(s);
    QualifierStage(s);
    EllipsisStageKeeps(s);
  }

  /**
   * A renamed label without dots and without the qualified words or
   * "New Folder" passes the three later stages unchanged.
   */
  lemma LaterStagesKeep(n: string)
    requires '.' !in n && !Occurs(n, "Basic") && !Occurs(n, "Test") && !Occurs(n, "SmartType") && !Occurs(n, "New Folder")
    ensures ApplyRules(n, ExtractRules) == n
    ensures ApplyRules(n, QualifierRules) == n
    ensures ApplyRules(n, EllipsisRules) == n
  {
    ExtractStage(n);
    QualifierStage(n);
    EllipsisStageKeeps(n);
  }

  /** The name assembled from the four stages' results. */
  lemma ActionNameByStages(s: string, n1: string, n2: string, n3: string, n4: string)
    requires ApplyRules(s, NavigateRules) == n1 && ApplyRules(n1, ExtractRules) == n2
    requires ApplyRules(n2, QualifierRules) == n3 && ApplyRules(n3, EllipsisRules) == n4
    ensures ActionName(s) == n4
  {
    NameStages(s);
  }
}

=== FILE: export.dfy ===
/**
 * The export itself (`ShortcutExporterAction.actionPerformed`): the commands
 * bound in both the Windows/Linux and the macOS keymap are visited, each
 * resolvable command that passes the inclusion filter becomes one entry
 * `"<name>": [<windows>, <mac>]`, and the entries are written between a
 * fixed header and footer, separated by `,\n`.
 *
 * Host services become inputs: a keymap is its set of command ids and each
 * id's bindings already rendered as raw text; the command registry is a map
 * from id to template text, an id missing from it being a command that no
 * longer resolves; the visit order of the common ids is a sequence.
 */
module Export {
  import opened Strings
  import opened Rules
  import opened ShortcutFormat
  import opened ActionNames
  import opened Output

  /** One keymap: the command ids it binds, and each id's bindings as the host prints them. */
  datatype Keymap = Keymap(ids: set<string>, bindings: map<string, seq<string>>)

  /** The raw bindings of `id` in `km`; an id without bindings has none. */
  function RawBindings(km: Keymap, id: string): seq<string>
  {
    if id in km.bindings then km.bindings[id] else []
  }

  /** The display text of the bindings of `id` in `km`: mouse gestures dropped, the rest joined and formatted. */
  function Shortcuts(km: Keymap, id: string): string
  {
    Format(BindingText(RawBindings(km, id)))
  }

  /** The ids bound in both keymaps. */
  function CommonIds(win: Keymap, mac: Keymap): (common: set<string>)
    ensures forall id :: id in common <==> id in win.ids && id in mac.ids
  {
    win.ids * mac.ids
  }

  /** `order` visits every id of `ids` exactly once, as iterating the set does. */
  predicate IsVisitOrder(order: seq<string>, ids: set<string>)
  {
    && (forall i, j :: 0 <= i < j < |order| ==> order[i] != order[j])
    && (forall id :: id in order ==> id in ids)
    && (forall id :: id in ids ==> id in order)
  }

  /**
   * The length Java's `String.length` reports: UTF-16 code units, so a
   * character outside the Basic Multilingual Plane counts twice.
   */
  function Utf16Length(s: string): (n: nat)
    ensures |s| <= n <= 2 * |s|
  {
    if s == [] then 0 else (if s[0] as int > 0xFFFF then 2 else 1) + Utf16Length(s[1..])
  }

  // ---------------------------------------------------------------------
  // The inclusion filter

  /** Names containing one of these are never exported. */
  const DeniedFragments: seq<string> := ["XPath", "Zoom", "Stretch", "Run Ant Target"]

  /** Names that are never exported, in source order ("Right" is listed twice). */
  const DeniedNames: seq<string> := [
    "Tab", "Fully Expand Tree Node", "Set NULL", "Add", "Send EOF",
    "Up", "Down", "Configure Current File Analysis",
    "Left", "Right", "Project Directory",
    "Right", "Show/Hide Columns", "Maintenance",
    "Generate DDL", "Open Console", "Recursive",
    "Execute Groovy Code", "Go To Changed File",
    "Edit Component", "Send to Left",
    "Send to Right", "Edit Group",
    "Module Directory", "Grid",
    "Delete", "Browse", "Split Line",
    "Show Source", "Refresh", "Edit Maximized",
    "Reload Page", "Edit", "Generate SQL",
    "Set DEFAULT", "Level up", "Tapestry Class",
    "Actual Size", "Apply Current Layout",
    "Next Parameter", "Tag to Documentation Navigation",
    "Commit Message History", "Exclude",
    "Show Diff Settings Popup", "Desktop Directory",
    "Next Template Variable or Finish In-Place Refactoring", "Indent Selection"
  ]

  /** A macOS display shortcut equal to this excludes the command. */
  const DeniedMacShortcut: string := "Tag to Documentation Navigation"

  /**
   * Whether a command is exported, given its raw template `text`, its
   * normalised `name` and its two display shortcuts.
   */
  predicate Included(text: string, name: string, win: string, mac: string)
  {
    && (forall f :: f in DeniedFragments ==> !Occurs(name, f))
    && name !in DeniedNames
    && mac != DeniedMacShortcut
    && win != [] && mac != []
    && Utf16Length(text) > 1
  }

  /** The entry written for `id`, if its command resolves and passes the filter. */
  function EntryFor(win: Keymap, mac: Keymap, actions: map<string, string>, id: string): Option<Entry>
  {
    if id !in actions then None
    else
      var text := actions[id];
      var name := ActionName(text);
      var w := Shortcuts(win, id);
      var m := Shortcuts(mac, id);
      if Included(text, name, w, m) then Some(Entry(id, name, w, m)) else None
  }

  /** How the exporter decides each id: `EntryFor` with the host data fixed. */
  function Decide(win: Keymap, mac: Keymap, actions: map<string, string>): string -> Option<Entry>
  {
    id => EntryFor(win, mac, actions, id)
  }

  /** The entries the exporter writes when it visits the ids in `order`. */
  function Entries(win: Keymap, mac: Keymap, actions: map<string, string>, order: seq<string>): seq<Entry>
  {
    Visit(order, Decide(win, mac, actions))
  }

  /**
   * The whole export: the document loop over the common ids, visited in
   * `order`, deciding each id with `EntryFor`. The entries written are the
   * accepted commands bound in both keymaps, each exactly once.
   */
  method ExportKeymaps(product: string, version: string, win: Keymap, mac: Keymap, actions: map<string, string>, order: seq<string>)
    returns (out: string)
    requires IsVisitOrder(order, CommonIds(win, mac))
    ensures out == Document(product, version, Entries(win, mac, actions, order))
    ensures forall e :: e in Entries(win, mac, actions, order) ==>
      e.id in CommonIds(win, mac) && EntryFor(win, mac, actions, e.id) == Some(e)
    ensures forall id :: id in CommonIds(win, mac) && EntryFor(win, mac, actions, id).Some? ==>
      EntryFor(win, mac, actions, id).value in Entries(win, mac, actions, order)
    ensures forall i, j :: 0 <= i < j < |Entries(win, mac, actions, order)| ==>
      Entries(win, mac, actions, order)[i].id != Entries(win, mac, actions, order)[j].id
  {
    out := Assemble(product, version, Decide(win, mac, actions), order);
    OnlyCommonExported(win, mac, actions, order);
    forall id | id in CommonIds(win, mac) && EntryFor(win, mac, actions, id).Some?
      ensures EntryFor(win, mac, actions, id).value in Entries(win, mac, actions, order)
    {
      AcceptedExported(win, mac, actions, order, id);
    }
  }

  // ---------------------------------------------------------------------
  // Which commands are exported

  /** A command the registry does not resolve is skipped. */
  lemma UnresolvedSkipped(win: Keymap, mac: Keymap, actions: map<string, string>, id: string)
    requires id !in actions
    ensures EntryFor(win, mac, actions, id) == None
  {
  }

  /** A command whose template text is at most one UTF-16 unit long is skipped, whatever its shortcuts. */
  lemma ShortTextSkipped(win: Keymap, mac: Keymap, actions: map<string, string>, id: string)
    requires id in actions && Utf16Length(actions[id]) <= 1
    ensures EntryFor(win, mac, actions, id) == None
  {
  }

  /** A command with no keyboard binding in either keymap (none at all, or only mouse gestures) is skipped. */
  lemma NoKeyboardBindingSkipped(win: Keymap, mac: Keymap, actions: map<string, string>, id: string)
    requires (forall r :: r in RawBindings(win, id) ==> Occurs(r, "button"))
          || (forall r :: r in RawBindings(mac, id) ==> Occurs(r, "button"))
    ensures EntryFor(win, mac, actions, id) == None
  {
    if forall r :: r in RawBindings(win, id) ==> Occurs(r, "button") {
      OnlyButtonsFormatEmpty(RawBindings(win, id));
    } else {
      OnlyButtonsFormatEmpty(RawBindings(mac, id));
    }
  }

  /** A command whose normalised name is on the deny list is skipped. */
  lemma DeniedNameSkipped(win: Keymap, mac: Keymap, actions: map<string, string>, id: string)
    requires id in actions && ActionName(actions[id]) in DeniedNames
    ensures EntryFor(win, mac, actions, id) == None
  {
  }

  /** A command whose normalised name contains a denied fragment is skipped. */
  lemma DeniedFragmentSkipped(win: Keymap, mac: Keymap, actions: map<string, string>, id: string, f: string)
    requires id in actions && f in DeniedFragments && Occurs(ActionName(actions[id]), f)
    ensures EntryFor(win, mac, actions, id) == None
  {
  }

  /**
   * The filter in terms of the host data: a command gets an entry exactly
   * when it resolves, its template text is longer than one UTF-16 unit, its
   * name is neither denied nor holds a denied fragment, each keymap leaves
   * binding text that is not blank once mouse gestures are dropped, and its
   * macOS shortcut is not the denied one.
   */
  lemma EntryForIff(win: Keymap, mac: Keymap, actions: map<string, string>, id: string)
    ensures EntryFor(win, mac, actions, id).Some? <==>
      && id in actions
      && Utf16Length(actions[id]) > 1
      && (forall f :: f in DeniedFragments ==> !Occurs(ActionName(actions[id]), f))
      && ActionName(actions[id]) !in DeniedNames
      && !Blank(BindingText(RawBindings(win, id)))
      && !Blank(BindingText(RawBindings(mac, id)))
      && Shortcuts(mac, id) != DeniedMacShortcut
  {
    if id in actions {
      var text := actions[id];
      var w := Shortcuts(win, id);
      var m := Shortcuts(mac, id);
      assert EntryFor(win, mac, actions, id).Some? <==> Included(text, ActionName(text), w, m);
      FormatEmptyIffBlank(BindingText(RawBindings(win, id)));
      FormatEmptyIffBlank(BindingText(RawBindings(mac, id)));
    }
  }

  /** Every entry `EntryFor` gives carries the id it was asked about. */
  lemma DecideKeepsId(win: Keymap, mac: Keymap, actions: map<string, string>)
    ensures forall id :: Decide(win, mac, actions)(id).Some? ==> Decide(win, mac, actions)(id).value.id == id
  {
  }

  /**
   * With the visit order of the common ids, only commands bound in both
   * keymaps are exported, each by the entry `EntryFor` gives it, and none twice.
   */
  lemma OnlyCommonExported(win: Keymap, mac: Keymap, actions: map<string, string>, order: seq<string>)
    requires IsVisitOrder(order, CommonIds(win, mac))
    ensures forall e :: e in Entries(win, mac, actions, order) ==>
      e.id in win.ids && e.id in mac.ids && EntryFor(win, mac, actions, e.id) == Some(e)
    ensures forall i, j :: 0 <= i < j < |Entries(win, mac, actions, order)| ==>
      Entries(win, mac, actions, order)[i].id != Entries(win, mac, actions, order)[j].id
  {
    var decide := Decide(win, mac, actions);
    VisitMembers(order, decide);
    DecideKeepsId(win, mac, actions);
    VisitDistinct(order, decide);
  }

  /** Every command bound in both keymaps that `EntryFor` accepts is exported. */
  lemma AcceptedExported(win: Keymap, mac: Keymap, actions: map<string, string>, order: seq<string>, id: string)
    requires IsVisitOrder(order, CommonIds(win, mac))
    requires id in win.ids && id in mac.ids && EntryFor(win, mac, actions, id).Some?
    ensures EntryFor(win, mac, actions, id).value in Entries(win, mac, actions, order)
  {
    VisitMembers(order, Decide(win, mac, actions));
  }

  /** A command bound in only one of the keymaps is never exported. */
  lemma OneSidedNotExported(win: Keymap, mac: Keymap, actions: map<string, string>, order: seq<string>, id: string)
    requires IsVisitOrder(order, CommonIds(win, mac))
    requires id !in win.ids || id !in mac.ids
    ensures forall e :: e in Entries(win, mac, actions, order) ==> e.id != id
  {
    OnlyCommonExported(win, mac, actions, order);
  }

  // ---------------------------------------------------------------------
  // UTF-16 length

  /** Text made only of Basic Multilingual Plane characters is as long in UTF-16 units as in characters. */
  lemma {:induction false} Utf16LengthBmp(s: string)
    requires forall i :: 0 <= i < |s| ==> s[i] as int <= 0xFFFF
    ensures Utf16Length(s) == |s|
    decreases |s|
  {
    if s != [] {
      Utf16LengthBmp(s[1..]);
    }
  }
}

=== FILE: output.dfy ===
/**
 * The exported document: the entries a visit of the command ids produces,
 * each rendered as one line `"<name>": [<windows>, <mac>]`, written between
 * a fixed header and footer and separated by `,\n`.
 */
module Output {
  import opened Strings

  datatype Option<T> = None | Some(value: T)

  /** One exported command: its id (not written out), its name and its two display shortcuts. */
  datatype Entry = Entry(id: string, name: string, win: string, mac: string)

  /** The entries written when the ids are visited in `order` and `decide` settles each one, in that order. */
  function Visit(order: seq<string>, decide: string -> Option<Entry>): (es: seq<Entry>)
    ensures |es| <= |order|
    decreases |order|
  {
    if order == [] then []
    else
      var front := Visit(order[..|order| - 1], decide);
      match decide(order[|order| - 1])
      case Some(e) => front + [e]
      case None => front
  }

  /** The fixed opening of the document, naming the product and its major version. */
  function Header(product: string, version: string): string
  {
    "{\n" + "\t\"name\": \"" + product + "\",\n" + "\t\"version\": \"" + version + "\",\n"
    + "\t\"default_context\": \"Global Context\",\n" + "\t\"os\": [\"windows\", \"mac\", \"linux\"],\n"
    + "\t\"contexts\": {\n" + "\t\t\"Global Context\": {\n"
  }

  /** The fixed closing of the document. */
  const Footer: string := "\n\t\t}\n" + "\t}\n" + "}\n"

  /** The separator between entries. */
  const Separator: string := ",\n"

  /** One entry as a line of the document (names and shortcuts are written as they are, unescaped). */
  function Render(e: Entry): string
  {
    "\t\t\t\"" + e.name + "\": [" + e.win + ", " + e.mac + "]"
  }

  /** The rendered entries, in order. */
  function Renders(es: seq<Entry>): (rs: seq<string>)
    ensures |rs| == |es|
    ensures forall i :: 0 <= i < |es| ==> rs[i] == Render(es[i])
  {
    seq(|es|, i requires 0 <= i < |es| => Render(es[i]))
  }

  /** The whole document for a list of entries. */
  function Document(product: string, version: string, es: seq<Entry>): string
  {
    Header(product, version) + Join(Renders(es), Separator) + Footer
  }

  /**
   * The export loop as the source runs it: a builder that starts with
   * `head`, and a `started` flag that puts the separator before every
   * entry but the first.
   */
  method Build(head: string, decide: string -> Option<Entry>, order: seq<string>) returns (out: string)
    ensures out == head + Join(Renders(Visit(order, decide)), Separator)
  {
    out := head;
    var started := false;
    var written: seq<Entry> := [];
    var i := 0;
    while i < |order|
      invariant 0 <= i <= |order|
      invariant written == Visit(order[..i], decide)
      invariant started <==> written != []
      invariant out == head + Join(Renders(written), Separator)
    {
      VisitStep(order, i, decide);
      var d := decide(order[i]);
      if d.Some? {
        BuildStep(head, written, d.value, started, out);
        if started {
          out := out + Separator;
        }
        out := out + Render(d.value);
        written := written + [d.value];
        started := true;
      }
      i := i + 1;
    }
    assert order[..|order|] == order;
  }

  /** Visiting one more id adds its entry, if it has one, at the end. */
  lemma VisitStep(order: seq<string>, i: nat, decide: string -> Option<Entry>)
    requires i < |order|
    ensures Visit(order[..i + 1], decide) ==
      if decide(order[i]).Some? then Visit(order[..i], decide) + [decide(order[i]).value] else Visit(order[..i], decide)
  {
    assert order[..i + 1][..i] == order[..i];
  }

  /** One round of the loop: the separator unless nothing was written yet, then the new line. */
  lemma BuildStep(head: string, written: seq<Entry>, e: Entry, started: bool, out: string)
    requires started <==> written != []
    requires out == head + Join(Renders(written), Separator)
    ensures (if started then out + Separator + Render(e) else out + Render(e)) ==
      head + Join(Renders(written + [e]), Separator)
  {
    JoinRendersSnoc(written, e);
    if !started {
      assert Renders(written) == [];
    }
    Regroup(head, Join(Renders(written), Separator), Separator, Render(e), started);
  }

  /** Appending to a builder regroups as appending to what it holds. */
  lemma Regroup(head: string, body: string, sep: string, line: string, started: bool)
    requires !started ==> body == []
    ensures (if started then head + body + sep + line else head + body + line) ==
      head + ((if started then body + sep else []) + line)
  {
    if started {
      assert head + body + sep + line == head + (body + sep + line);
    } else {
      assert head + body == head;
      assert [] + line == line;
    }
  }

  /** Joining one more rendered entry puts the separator before it unless it is the first. */
  lemma JoinRendersSnoc(es: seq<Entry>, e: Entry)
    ensures Join(Renders(es + [e]), Separator) ==
      (if es == [] then [] else Join(Renders(es), Separator) + Separator) + Render(e)
  {
    RendersSnoc(es, e);
    JoinSnoc(Renders(es), Render(e), Separator);
  }

  /** The loop between the header and the footer writes exactly `Document`. */
  method Assemble(product: string, version: string, decide: string -> Option<Entry>, order: seq<string>)
    returns (out: string)
    ensures out == Document(product, version, Visit(order, decide))
  {
    out := Build(Header(product, version), decide, order);
    out := out + Footer;
  }

  /** Rendering one more entry adds its line at the end. */
  lemma RendersSnoc(es: seq<Entry>, e: Entry)
    ensures Renders(es + [e]) == Renders(es) + [Render(e)]
  {
    assert Renders(es + [e])[|es|] == Render(e);
  }

  // ---------------------------------------------------------------------
  // The visit

  /** The entries are exactly the decided entries of the visited ids. */
  lemma {:induction false} VisitMembers(order: seq<string>, decide: string -> Option<Entry>)
    ensures forall e :: e in Visit(order, decide) ==> exists id :: id in order && decide(id) == Some(e)
    ensures forall id :: id in order && decide(id).Some? ==> decide(id).value in Visit(order, decide)
    decreases |order|
  {
    if order != [] {
      var front := order[..|order| - 1];
      VisitMembers(front, decide);
      assert order == front + [order[|order| - 1]];
      assert forall id :: id in front ==> id in order;
    }
  }

  /** Visiting one list of ids and then another writes the first list's entries, then the second's. */
  lemma {:induction false} VisitAppend(a: seq<string>, b: seq<string>, decide: string -> Option<Entry>)
    ensures Visit(a + b, decide) == Visit(a, decide) + Visit(b, decide)
    decreases |b|
  {
    if b == [] {
      assert a + b == a;
    } else {
      var front := b[..|b| - 1];
      VisitAppend(a, front, decide);
      assert (a + b)[..|a + b| - 1] == a + front;
      assert (a + b)[|a + b| - 1] == b[|b| - 1];
    }
  }

  /** When every entry carries the id it was decided for, visiting distinct ids writes entries with distinct ids. */
  lemma {:induction false} VisitDistinct(order: seq<string>, decide: string -> Option<Entry>)
    requires forall i, j :: 0 <= i < j < |order| ==> order[i] != order[j]
    requires forall id :: decide(id).Some? ==> decide(id).value.id == id
    ensures forall i, j :: 0 <= i < j < |Visit(order, decide)| ==>
      Visit(order, decide)[i].id != Visit(order, decide)[j].id
    decreases |order|
  {
    if order != [] {
      var front := order[..|order| - 1];
      var last := order[|order| - 1];
      VisitDistinct(front, decide);
      VisitMembers(front, decide);
      assert last !in front;
      assert forall e :: e in Visit(front, decide) ==> e.id in front;
      assert Visit(order, decide) == if decide(last).Some? then Visit(front, decide) + [decide(last).value] else Visit(front, decide);
    }
  }

  // ---------------------------------------------------------------------
  // The document's shape

  /** With nothing to export the document is the header followed directly by the footer. */
  lemma DocumentEmpty(product: string, version: string)
    ensures Document(product, version, []) == Header(product, version) + Footer
  {
    assert Renders([]) == [];
  }

  /**
   * The first entry follows the header directly and the last entry precedes
   * the footer directly: no separator before the first entry or after the last.
   */
  lemma DocumentFrame(product: string, version: string, es: seq<Entry>)
    requires es != []
    ensures var body := Join(Renders(es), Separator);
      && Document(product, version, es) == Header(product, version) + body + Footer
      && Render(es[0]) <= body
      && body[|body| - |Render(es[|es| - 1])|..] == Render(es[|es| - 1])
  {
    JoinFrame(Renders(es), Separator);
  }

  /** The document is as long as header, entries and footer together, plus one separator between each two entries. */
  lemma DocumentLength(product: string, version: string, es: seq<Entry>)
    requires es != []
    ensures |Document(product, version, es)| ==
      |Header(product, version)| + TotalLength(Renders(es)) + (|es| - 1) * |Separator| + |Footer|
  {
    JoinLength(Renders(es), Separator);
  }

}

=== FILE: rules.dfy ===
/**
 * Ordered rewrite tables. The exporter spells both shortcuts and command
 * names by running a fixed chain of `String.replaceAll` calls; every pattern
 * in those chains is a literal, possibly anchored with `^` (start of input)
 * and `$` (end of input). A table is the chain as data, applied in order.
 */
module Rules {
  import opened Strings

  /**
   * One `replaceAll(regex, replacement)` step whose regex is a literal `pat`:
   * unanchored, anchored at both ends (`^pat$`), or anchored at the start (`^pat`).
   */
  datatype Rewrite =
    | Anywhere(pat: string, rep: string)
    | WholeInput(pat: string, rep: string)
    | AtStart(pat: string, rep: string)

  /** The patterns in the source are never empty. */
  type Rule = r: Rewrite | |r.pat| > 0 witness Anywhere(" ", "")

  /** An unanchored rule. */
  function Plain(pat: string, rep: string): Rule
    requires |pat| > 0
  {
    Anywhere(pat, rep)
  }

  /** A rule anchored at both ends. */
  function Whole(pat: string, rep: string): Rule
    requires |pat| > 0
  {
    WholeInput(pat, rep)
  }

  /** A rule anchored at the start. */
  function Leading(pat: string, rep: string): Rule
    requires |pat| > 0
  {
    AtStart(pat, rep)
  }

  /**
   * Line terminators as Java's regular expressions see them when neither
   * MULTILINE nor UNIX_LINES is set.
   */
  predicate IsLineTerminator(c: char) {
    c == '\n' || c == '\r' || c == '\U{85}' || c == '\U{2028}' || c == '\U{2029}'
  }

  /**
   * Java's `$` without MULTILINE, at the point between `before` and `rest`:
   * it holds at the end of the input and also just before one final line
   * terminator, where `\r\n` counts as one terminator and the gap between a
   * `\r` and its `\n` is not a match position.
   */
  predicate DollarAt(before: string, rest: string) {
    || rest == []
    || rest == "\r\n"
    || (&& |rest| == 1
        && IsLineTerminator(rest[0])
        && !(rest[0] == '\n' && |before| > 0 && before[|before| - 1] == '\r'))
  }

  /** No character of `s` is a line terminator. */
  predicate SingleLine(s: string) {
    forall i :: 0 <= i < |s| ==> !IsLineTerminator(s[i])
  }

  /** One step of the chain. Anchored patterns can match only at position 0, so they fire at most once. */
  function ApplyRule(s: string, r: Rule): string
  {
    match r
    case Anywhere(pat, rep) => ReplaceAll(s, pat, rep)
    case WholeInput(pat, rep) =>
      if pat <= s && DollarAt(pat, s[|pat|..]) then rep + s[|pat|..] else s
    case AtStart(pat, rep) =>
      if pat <= s then rep + s[|pat|..] else s
  }

  /** The whole chain, first rule first. */
  function ApplyRules(s: string, rules: seq<Rule>): string
    decreases |rules|
  {
    if rules == [] then s else ApplyRules(ApplyRule(s, rules[0]), rules[1..])
  }

  // ---------------------------------------------------------------------
  // Anchors

  /** Printable ASCII text is a single line. */
  lemma SingleLineByChars(s: string)
    requires forall c :: c in s ==> ' ' <= c <= '~'
    ensures SingleLine(s)
  {
    forall i | 0 <= i < |s|
      ensures !IsLineTerminator(s[i])
    {
      assert s[i] in s;
    }
  }

  /** On text without line terminators, a `^pat$` rule fires exactly when the text is `pat`. */
  lemma WholeInputExact(s: string, r: Rule)
    requires r.WholeInput? && SingleLine(s)
    ensures ApplyRule(s, r) == if s == r.pat then r.rep else s
  {
    if r.pat <= s {
      var rest := s[|r.pat|..];
      assert forall i :: 0 <= i < |rest| ==> rest[i] == s[|r.pat| + i];
      DollarAtOnlyAtEnd(r.pat, rest);
      assert s == r.pat + rest;
    }
  }

  /** Where no line terminator follows, `$` holds only at the very end. */
  lemma DollarAtOnlyAtEnd(before: string, rest: string)
    requires SingleLine(rest)
    ensures DollarAt(before, rest) <==> rest == []
  {
    assert rest != [] ==> !IsLineTerminator(rest[0]);
  }

  /** A `^pat$` rule changes text only when the text is `pat` followed by at most one final line terminator. */
  lemma WholeInputFiresOnlyOnWhole(s: string, r: Rule)
    requires r.WholeInput? && ApplyRule(s, r) != s
    ensures r.pat <= s
    ensures |s| == |r.pat| || s[|r.pat|..] == "\r\n" || (|s| == |r.pat| + 1 && IsLineTerminator(s[|s| - 1]))
  {
  }

  // ---------------------------------------------------------------------
  // Tables

  /** Running two tables one after the other is running their concatenation. */
  lemma {:induction false} ApplyRulesAppend(s: string, first: seq<Rule>, second: seq<Rule>)
    ensures ApplyRules(s, first + second) == ApplyRules(ApplyRules(s, first), second)
    decreases |first|
  {
    if first != [] {
      assert (first + second)[0] == first[0];
      assert (first + second)[1..] == first[1..] + second;
      ApplyRulesAppend(ApplyRule(s, first[0]), first[1..], second);
    } else {
      assert first + second == second;
    }
  }

  /** Empty text stays empty under any table: no rule has an empty pattern. */
  lemma {:induction false} ApplyRulesEmpty(rules: seq<Rule>)
    ensures ApplyRules([], rules) == []
    decreases |rules|
  {
    if rules != [] {
      assert ApplyRule([], rules[0]) == [];
      ApplyRulesEmpty(rules[1..]);
    }
  }

  /** Non-empty text stays non-empty when no rule's replacement is empty. */
  lemma {:induction false} ApplyRulesKeepsNonEmpty(s: string, rules: seq<Rule>)
    requires s != []
    requires forall k :: 0 <= k < |rules| ==> rules[k].rep != []
    ensures ApplyRules(s, rules) != []
    decreases |rules|
  {
    if rules != [] {
      var r := rules[0];
      if r.Anywhere? {
        ReplaceAllNonEmpty(s, r.pat, r.rep);
      }
      ApplyRulesKeepsNonEmpty(ApplyRule(s, r), rules[1..]);
    }
  }

  /** Text with a non-space keeps one when every replacement has one. */
  lemma {:induction false} ApplyRulesKeepsNonBlank(s: string, rules: seq<Rule>)
    requires !Blank(s)
    requires forall k :: 0 <= k < |rules| ==> !Blank(rules[k].rep)
    ensures !Blank(ApplyRules(s, rules))
    decreases |rules|
  {
    if rules != [] {
      var r := rules[0];
      var t := ApplyRule(s, r);
      match r {
        case Anywhere(pat, rep) =>
          ReplaceAllKeepsNonBlank(s, pat, rep);
        case WholeInput(pat, rep) =>
          if t != s {
            var k :| 0 <= k < |rep| && rep[k] != ' ';
            assert t[k] == rep[k];
          }
        case AtStart(pat, rep) =>
          if t != s {
            var k :| 0 <= k < |rep| && rep[k] != ' ';
            assert t[k] == rep[k];
          }
      }
      ApplyRulesKeepsNonBlank(t, rules[1..]);
    }
  }

  /** Blank text passes unchanged through rules whose patterns each hold a non-space. */
  lemma {:induction false} ApplyRulesBlankFixed(s: string, rules: seq<Rule>)
    requires Blank(s)
    requires forall k :: 0 <= k < |rules| ==> !Blank(rules[k].pat)
    ensures ApplyRules(s, rules) == s
    decreases |rules|
  {
    if rules != [] {
      var r := rules[0];
      var j :| 0 <= j < |r.pat| && r.pat[j] != ' ';
      PrefixAgrees(s, r.pat, j);
      if r.Anywhere? {
        NotOccursInBlank(s, r.pat, j);
        ReplaceAllNoOccurrence(s, r.pat, r.rep);
      }
      ApplyRulesBlankFixed(s, rules[1..]);
    }
  }

  /** Blank text passes unchanged through rules whose patterns each begin with a non-space. */
  lemma ApplyRulesBlankFixedByHead(s: string, rules: seq<Rule>)
    requires Blank(s)
    requires forall k :: 0 <= k < |rules| ==> rules[k].pat[0] != ' '
    ensures ApplyRules(s, rules) == s
  {
    forall k | 0 <= k < |rules|
      ensures !Blank(rules[k].pat)
    {
      assert rules[k].pat[0] != ' ';
    }
    ApplyRulesBlankFixed(s, rules);
  }

  /** Text with a non-space keeps one through rules whose replacements each begin with a non-space. */
  lemma ApplyRulesKeepsNonBlankByHead(s: string, rules: seq<Rule>)
    requires !Blank(s)
    requires forall k :: 0 <= k < |rules| ==> rules[k].rep != [] && rules[k].rep[0] != ' '
    ensures !Blank(ApplyRules(s, rules))
  {
    forall k | 0 <= k < |rules|
      ensures !Blank(rules[k].rep)
    {
      assert rules[k].rep[0] != ' ';
    }
    ApplyRulesKeepsNonBlank(s, rules);
  }

  // ---------------------------------------------------------------------
  // Stepping through a concrete table

  /** Running a table from rule `k` on is running rule `k`, then the rest. */
  lemma ApplyRulesFire(s: string, rules: seq<Rule>, k: nat)
    requires k < |rules|
    ensures ApplyRules(s, rules[k..]) == ApplyRules(ApplyRule(s, rules[k]), rules[k + 1..])
  {
    assert rules[k..][0] == rules[k];
    assert rules[k..][1..] == rules[k + 1..];
  }

  /** Rules `i` up to `j` that each leave `s` unchanged can be skipped. */
  lemma {:induction false} ApplyRulesPass(s: string, rules: seq<Rule>, i: nat, j: nat)
    requires i <= j <= |rules|
    requires forall k :: i <= k < j ==> ApplyRule(s, rules[k]) == s
    ensures ApplyRules(s, rules[i..]) == ApplyRules(s, rules[j..])
    decreases j - i
  {
    if i < j {
      ApplyRulesFire(s, rules, i);
      ApplyRulesPass(s, rules, i + 1, j);
    }
  }

  /**
   * Rules `i` up to `j` are unanchored and each pattern holds the matching
   * character of `missing`, which `s` lacks; they all leave `s` unchanged.
   */
  lemma ApplyRulesPassByChars(s: string, rules: seq<Rule>, i: nat, j: nat, missing: string)
    requires i <= j <= |rules| && |missing| == j - i
    requires forall k :: i <= k < j ==> rules[k].Anywhere? && missing[k - i] in rules[k].pat
    requires forall c :: c in missing ==> c !in s
    ensures ApplyRules(s, rules[i..]) == ApplyRules(s, rules[j..])
  {
    forall k | i <= k < j
      ensures ApplyRule(s, rules[k]) == s
    {
      NotOccursByChar(s, rules[k].pat, missing[k - i]);
      ReplaceAllNoOccurrence(s, rules[k].pat, rules[k].rep);
    }
    ApplyRulesPass(s, rules, i, j);
  }

  /** Rule `k` is unanchored and two adjacent characters of its pattern never stand side by side in `s`. */
  lemma ApplyRulesPassByPair(s: string, rules: seq<Rule>, k: nat, j: nat)
    requires k < |rules| && rules[k].Anywhere?
    requires j + 1 < |rules[k].pat| && NoPair(s, rules[k].pat[j], rules[k].pat[j + 1])
    ensures ApplyRules(s, rules[k..]) == ApplyRules(s, rules[k + 1..])
  {
    NotOccursByPair(s, rules[k].pat, j);
    AnywhereAbsent(s, rules[k]);
    ApplyRulesFire(s, rules, k);
  }

  /** Rule `k` is unanchored and three consecutive characters of its pattern never stand in a row in `s`. */
  lemma ApplyRulesPassByTriple(s: string, rules: seq<Rule>, k: nat, j: nat)
    requires k < |rules| && rules[k].Anywhere?
    requires j + 2 < |rules[k].pat| && NoTriple(s, rules[k].pat[j], rules[k].pat[j + 1], rules[k].pat[j + 2])
    ensures ApplyRules(s, rules[k..]) == ApplyRules(s, rules[k + 1..])
  {
    NotOccursByTriple(s, rules[k].pat, j);
    AnywhereAbsent(s, rules[k]);
    ApplyRulesFire(s, rules, k);
  }

  /** Rule `k` is anchored at the start and `s` disagrees with its pattern at position `j`. */
  lemma ApplyRulesPassAnchored(s: string, rules: seq<Rule>, k: nat, j: nat)
    requires k < |rules| && !rules[k].Anywhere?
    requires j < |rules[k].pat| && (j >= |s| || s[j] != rules[k].pat[j])
    ensures ApplyRules(s, rules[k..]) == ApplyRules(s, rules[k + 1..])
  {
    PrefixAgrees(s, rules[k].pat, j);
    ApplyRulesFire(s, rules, k);
  }

  /** Rule `k` is anchored at both ends and `s` is exactly its pattern: `s` becomes the replacement. */
  lemma ApplyRulesFireWhole(s: string, rules: seq<Rule>, k: nat)
    requires k < |rules| && rules[k].WholeInput? && s == rules[k].pat
    ensures ApplyRules(s, rules[k..]) == ApplyRules(rules[k].rep, rules[k + 1..])
  {
    assert s[|s|..] == [];
    assert rules[k].rep + [] == rules[k].rep;
    ApplyRulesFire(s, rules, k);
  }

  /** Rule `k` is anchored at the start and `s` is its pattern followed by `rest`. */
  lemma ApplyRulesFireStart(s: string, rest: string, t: string, rules: seq<Rule>, k: nat)
    requires k < |rules| && rules[k].AtStart?
    requires s == rules[k].pat + rest && t == rules[k].rep + rest
    ensures ApplyRules(s, rules[k..]) == ApplyRules(t, rules[k + 1..])
  {
    assert s[|rules[k].pat|..] == rest;
    ApplyRulesFire(s, rules, k);
  }

  /**
   * Rule `k` is anchored at both ends and `s` is its pattern followed by a
   * tail where Java's `$` still matches: nothing, one line terminator, or
   * `\r\n`. The pattern is replaced and the tail is kept.
   */
  lemma ApplyRulesFireBeforeTerminator(s: string, tail: string, rules: seq<Rule>, k: nat)
    requires k < |rules| && rules[k].WholeInput? && s == rules[k].pat + tail
    requires DollarAt(rules[k].pat, tail)
    ensures ApplyRules(s, rules[k..]) == ApplyRules(rules[k].rep + tail, rules[k + 1..])
  {
    assert s[|rules[k].pat|..] == tail;
    ApplyRulesFire(s, rules, k);
  }

  /** Anchored rules from `i` on whose patterns open with a character other than the first of `s` never fire. */
  lemma {:induction false} ApplyRulesSkipAnchored(s: string, rules: seq<Rule>, i: nat)
    requires i <= |rules| && s != []
    requires forall k :: i <= k < |rules| ==> !rules[k].Anywhere? && rules[k].pat[0] != s[0]
    ensures ApplyRules(s, rules[i..]) == s
    decreases |rules| - i
  {
    if i == |rules| {
      assert rules[i..] == [];
    } else {
      ApplyRulesPassAnchored(s, rules, i, 0);
      ApplyRulesSkipAnchored(s, rules, i + 1);
    }
  }

  /**
   * A run of anchored rules from `k` on, each renaming what it matches by
   * putting `prefix` in front, with no pattern opening like `prefix`: rule
   * `k` renames a single-line `s` on a whole (or, anchored at the start, a
   * leading) match, and then no later rule of the run fires; otherwise `s`
   * goes on to rule `k + 1` unchanged.
   */
  lemma ApplyRulesAnchoredStep(s: string, prefix: string, rules: seq<Rule>, k: nat)
    requires k < |rules| && SingleLine(s) && prefix != []
    requires forall j :: k <= j < |rules| ==>
      && !rules[j].Anywhere?
      && rules[j].rep == prefix + rules[j].pat
      && rules[j].pat[0] != prefix[0]
    ensures ApplyRules(s, rules[k..]) ==
      if (rules[k].WholeInput? && s == rules[k].pat) || (rules[k].AtStart? && rules[k].pat <= s)
      then prefix + s
      else ApplyRules(s, rules[k + 1..])
  {
    var r := rules[k];
    var t := prefix + s;
    assert t[0] == prefix[0];
    if r.WholeInput? {
      WholeInputExact(s, r);
      if s == r.pat {
        ApplyRulesFireWhole(s, rules, k);
        ApplyRulesSkipAnchored(t, rules, k + 1);
      } else {
        ApplyRulesFire(s, rules, k);
      }
    } else if r.pat <= s {
      var rest := s[|r.pat|..];
      assert s == r.pat + rest;
      assert t == r.rep + rest;
      ApplyRulesFireStart(s, rest, t, rules, k);
      ApplyRulesSkipAnchored(t, rules, k + 1);
    } else {
      ApplyRulesFire(s, rules, k);
    }
  }

  /** An unanchored rule whose pattern does not occur in `s` leaves it unchanged. */
  lemma AnywhereAbsent(s: string, r: Rule)
    requires r.Anywhere? && !Occurs(s, r.pat)
    ensures ApplyRule(s, r) == s
  {
    ReplaceAllNoOccurrence(s, r.pat, r.rep);
  }

  // ---------------------------------------------------------------------
  // Seams

  /** No rule of the table is anchored and no pattern holds `c`: the table never rewrites across or over a `c`. */
  predicate Untouched(c: char, rules: seq<Rule>) {
    forall k :: 0 <= k < |rules| ==> rules[k].Anywhere? && c !in rules[k].pat
  }

  /** A lone character the table does not touch passes through unchanged. */
  lemma {:induction false} ApplyRulesUntouchedChar(c: char, rules: seq<Rule>)
    requires Untouched(c, rules)
    ensures ApplyRules([c], rules) == [c]
    decreases |rules|
  {
    if rules != [] {
      var r := rules[0];
      ReplaceAllLacking([c], r.pat, r.rep, r.pat[0]);
      ApplyRulesUntouchedChar(c, rules[1..]);
    }
  }

  /**
   * A table of unanchored rules works on the two sides of a seam separately
   * when the character at the seam occurs in none of its patterns.
   */
  lemma {:induction false} ApplyRulesSplit(x: string, y: string, rules: seq<Rule>)
    requires (x != [] && Untouched(x[|x| - 1], rules)) || (y != [] && Untouched(y[0], rules))
    ensures ApplyRules(x + y, rules) == ApplyRules(x, rules) + ApplyRules(y, rules)
    decreases |rules|
  {
    if rules != [] {
      var r := rules[0];
      var x', y' := ReplaceAll(x, r.pat, r.rep), ReplaceAll(y, r.pat, r.rep);
      ReplaceAllSplit(x, y, r.pat, r.rep);
      if x != [] && Untouched(x[|x| - 1], rules) {
        ReplaceAllKeepsLast(x, r.pat, r.rep);
        assert Untouched(x'[|x'| - 1], rules[1..]);
      } else {
        ReplaceAllKeepsFirst(y, r.pat, r.rep);
        assert Untouched(y'[0], rules[1..]);
      }
      ApplyRulesSplit(x', y', rules[1..]);
    }
  }

  /** Text made only of characters the table does not touch passes through unchanged. */
  lemma {:induction false} ApplyRulesUntouched(s: string, rules: seq<Rule>)
    requires forall i :: 0 <= i < |s| ==> Untouched(s[i], rules)
    ensures ApplyRules(s, rules) == s
    decreases |s|
  {
    if s == [] {
      ApplyRulesEmpty(rules);
    } else {
      ApplyRulesUntouchedChar(s[0], rules);
      ApplyRulesUntouched(s[1..], rules);
      ApplyRulesSplit([s[0]], s[1..], rules);
      assert s == [s[0]] + s[1..];
    }
  }
}

=== FILE: shortcut_examples.dfy ===
/**
 * Worked examples of the shortcut formatter, each proved end to end from
 * the raw binding to the display text.
 *
 * `Format` is the composition of four tables (`FormatStages`), and each
 * example is proved one table at a time. The modifier and layout stages
 * work on a long text by cutting it into short pieces at seams whose
 * character no pattern of the table holds (`ApplyRulesSplit`); the
 * `...Of...` lemmas give the stage on one piece and are shared between the
 * examples. A piece made only of characters the table never touches passes
 * it whole (`ApplyRulesUntouched`). Otherwise the table is stepped through
 * from its first rule: a step either skips rules that cannot match, naming
 * for each a character or adjacent pair of its pattern that the text
 * lacks, or fires one rule, naming where its pattern occurs. The `Rule` and
 * `Lacking` lemmas hold the facts about the tables, the `Spare` lemmas the
 * characters a table never touches, and the `Hit` lemmas compute one
 * replacement.
 */
module ShortcutExamples {
  import opened Strings
  import opened Rules
  import opened ShortcutFormat

  /** A character of a key name: an upper-case letter, a digit or `_`. */
  predicate KeyChar(c: char) {
    'A' <= c <= 'Z' || '0' <= c <= '9' || c == '_'
  }

  /** The modifier phrases are lower-case words and spaces, so any other character is left alone. */
  lemma ModifiersSpareOutside(c: char)
    requires !('a' <= c <= 'z') && c != ' '
    ensures Untouched(c, ModifierRules)
  {
  }

  /** No layout pattern holds a character of a key name. */
  lemma LayoutSpareKeyChar(c: char)
    requires KeyChar(c)
    ensures Untouched(c, LayoutRules)
  {
  }

  /** No pattern of the modifier table holds "p". */
  lemma ModifiersSpareP()
    ensures Untouched('p', ModifierRules)
  {
  }

  /** The modifiers stage on "[". */
  lemma ModifiersOfOpen()
    ensures ApplyRules("[", ModifierRules) == "["
  {
    ModifiersSpareOutside('[');
    ApplyRulesUntouchedChar('[', ModifierRules);
  }

  /** Rules 0 to 11 of the modifier table are unanchored, and the pattern of each holds its character of "hhhcmhchhcma". */
  lemma ModifiersLacking0To12()
    ensures forall k :: 0 <= k < 12 ==> ModifierRules[k].Anywhere? && "hhhcmhchhcma"[k - 0] in ModifierRules[k].pat
  {
  }

  /** Rules 0 to 11 of the modifier table cannot match "pressed ": it lacks a character of each pattern. */
  lemma ModifiersOfPressed1()
    ensures ApplyRules("pressed ", ModifierRules[0..]) == ApplyRules("pressed ", ModifierRules[12..])
  {
    assert forall c :: c in "hhhcmhchhcma" ==> c !in "pressed ";
    ModifiersLacking0To12();
    ApplyRulesPassByChars("pressed ", ModifierRules, 0, 12, "hhhcmhchhcma");
  }

  /** The modifiers stage on "pressed ". */
  lemma ModifiersOfPressed()
    ensures ApplyRules("pressed ", ModifierRules) == "pressed "
  {
    assert ModifierRules[0..] == ModifierRules;
    ModifiersOfPressed1();
    assert ModifierRules[12..] == [];
  }

  /** The modifiers stage on "F1]". */
  lemma ModifiersOfF1Close()
    ensures ApplyRules("F1]", ModifierRules) == "F1]"
  {
    forall i | 0 <= i < |"F1]"| ensures Untouched("F1]"[i], ModifierRules) { ModifiersSpareOutside("F1]"[i]); }
    ApplyRulesUntouched("F1]", ModifierRules);
  }

  /** "[pressed F1]" cut into the pieces the modifier table works on separately. */
  lemma NoModifierBindingModifiersPieces()
    ensures "[pressed F1]" == "[" + "pressed " + "F1]"
  {
  }

  /** The modifier table on "[pressed F1]". */
  lemma NoModifierBindingModifiers()
    ensures ApplyRules("[pressed F1]", ModifierRules) == "[pressed F1]"
  {
    NoModifierBindingModifiersPieces();
    ModifiersSpareOutside('[');
    ApplyRulesSplit("[", "pressed ", ModifierRules);
    ModifiersSpareOutside('F');
    ApplyRulesSplit("[" + "pressed ", "F1]", ModifierRules);
    ModifiersOfOpen();
    ModifiersOfPressed();
    ModifiersOfF1Close();
  }

  /** Replacing " " by "" in "[pressed ", from its leftmost occurrence on. */
  lemma LayoutOfOpenPressed1Hit()
    ensures ReplaceAll("[pressed ", " ", "") == "[pressed"
  {
    assert "[pressed " == "[pressed" + " " + "";
    assert "[pressed" == "[pressed" + "" + "";
    assert ReplaceAll([], " ", "") == [];
    ReplaceAllHit("[pressed ", "[pressed", "", " ", "");
  }

  /** Rule 0 of the layout table: " " becomes "". */
  lemma LayoutRule0()
    ensures LayoutRules[0] == Plain(" ", "")
  {
  }

  /** Rule 0 of the layout table turns "[pressed " into "[pressed". */
  lemma LayoutOfOpenPressed1()
    ensures ApplyRules("[pressed ", LayoutRules[0..]) == ApplyRules("[pressed", LayoutRules[1..])
  {
    LayoutRule0();
    ApplyRulesFire("[pressed ", LayoutRules, 0);
    LayoutOfOpenPressed1Hit();
  }

  /** Rules 1 to 2 of the layout table are unanchored, and the pattern of each holds its character of "]]". */
  lemma LayoutLacking1To3()
    ensures forall k :: 1 <= k < 3 ==> LayoutRules[k].Anywhere? && "]]"[k - 1] in LayoutRules[k].pat
  {
  }

  /** Rules 1 to 2 of the layout table cannot match "[pressed": it lacks a character of each pattern. */
  lemma LayoutOfOpenPressed2()
    ensures ApplyRules("[pressed", LayoutRules[1..]) == ApplyRules("[pressed", LayoutRules[3..])
  {
    assert forall c :: c in "]]" ==> c !in "[pressed";
    LayoutLacking1To3();
    ApplyRulesPassByChars("[pressed", LayoutRules, 1, 3, "]]");
  }

  /** Replacing "[" by "\"" in "[pressed", from its leftmost occurrence on. */
  lemma LayoutOfOpenPressed3Hit()
    ensures ReplaceAll("[pressed", "[", "\"") == "\"pressed"
  {
    assert "[pressed" == "" + "[" + "pressed";
    assert "\"pressed" == "" + "\"" + "pressed";
    ReplaceAllLacking("pressed", "[", "\"", '[');
    ReplaceAllHit("[pressed", "", "pressed", "[", "\"");
  }

  /** Rule 3 of the layout table: "[" becomes "\"". */
  lemma LayoutRule3()
    ensures LayoutRules[3] == Plain("[", "\"")
  {
  }

  /** Rule 3 of the layout table turns "[pressed" into "\"pressed". */
  lemma LayoutOfOpenPressed3()
    ensures ApplyRules("[pressed", LayoutRules[3..]) == ApplyRules("\"pressed", LayoutRules[4..])
  {
    LayoutRule3();
    ApplyRulesFire("[pressed", LayoutRules, 3);
    LayoutOfOpenPressed3Hit();
  }

  /** Rules 4 to 4 of the layout table are unanchored, and the pattern of each holds its character of "]". */
  lemma LayoutLacking4To5()
    ensures forall k :: 4 <= k < 5 ==> LayoutRules[k].Anywhere? && "]"[k - 4] in LayoutRules[k].pat
  {
  }

  /** Rules 4 to 4 of the layout table cannot match "\"pressed": it lacks a character of each pattern. */
  lemma LayoutOfOpenPressed4()
    ensures ApplyRules("\"pressed", LayoutRules[4..]) == ApplyRules("\"pressed", LayoutRules[5..])
  {
    assert forall c :: c in "]" ==> c !in "\"pressed";
    LayoutLacking4To5();
    ApplyRulesPassByChars("\"pressed", LayoutRules, 4, 5, "]");
  }

  /** Replacing "pressed" by "+" in "\"pressed", from its leftmost occurrence on. */
  lemma LayoutOfOpenPressed5Hit()
    ensures ReplaceAll("\"pressed", "pressed", "+") == "\"+"
  {
    assert "\"pressed" == "\"" + "pressed" + "";
    assert "\"+" == "\"" + "+" + "";
    assert ReplaceAll([], "pressed", "+") == [];
    ReplaceAllHit("\"pressed", "\"", "", "pressed", "+");
  }

  /** Rule 5 of the layout table: "pressed" becomes "+". */
  lemma LayoutRule5()
    ensures LayoutRules[5] == Plain("pressed", "+")
  {
  }

  /** Rule 5 of the layout table turns "\"pressed" into "\"+". */
  lemma LayoutOfOpenPressed5()
    ensures ApplyRules("\"pressed", LayoutRules[5..]) == ApplyRules("\"+", LayoutRules[6..])
  {
    LayoutRule5();
    ApplyRulesFire("\"pressed", LayoutRules, 5);
    LayoutOfOpenPressed5Hit();
  }

  /** The layout stage on "[pressed ". */
  lemma LayoutOfOpenPressed()
    ensures ApplyRules("[pressed ", LayoutRules) == "\"+"
  {
    assert LayoutRules[0..] == LayoutRules;
    LayoutOfOpenPressed1();
    LayoutOfOpenPressed2();
    LayoutOfOpenPressed3();
    LayoutOfOpenPressed4();
    LayoutOfOpenPressed5();
    assert LayoutRules[6..] == [];
  }

  /** The layout stage on "F1". */
  lemma LayoutOfF1()
    ensures ApplyRules("F1", LayoutRules) == "F1"
  {
    forall i | 0 <= i < |"F1"| ensures Untouched("F1"[i], LayoutRules) { LayoutSpareKeyChar("F1"[i]); }
    ApplyRulesUntouched("F1", LayoutRules);
  }

  /** Rules 0 to 3 of the layout table are unanchored, and the pattern of each holds its character of " +,[". */
  lemma LayoutLacking0To4()
    ensures forall k :: 0 <= k < 4 ==> LayoutRules[k].Anywhere? && " +,["[k - 0] in LayoutRules[k].pat
  {
  }

  /** Rules 0 to 3 of the layout table cannot match "]": it lacks a character of each pattern. */
  lemma LayoutOfClose1()
    ensures ApplyRules("]", LayoutRules[0..]) == ApplyRules("]", LayoutRules[4..])
  {
    assert forall c :: c in " +,[" ==> c !in "]";
    LayoutLacking0To4();
    ApplyRulesPassByChars("]", LayoutRules, 0, 4, " +,[");
  }

  /** "]" is the whole pattern, so it becomes "\"". */
  lemma LayoutOfClose2Hit()
    ensures ReplaceAll("]", "]", "\"") == "\""
  {
    ReplaceAllWhole("]", "\"");
  }

  /** Rule 4 of the layout table: "]" becomes "\"". */
  lemma LayoutRule4()
    ensures LayoutRules[4] == Plain("]", "\"")
  {
  }

  /** Rule 4 of the layout table turns "]" into "\"". */
  lemma LayoutOfClose2()
    ensures ApplyRules("]", LayoutRules[4..]) == ApplyRules("\"", LayoutRules[5..])
  {
    LayoutRule4();
    ApplyRulesFire("]", LayoutRules, 4);
    LayoutOfClose2Hit();
  }

  /** Rules 5 to 5 of the layout table are unanchored, and the pattern of each holds its character of "p". */
  lemma LayoutLacking5To6()
    ensures forall k :: 5 <= k < 6 ==> LayoutRules[k].Anywhere? && "p"[k - 5] in LayoutRules[k].pat
  {
  }

  /** Rules 5 to 5 of the layout table cannot match "\"": it lacks a character of each pattern. */
  lemma LayoutOfClose3()
    ensures ApplyRules("\"", LayoutRules[5..]) == ApplyRules("\"", LayoutRules[6..])
  {
    assert forall c :: c in "p" ==> c !in "\"";
    LayoutLacking5To6();
    ApplyRulesPassByChars("\"", LayoutRules, 5, 6, "p");
  }

  /** The layout stage on "]". */
  lemma LayoutOfClose()
    ensures ApplyRules("]", LayoutRules) == "\""
  {
    assert LayoutRules[0..] == LayoutRules;
    LayoutOfClose1();
    LayoutOfClose2();
    LayoutOfClose3();
    assert LayoutRules[6..] == [];
  }

  /** "[pressed F1]" cut into the pieces the layout table works on separately. */
  lemma NoModifierBindingLayoutSplit()
    ensures "[pressed F1]" == "[pressed " + "F1" + "]"
  {
  }

  /** "\"+F1\"" cut into the results of those pieces. */
  lemma NoModifierBindingLayoutJoined()
    ensures "\"+F1\"" == "\"+" + "F1" + "\""
  {
  }

  /** The layout table on "[pressed F1]". */
  lemma NoModifierBindingLayout()
    ensures ApplyRules("[pressed F1]", LayoutRules) == "\"+F1\""
  {
    NoModifierBindingLayoutSplit();
    NoModifierBindingLayoutJoined();
    LayoutSpareKeyChar('F');
    ApplyRulesSplit("[pressed ", "F1", LayoutRules);
    LayoutSpareKeyChar('1');
    ApplyRulesSplit("[pressed " + "F1", "]", LayoutRules);
    LayoutOfOpenPressed();
    LayoutOfF1();
    LayoutOfClose();
  }

  /** The key table on "\"+F1\"". */
  lemma NoModifierBindingKeys()
    ensures ApplyRules("\"+F1\"", KeyNameRules) == "\"+F1\""
  {
    assert KeyNameRules[0..] == KeyNameRules;
    KeyNamesInert("\"+F1\"", 0);
  }

  /** Replacing "\"+" by "\"" in "\"+F1\"", from its leftmost occurrence on. */
  lemma NoModifierBindingCleanup1Hit()
    ensures ReplaceAll("\"+F1\"", "\"+", "\"") == "\"F1\""
  {
    assert "\"+F1\"" == "" + "\"+" + "F1\"";
    assert "\"F1\"" == "" + "\"" + "F1\"";
    ReplaceAllLacking("F1\"", "\"+", "\"", '+');
    ReplaceAllHit("\"+F1\"", "", "F1\"", "\"+", "\"");
  }

  /** Rule 0 of the clean-up table: "\"+" becomes "\"". */
  lemma CleanupRule0()
    ensures CleanupRules[0] == Plain("\"+", "\"")
  {
  }

  /** Rule 0 of the clean-up table turns "\"+F1\"" into "\"F1\"". */
  lemma NoModifierBindingCleanup1()
    ensures ApplyRules("\"+F1\"", CleanupRules[0..]) == ApplyRules("\"F1\"", CleanupRules[1..])
  {
    CleanupRule0();
    ApplyRulesFire("\"+F1\"", CleanupRules, 0);
    NoModifierBindingCleanup1Hit();
  }

  /** Rules 1 to 1 of the clean-up table are unanchored, and the pattern of each holds its character of "o". */
  lemma CleanupLacking1To2()
    ensures forall k :: 1 <= k < 2 ==> CleanupRules[k].Anywhere? && "o"[k - 1] in CleanupRules[k].pat
  {
  }

  /** Rules 1 to 1 of the clean-up table cannot match "\"F1\"": it lacks a character of each pattern. */
  lemma NoModifierBindingCleanup2()
    ensures ApplyRules("\"F1\"", CleanupRules[1..]) == ApplyRules("\"F1\"", CleanupRules[2..])
  {
    assert forall c :: c in "o" ==> c !in "\"F1\"";
    CleanupLacking1To2();
    ApplyRulesPassByChars("\"F1\"", CleanupRules, 1, 2, "o");
  }

  /** The clean-up table on "\"+F1\"". */
  lemma NoModifierBindingCleanup()
    ensures ApplyRules("\"+F1\"", CleanupRules) == "\"F1\""
  {
    assert CleanupRules[0..] == CleanupRules;
    NoModifierBindingCleanup1();
    NoModifierBindingCleanup2();
    assert CleanupRules[2..] == [];
  }

  /** A binding without modifiers: `pressed` leaves a `+` right after the opening quote, and the clean-up drops it. */
  lemma NoModifierBinding()
    ensures Format("[pressed F1]") == "\"F1\""
  {
    FormatStages("[pressed F1]");
    NoModifierBindingModifiers();
    NoModifierBindingLayout();
    NoModifierBindingKeys();
    NoModifierBindingCleanup();
  }

  /** Replacing "shift ctrl alt" by "shift + ctrl + alt" in "shift ctrl alt ", from its leftmost occurrence on. */
  lemma ModifiersOfShiftCtrlAlt1Hit()
    ensures ReplaceAll("shift ctrl alt ", "shift ctrl alt", "shift + ctrl + alt") == "shift + ctrl + alt "
  {
    assert "shift ctrl alt " == "" + "shift ctrl alt" + " ";
    assert "shift + ctrl + alt " == "" + "shift + ctrl + alt" + " ";
    ReplaceAllLacking(" ", "shift ctrl alt", "shift + ctrl + alt", 's');
    ReplaceAllHit("shift ctrl alt ", "", " ", "shift ctrl alt", "shift + ctrl + alt");
  }

  /** Rule 0 of the modifier table: "shift ctrl alt" becomes "shift + ctrl + alt". */
  lemma ModifiersRule0()
    ensures ModifierRules[0] == Plain("shift ctrl alt", "shift + ctrl + alt")
  {
  }

  /** Rule 0 of the modifier table turns "shift ctrl alt " into "shift + ctrl + alt ". */
  lemma ModifiersOfShiftCtrlAlt1()
    ensures ApplyRules("shift ctrl alt ", ModifierRules[0..]) == ApplyRules("shift + ctrl + alt ", ModifierRules[1..])
  {
    ModifiersRule0();
    ApplyRulesFire("shift ctrl alt ", ModifierRules, 0);
    ModifiersOfShiftCtrlAlt1Hit();
  }

  /** "t c" never stands in "shift + ctrl + alt ". */
  lemma ModifiersOfShiftCtrlAlt2Text()
    ensures NoTriple("shift + ctrl + alt ", 't', ' ', 'c')
  {
  }

  /** Rule 1 of the modifier table: "shift ctrl" becomes "shift + ctrl". */
  lemma ModifiersRule1()
    ensures ModifierRules[1] == Plain("shift ctrl", "shift + ctrl")
  {
  }

  /** Rule 1 of the modifier table cannot match "shift + ctrl + alt ": part of its pattern never stands in it. */
  lemma ModifiersOfShiftCtrlAlt2()
    ensures ApplyRules("shift + ctrl + alt ", ModifierRules[1..]) == ApplyRules("shift + ctrl + alt ", ModifierRules[2..])
  {
    ModifiersOfShiftCtrlAlt2Text();
    ModifiersRule1();
    ApplyRulesPassByTriple("shift + ctrl + alt ", ModifierRules, 1, 4);
  }

  /** "t a" never stands in "shift + ctrl + alt ". */
  lemma ModifiersOfShiftCtrlAlt3Text()
    ensures NoTriple("shift + ctrl + alt ", 't', ' ', 'a')
  {
  }

  /** Rule 2 of the modifier table: "shift alt" becomes "shift + alt". */
  lemma ModifiersRule2()
    ensures ModifierRules[2] == Plain("shift alt", "shift + alt")
  {
  }

  /** Rule 2 of the modifier table cannot match "shift + ctrl + alt ": part of its pattern never stands in it. */
  lemma ModifiersOfShiftCtrlAlt3()
    ensures ApplyRules("shift + ctrl + alt ", ModifierRules[2..]) == ApplyRules("shift + ctrl + alt ", ModifierRules[3..])
  {
    ModifiersOfShiftCtrlAlt3Text();
    ModifiersRule2();
    ApplyRulesPassByTriple("shift + ctrl + alt ", ModifierRules, 2, 4);
  }

  /** "l a" never stands in "shift + ctrl + alt ". */
  lemma ModifiersOfShiftCtrlAlt4Text()
    ensures NoTriple("shift + ctrl + alt ", 'l', ' ', 'a')
  {
  }

  /** Rule 3 of the modifier table: "ctrl alt" becomes "ctrl + alt". */
  lemma ModifiersRule3()
    ensures ModifierRules[3] == Plain("ctrl alt", "ctrl + alt")
  {
  }

  /** Rule 3 of the modifier table cannot match "shift + ctrl + alt ": part of its pattern never stands in it. */
  lemma ModifiersOfShiftCtrlAlt4()
    ensures ApplyRules("shift + ctrl + alt ", ModifierRules[3..]) == ApplyRules("shift + ctrl + alt ", ModifierRules[4..])
  {
    ModifiersOfShiftCtrlAlt4Text();
    ModifiersRule3();
    ApplyRulesPassByTriple("shift + ctrl + alt ", ModifierRules, 3, 3);
  }

  /** Rules 4 to 7 of the modifier table are unanchored, and the pattern of each holds its character of "mmmm". */
  lemma ModifiersLacking4To8()
    ensures forall k :: 4 <= k < 8 ==> ModifierRules[k].Anywhere? && "mmmm"[k - 4] in ModifierRules[k].pat
  {
  }

  /** "shift + ctrl + alt " holds none of "mmmm". */
  lemma ModifiersOfShiftCtrlAlt5Text()
    ensures forall c :: c in "mmmm" ==> c !in "shift + ctrl + alt "
  {
  }

  /** Rules 4 to 7 of the modifier table cannot match "shift + ctrl + alt ": it lacks a character of each pattern. */
  lemma ModifiersOfShiftCtrlAlt5()
    ensures ApplyRules("shift + ctrl + alt ", ModifierRules[4..]) == ApplyRules("shift + ctrl + alt ", ModifierRules[8..])
  {
    ModifiersOfShiftCtrlAlt5Text();
    ModifiersLacking4To8();
    ApplyRulesPassByChars("shift + ctrl + alt ", ModifierRules, 4, 8, "mmmm");
  }

  /** Replacing "shift" by "Shift" in "shift + ctrl + alt ", from its leftmost occurrence on. */
  lemma ModifiersOfShiftCtrlAlt6Hit()
    ensures ReplaceAll("shift + ctrl + alt ", "shift", "Shift") == "Shift + ctrl + alt "
  {
    assert "shift + ctrl + alt " == "" + "shift" + " + ctrl + alt ";
    assert "Shift + ctrl + alt " == "" + "Shift" + " + ctrl + alt ";
    ReplaceAllLacking(" + ctrl + alt ", "shift", "Shift", 's');
    ReplaceAllHit("shift + ctrl + alt ", "", " + ctrl + alt ", "shift", "Shift");
  }

  /** Rule 8 of the modifier table: "shift" becomes "Shift". */
  lemma ModifiersRule8()
    ensures ModifierRules[8] == Plain("shift", "Shift")
  {
  }

  /** Rule 8 of the modifier table turns "shift + ctrl + alt " into "Shift + ctrl + alt ". */
  lemma ModifiersOfShiftCtrlAlt6()
    ensures ApplyRules("shift + ctrl + alt ", ModifierRules[8..]) == ApplyRules("Shift + ctrl + alt ", ModifierRules[9..])
  {
    ModifiersRule8();
    ApplyRulesFire("shift + ctrl + alt ", ModifierRules, 8);
    ModifiersOfShiftCtrlAlt6Hit();
  }

  /** "Shift + ctrl + alt " cut around its first "ctrl". */
  lemma ModifiersOfShiftCtrlAlt7HitSplit()
    ensures "Shift + ctrl + alt " == "Shift + " + "ctrl" + " + alt "
  {
  }

  /** "Shift + Ctrl + alt " cut the same way, around "Ctrl". */
  lemma ModifiersOfShiftCtrlAlt7HitJoined()
    ensures "Shift + Ctrl + alt " == "Shift + " + "Ctrl" + " + alt "
  {
  }

  /** Replacing "ctrl" by "Ctrl" in "Shift + ctrl + alt ", from its leftmost occurrence on. */
  lemma ModifiersOfShiftCtrlAlt7Hit()
    ensures ReplaceAll("Shift + ctrl + alt ", "ctrl", "Ctrl") == "Shift + Ctrl + alt "
  {
    ModifiersOfShiftCtrlAlt7HitSplit();
    ModifiersOfShiftCtrlAlt7HitJoined();
    ReplaceAllLacking(" + alt ", "ctrl", "Ctrl", 'c');
    ReplaceAllHit("Shift + ctrl + alt ", "Shift + ", " + alt ", "ctrl", "Ctrl");
  }

  /** Rule 9 of the modifier table: "ctrl" becomes "Ctrl". */
  lemma ModifiersRule9()
    ensures ModifierRules[9] == Plain("ctrl", "Ctrl")
  {
  }

  /** Rule 9 of the modifier table turns "Shift + ctrl + alt " into "Shift + Ctrl + alt ". */
  lemma ModifiersOfShiftCtrlAlt7()
    ensures ApplyRules("Shift + ctrl + alt ", ModifierRules[9..]) == ApplyRules("Shift + Ctrl + alt ", ModifierRules[10..])
  {
    ModifiersRule9();
    ApplyRulesFire("Shift + ctrl + alt ", ModifierRules, 9);
    ModifiersOfShiftCtrlAlt7Hit();
  }

  /** Rules 10 to 10 of the modifier table are unanchored, and the pattern of each holds its character of "m". */
  lemma ModifiersLacking10To11()
    ensures forall k :: 10 <= k < 11 ==> ModifierRules[k].Anywhere? && "m"[k - 10] in ModifierRules[k].pat
  {
  }

  /** "Shift + Ctrl + alt " holds none of "m". */
  lemma ModifiersOfShiftCtrlAlt8Text()
    ensures forall c :: c in "m" ==> c !in "Shift + Ctrl + alt "
  {
  }

  /** Rules 10 to 10 of the modifier table cannot match "Shift + Ctrl + alt ": it lacks a character of each pattern. */
  lemma ModifiersOfShiftCtrlAlt8()
    ensures ApplyRules("Shift + Ctrl + alt ", ModifierRules[10..]) == ApplyRules("Shift + Ctrl + alt ", ModifierRules[11..])
  {
    ModifiersOfShiftCtrlAlt8Text();
    ModifiersLacking10To11();
    ApplyRulesPassByChars("Shift + Ctrl + alt ", ModifierRules, 10, 11, "m");
  }

  /** Replacing "alt" by "Alt" in "Shift + Ctrl + alt ", from its leftmost occurrence on. */
  lemma ModifiersOfShiftCtrlAlt9Hit()
    ensures ReplaceAll("Shift + Ctrl + alt ", "alt", "Alt") == "Shift + Ctrl + Alt "
  {
    assert "Shift + Ctrl + alt " == "Shift + Ctrl + " + "alt" + " ";
    assert "Shift + Ctrl + Alt " == "Shift + Ctrl + " + "Alt" + " ";
    ReplaceAllLacking(" ", "alt", "Alt", 'a');
    ReplaceAllHit("Shift + Ctrl + alt ", "Shift + Ctrl + ", " ", "alt", "Alt");
  }

  /** Rule 11 of the modifier table: "alt" becomes "Alt". */
  lemma ModifiersRule11()
    ensures ModifierRules[11] == Plain("alt", "Alt")
  {
  }

  /** Rule 11 of the modifier table turns "Shift + Ctrl + alt " into "Shift + Ctrl + Alt ". */
  lemma ModifiersOfShiftCtrlAlt9()
    ensures ApplyRules("Shift + Ctrl + alt ", ModifierRules[11..]) == ApplyRules("Shift + Ctrl + Alt ", ModifierRules[12..])
  {
    ModifiersRule11();
    ApplyRulesFire("Shift + Ctrl + alt ", ModifierRules, 11);
    ModifiersOfShiftCtrlAlt9Hit();
  }

  /** The modifiers stage on "shift ctrl alt ". */
  lemma ModifiersOfShiftCtrlAlt()
    ensures ApplyRules("shift ctrl alt ", ModifierRules) == "Shift + Ctrl + Alt "
  {
    assert ModifierRules[0..] == ModifierRules;
    ModifiersOfShiftCtrlAlt1();
    ModifiersOfShiftCtrlAlt2();
    ModifiersOfShiftCtrlAlt3();
    ModifiersOfShiftCtrlAlt4();
    ModifiersOfShiftCtrlAlt5();
    ModifiersOfShiftCtrlAlt6();
    ModifiersOfShiftCtrlAlt7();
    ModifiersOfShiftCtrlAlt8();
    ModifiersOfShiftCtrlAlt9();
    assert ModifierRules[12..] == [];
  }

  /** The modifiers stage on "A]". */
  lemma ModifiersOfAClose()
    ensures ApplyRules("A]", ModifierRules) == "A]"
  {
    forall i | 0 <= i < |"A]"| ensures Untouched("A]"[i], ModifierRules) { ModifiersSpareOutside("A]"[i]); }
    ApplyRulesUntouched("A]", ModifierRules);
  }

  /** "[shift ctrl alt pressed A]" cut into the pieces the modifier table works on separately. */
  lemma ThreeModifiersModifiersSplit()
    ensures "[shift ctrl alt pressed A]" == "[" + "shift ctrl alt " + "pressed " + "A]"
  {
  }

  /** "[Shift + Ctrl + Alt pressed A]" cut into the results of those pieces. */
  lemma ThreeModifiersModifiersJoined()
    ensures "[Shift + Ctrl + Alt pressed A]" == "[" + "Shift + Ctrl + Alt " + "pressed " + "A]"
  {
  }

  /** The modifier table on "[shift ctrl alt pressed A]". */
  lemma ThreeModifiersModifiers()
    ensures ApplyRules("[shift ctrl alt pressed A]", ModifierRules) == "[Shift + Ctrl + Alt pressed A]"
  {
    ThreeModifiersModifiersSplit();
    ThreeModifiersModifiersJoined();
    ModifiersSpareOutside('[');
    ApplyRulesSplit("[", "shift ctrl alt ", ModifierRules);
    ModifiersSpareP();
    ApplyRulesSplit("[" + "shift ctrl alt ", "pressed ", ModifierRules);
    ModifiersSpareOutside('A');
    ApplyRulesSplit("[" + "shift ctrl alt " + "pressed ", "A]", ModifierRules);
    ModifiersOfOpen();
    ModifiersOfShiftCtrlAlt();
    ModifiersOfPressed();
    ModifiersOfAClose();
  }

  /** Rules 0 to 2 of the layout table are unanchored, and the pattern of each holds its character of " ]]". */
  lemma LayoutLacking0To3()
    ensures forall k :: 0 <= k < 3 ==> LayoutRules[k].Anywhere? && " ]]"[k - 0] in LayoutRules[k].pat
  {
  }

  /** Rules 0 to 2 of the layout table cannot match "[": it lacks a character of each pattern. */
  lemma LayoutOfOpen1()
    ensures ApplyRules("[", LayoutRules[0..]) == ApplyRules("[", LayoutRules[3..])
  {
    assert forall c :: c in " ]]" ==> c !in "[";
    LayoutLacking0To3();
    ApplyRulesPassByChars("[", LayoutRules, 0, 3, " ]]");
  }

  /** "[" is the whole pattern, so it becomes "\"". */
  lemma LayoutOfOpen2Hit()
    ensures ReplaceAll("[", "[", "\"") == "\""
  {
    ReplaceAllWhole("[", "\"");
  }

  /** Rule 3 of the layout table turns "[" into "\"". */
  lemma LayoutOfOpen2()
    ensures ApplyRules("[", LayoutRules[3..]) == ApplyRules("\"", LayoutRules[4..])
  {
    LayoutRule3();
    ApplyRulesFire("[", LayoutRules, 3);
    LayoutOfOpen2Hit();
  }

  /** Rules 4 to 5 of the layout table are unanchored, and the pattern of each holds its character of "]p". */
  lemma LayoutLacking4To6()
    ensures forall k :: 4 <= k < 6 ==> LayoutRules[k].Anywhere? && "]p"[k - 4] in LayoutRules[k].pat
  {
  }

  /** Rules 4 to 5 of the layout table cannot match "\"": it lacks a character of each pattern. */
  lemma LayoutOfOpen3()
    ensures ApplyRules("\"", LayoutRules[4..]) == ApplyRules("\"", LayoutRules[6..])
  {
    assert forall c :: c in "]p" ==> c !in "\"";
    LayoutLacking4To6();
    ApplyRulesPassByChars("\"", LayoutRules, 4, 6, "]p");
  }

  /** The layout stage on "[". */
  lemma LayoutOfOpen()
    ensures ApplyRules("[", LayoutRules) == "\""
  {
    assert LayoutRules[0..] == LayoutRules;
    LayoutOfOpen1();
    LayoutOfOpen2();
    LayoutOfOpen3();
    assert LayoutRules[6..] == [];
  }

  /** Replacing " " by "" in "+ ", from its leftmost occurrence on. */
  lemma LayoutOfShiftPlus1Hit2()
    ensures ReplaceAll("+ ", " ", "") == "+"
  {
    assert "+ " == "+" + " " + "";
    assert "+" == "+" + "" + "";
    assert ReplaceAll([], " ", "") == [];
    ReplaceAllHit("+ ", "+", "", " ", "");
  }

  /** Replacing " " by "" in "Shift + ", from its leftmost occurrence on. */
  lemma LayoutOfShiftPlus1Hit1()
    ensures ReplaceAll("Shift + ", " ", "") == "Shift+"
  {
    assert "Shift + " == "Shift" + " " + "+ ";
    assert "Shift+" == "Shift" + "" + "+";
    LayoutOfShiftPlus1Hit2();
    ReplaceAllHit("Shift + ", "Shift", "+ ", " ", "");
  }

  /** Rule 0 of the layout table turns "Shift + " into "Shift+". */
  lemma LayoutOfShiftPlus1()
    ensures ApplyRules("Shift + ", LayoutRules[0..]) == ApplyRules("Shift+", LayoutRules[1..])
  {
    LayoutRule0();
    ApplyRulesFire("Shift + ", LayoutRules, 0);
    LayoutOfShiftPlus1Hit1();
  }

  /** Rules 1 to 5 of the layout table are unanchored, and the pattern of each holds its character of "]][]p". */
  lemma LayoutLacking1To6()
    ensures forall k :: 1 <= k < 6 ==> LayoutRules[k].Anywhere? && "]][]p"[k - 1] in LayoutRules[k].pat
  {
  }

  /** Rules 1 to 5 of the layout table cannot match "Shift+": it lacks a character of each pattern. */
  lemma LayoutOfShiftPlus2()
    ensures ApplyRules("Shift+", LayoutRules[1..]) == ApplyRules("Shift+", LayoutRules[6..])
  {
    assert forall c :: c in "]][]p" ==> c !in "Shift+";
    LayoutLacking1To6();
    ApplyRulesPassByChars("Shift+", LayoutRules, 1, 6, "]][]p");
  }

  /** The layout stage on "Shift + ". */
  lemma LayoutOfShiftPlus()
    ensures ApplyRules("Shift + ", LayoutRules) == "Shift+"
  {
    assert LayoutRules[0..] == LayoutRules;
    LayoutOfShiftPlus1();
    LayoutOfShiftPlus2();
    assert LayoutRules[6..] == [];
  }

  /** Replacing " " by "" in "Ctrl + ", from its leftmost occurrence on. */
  lemma LayoutOfCtrlPlus1Hit1()
    ensures ReplaceAll("Ctrl + ", " ", "") == "Ctrl+"
  {
    assert "Ctrl + " == "Ctrl" + " " + "+ ";
    assert "Ctrl+" == "Ctrl" + "" + "+";
    LayoutOfShiftPlus1Hit2();
    ReplaceAllHit("Ctrl + ", "Ctrl", "+ ", " ", "");
  }

  /** Rule 0 of the layout table turns "Ctrl + " into "Ctrl+". */
  lemma LayoutOfCtrlPlus1()
    ensures ApplyRules("Ctrl + ", LayoutRules[0..]) == ApplyRules("Ctrl+", LayoutRules[1..])
  {
    LayoutRule0();
    ApplyRulesFire("Ctrl + ", LayoutRules, 0);
    LayoutOfCtrlPlus1Hit1();
  }

  /** Rules 1 to 5 of the layout table cannot match "Ctrl+": it lacks a character of each pattern. */
  lemma LayoutOfCtrlPlus2()
    ensures ApplyRules("Ctrl+", LayoutRules[1..]) == ApplyRules("Ctrl+", LayoutRules[6..])
  {
    assert forall c :: c in "]][]p" ==> c !in "Ctrl+";
    LayoutLacking1To6();
    ApplyRulesPassByChars("Ctrl+", LayoutRules, 1, 6, "]][]p");
  }

  /** The layout stage on "Ctrl + ". */
  lemma LayoutOfCtrlPlus()
    ensures ApplyRules("Ctrl + ", LayoutRules) == "Ctrl+"
  {
    assert LayoutRules[0..] == LayoutRules;
    LayoutOfCtrlPlus1();
    LayoutOfCtrlPlus2();
    assert LayoutRules[6..] == [];
  }

  /** Replacing " " by "" in "pressed ", from its leftmost occurrence on. */
  lemma LayoutOfAltPressed1Hit2()
    ensures ReplaceAll("pressed ", " ", "") == "pressed"
  {
    assert "pressed " == "pressed" + " " + "";
    assert "pressed" == "pressed" + "" + "";
    assert ReplaceAll([], " ", "") == [];
    ReplaceAllHit("pressed ", "pressed", "", " ", "");
  }

  /** "Alt pressed " cut around its first " ". */
  lemma LayoutOfAltPressed1Hit1Split()
    ensures "Alt pressed " == "Alt" + " " + "pressed "
  {
  }

  /** "Altpressed" cut the same way, around "". */
  lemma LayoutOfAltPressed1Hit1Joined()
    ensures "Altpressed" == "Alt" + "" + "pressed"
  {
  }

  /** Replacing " " by "" in "Alt pressed ", from its leftmost occurrence on. */
  lemma LayoutOfAltPressed1Hit1()
    ensures ReplaceAll("Alt pressed ", " ", "") == "Altpressed"
  {
    LayoutOfAltPressed1Hit1Split();
    LayoutOfAltPressed1Hit1Joined();
    LayoutOfAltPressed1Hit2();
    ReplaceAllHit("Alt pressed ", "Alt", "pressed ", " ", "");
  }

  /** Rule 0 of the layout table turns "Alt pressed " into "Altpressed". */
  lemma LayoutOfAltPressed1()
    ensures ApplyRules("Alt pressed ", LayoutRules[0..]) == ApplyRules("Altpressed", LayoutRules[1..])
  {
    LayoutRule0();
    ApplyRulesFire("Alt pressed ", LayoutRules, 0);
    LayoutOfAltPressed1Hit1();
  }

  /** Rules 1 to 4 of the layout table are unanchored, and the pattern of each holds its character of "]][]". */
  lemma LayoutLacking1To5()
    ensures forall k :: 1 <= k < 5 ==> LayoutRules[k].Anywhere? && "]][]"[k - 1] in LayoutRules[k].pat
  {
  }

  /** Rules 1 to 4 of the layout table cannot match "Altpressed": it lacks a character of each pattern. */
  lemma LayoutOfAltPressed2()
    ensures ApplyRules("Altpressed", LayoutRules[1..]) == ApplyRules("Altpressed", LayoutRules[5..])
  {
    assert forall c :: c in "]][]" ==> c !in "Altpressed";
    LayoutLacking1To5();
    ApplyRulesPassByChars("Altpressed", LayoutRules, 1, 5, "]][]");
  }

  /** Replacing "pressed" by "+" in "Altpressed", from its leftmost occurrence on. */
  lemma LayoutOfAltPressed3Hit()
    ensures ReplaceAll("Altpressed", "pressed", "+") == "Alt+"
  {
    assert "Altpressed" == "Alt" + "pressed" + "";
    assert "Alt+" == "Alt" + "+" + "";
    assert ReplaceAll([], "pressed", "+") == [];
    ReplaceAllHit("Altpressed", "Alt", "", "pressed", "+");
  }

  /** Rule 5 of the layout table turns "Altpressed" into "Alt+". */
  lemma LayoutOfAltPressed3()
    ensures ApplyRules("Altpressed", LayoutRules[5..]) == ApplyRules("Alt+", LayoutRules[6..])
  {
    LayoutRule5();
    ApplyRulesFire("Altpressed", LayoutRules, 5);
    LayoutOfAltPressed3Hit();
  }

  /** The layout stage on "Alt pressed ". */
  lemma LayoutOfAltPressed()
    ensures ApplyRules("Alt pressed ", LayoutRules) == "Alt+"
  {
    assert LayoutRules[0..] == LayoutRules;
    LayoutOfAltPressed1();
    LayoutOfAltPressed2();
    LayoutOfAltPressed3();
    assert LayoutRules[6..] == [];
  }

  /** The layout stage on "A". */
  lemma LayoutOfA()
    ensures ApplyRules("A", LayoutRules) == "A"
  {
    LayoutSpareKeyChar('A');
    ApplyRulesUntouchedChar('A', LayoutRules);
  }

  /** "[Shift + Ctrl + Alt pressed A]" cut into the pieces the layout table works on separately. */
  lemma ThreeModifiersLayoutSplit()
    ensures "[Shift + Ctrl + Alt pressed A]" == "[" + "Shift + " + "Ctrl + " + "Alt pressed " + "A" + "]"
  {
  }

  /** "\"Shift+Ctrl+Alt+A\"" cut into the results of those pieces. */
  lemma ThreeModifiersLayoutJoined()
    ensures "\"Shift+Ctrl+Alt+A\"" == "\"" + "Shift+" + "Ctrl+" + "Alt+" + "A" + "\""
  {
  }

  /** The layout table on "[Shift + Ctrl + Alt pressed A]". */
  lemma ThreeModifiersLayout()
    ensures ApplyRules("[Shift + Ctrl + Alt pressed A]", LayoutRules) == "\"Shift+Ctrl+Alt+A\""
  {
    ThreeModifiersLayoutSplit();
    ThreeModifiersLayoutJoined();
    LayoutSpareKeyChar('S');
    ApplyRulesSplit("[", "Shift + ", LayoutRules);
    LayoutSpareKeyChar('C');
    ApplyRulesSplit("[" + "Shift + ", "Ctrl + ", LayoutRules);
    LayoutSpareKeyChar('A');
    ApplyRulesSplit("[" + "Shift + " + "Ctrl + ", "Alt pressed ", LayoutRules);
    ApplyRulesSplit("[" + "Shift + " + "Ctrl + " + "Alt pressed ", "A", LayoutRules);
    ApplyRulesSplit("[" + "Shift + " + "Ctrl + " + "Alt pressed " + "A", "]", LayoutRules);
    LayoutOfOpen();
    LayoutOfShiftPlus();
    LayoutOfCtrlPlus();
    LayoutOfAltPressed();
    LayoutOfA();
    LayoutOfClose();
  }

  /** The key table on "\"Shift+Ctrl+Alt+A\"". */
  lemma ThreeModifiersKeys()
    ensures ApplyRules("\"Shift+Ctrl+Alt+A\"", KeyNameRules) == "\"Shift+Ctrl+Alt+A\""
  {
    assert KeyNameRules[0..] == KeyNameRules;
    KeyNamesInert("\"Shift+Ctrl+Alt+A\"", 0);
  }

  /** "\"+" never stands in "\"Shift+Ctrl+Alt+A\"". */
  lemma ThreeModifiersCleanup1Text()
    ensures NoPair("\"Shift+Ctrl+Alt+A\"", '"', '+')
  {
  }

  /** Rule 0 of the clean-up table cannot match "\"Shift+Ctrl+Alt+A\"": part of its pattern never stands in it. */
  lemma ThreeModifiersCleanup1()
    ensures ApplyRules("\"Shift+Ctrl+Alt+A\"", CleanupRules[0..]) == ApplyRules("\"Shift+Ctrl+Alt+A\"", CleanupRules[1..])
  {
    ThreeModifiersCleanup1Text();
    CleanupRule0();
    ApplyRulesPassByPair("\"Shift+Ctrl+Alt+A\"", CleanupRules, 0, 0);
  }

  /** "\"Shift+Ctrl+Alt+A\"" holds none of "o". */
  lemma ThreeModifiersCleanup2Text()
    ensures forall c :: c in "o" ==> c !in "\"Shift+Ctrl+Alt+A\""
  {
  }

  /** Rules 1 to 1 of the clean-up table cannot match "\"Shift+Ctrl+Alt+A\"": it lacks a character of each pattern. */
  lemma ThreeModifiersCleanup2()
    ensures ApplyRules("\"Shift+Ctrl+Alt+A\"", CleanupRules[1..]) == ApplyRules("\"Shift+Ctrl+Alt+A\"", CleanupRules[2..])
  {
    ThreeModifiersCleanup2Text();
    CleanupLacking1To2();
    ApplyRulesPassByChars("\"Shift+Ctrl+Alt+A\"", CleanupRules, 1, 2, "o");
  }

  /** The clean-up table on "\"Shift+Ctrl+Alt+A\"". */
  lemma ThreeModifiersCleanup()
    ensures ApplyRules("\"Shift+Ctrl+Alt+A\"", CleanupRules) == "\"Shift+Ctrl+Alt+A\""
  {
    assert CleanupRules[0..] == CleanupRules;
    ThreeModifiersCleanup1();
    ThreeModifiersCleanup2();
    assert CleanupRules[2..] == [];
  }

  /** A three-word modifier phrase is joined with `+` before its words are capitalised. */
  lemma ThreeModifiers()
    ensures Format("[shift ctrl alt pressed A]") == "\"Shift+Ctrl+Alt+A\""
  {
    FormatStages("[shift ctrl alt pressed A]");
    ThreeModifiersModifiers();
    ThreeModifiersLayout();
    ThreeModifiersKeys();
    ThreeModifiersCleanup();
  }

  /** Rules 0 to 9 of the modifier table are unanchored, and the pattern of each holds its character of "sssclscssc". */
  lemma ModifiersLacking0To10()
    ensures forall k :: 0 <= k < 10 ==> ModifierRules[k].Anywhere? && "sssclscssc"[k - 0] in ModifierRules[k].pat
  {
  }

  /** Rules 0 to 9 of the modifier table cannot match "meta ": it lacks a character of each pattern. */
  lemma ModifiersOfMeta1()
    ensures ApplyRules("meta ", ModifierRules[0..]) == ApplyRules("meta ", ModifierRules[10..])
  {
    assert forall c :: c in "sssclscssc" ==> c !in "meta ";
    ModifiersLacking0To10();
    ApplyRulesPassByChars("meta ", ModifierRules, 0, 10, "sssclscssc");
  }

  /** Replacing "meta" by "Command" in "meta ", from its leftmost occurrence on. */
  lemma ModifiersOfMeta2Hit()
    ensures ReplaceAll("meta ", "meta", "Command") == "Command "
  {
    assert "meta " == "" + "meta" + " ";
    assert "Command " == "" + "Command" + " ";
    ReplaceAllLacking(" ", "meta", "Command", 'm');
    ReplaceAllHit("meta ", "", " ", "meta", "Command");
  }

  /** Rule 10 of the modifier table: "meta" becomes "Command". */
  lemma ModifiersRule10()
    ensures ModifierRules[10] == Plain("meta", "Command")
  {
  }

  /** Rule 10 of the modifier table turns "meta " into "Command ". */
  lemma ModifiersOfMeta2()
    ensures ApplyRules("meta ", ModifierRules[10..]) == ApplyRules("Command ", ModifierRules[11..])
  {
    ModifiersRule10();
    ApplyRulesFire("meta ", ModifierRules, 10);
    ModifiersOfMeta2Hit();
  }

  /** Rules 11 to 11 of the modifier table are unanchored, and the pattern of each holds its character of "l". */
  lemma ModifiersLacking11To12()
    ensures forall k :: 11 <= k < 12 ==> ModifierRules[k].Anywhere? && "l"[k - 11] in ModifierRules[k].pat
  {
  }

  /** Rules 11 to 11 of the modifier table cannot match "Command ": it lacks a character of each pattern. */
  lemma ModifiersOfMeta3()
    ensures ApplyRules("Command ", ModifierRules[11..]) == ApplyRules("Command ", ModifierRules[12..])
  {
    assert forall c :: c in "l" ==> c !in "Command ";
    ModifiersLacking11To12();
    ApplyRulesPassByChars("Command ", ModifierRules, 11, 12, "l");
  }

  /** The modifiers stage on "meta ". */
  lemma ModifiersOfMeta()
    ensures ApplyRules("meta ", ModifierRules) == "Command "
  {
    assert ModifierRules[0..] == ModifierRules;
    ModifiersOfMeta1();
    ModifiersOfMeta2();
    ModifiersOfMeta3();
    assert ModifierRules[12..] == [];
  }

  /** The modifiers stage on "C]". */
  lemma ModifiersOfCClose()
    ensures ApplyRules("C]", ModifierRules) == "C]"
  {
    forall i | 0 <= i < |"C]"| ensures Untouched("C]"[i], ModifierRules) { ModifiersSpareOutside("C]"[i]); }
    ApplyRulesUntouched("C]", ModifierRules);
  }

  /** "[meta pressed C]" cut into the pieces the modifier table works on separately. */
  lemma CommandKeyModifiersSplit()
    ensures "[meta pressed C]" == "[" + "meta " + "pressed " + "C]"
  {
  }

  /** "[Command pressed C]" cut into the results of those pieces. */
  lemma CommandKeyModifiersJoined()
    ensures "[Command pressed C]" == "[" + "Command " + "pressed " + "C]"
  {
  }

  /** The modifier table on "[meta pressed C]". */
  lemma CommandKeyModifiers()
    ensures ApplyRules("[meta pressed C]", ModifierRules) == "[Command pressed C]"
  {
    CommandKeyModifiersSplit();
    CommandKeyModifiersJoined();
    ModifiersSpareOutside('[');
    ApplyRulesSplit("[", "meta ", ModifierRules);
    ModifiersSpareP();
    ApplyRulesSplit("[" + "meta ", "pressed ", ModifierRules);
    ModifiersSpareOutside('C');
    ApplyRulesSplit("[" + "meta " + "pressed ", "C]", ModifierRules);
    ModifiersOfOpen();
    ModifiersOfMeta();
    ModifiersOfPressed();
    ModifiersOfCClose();
  }

  /** "Command pressed " cut around its first " ". */
  lemma LayoutOfCommandPressed1Hit1Split()
    ensures "Command pressed " == "Command" + " " + "pressed "
  {
  }

  /** "Commandpressed" cut the same way, around "". */
  lemma LayoutOfCommandPressed1Hit1Joined()
    ensures "Commandpressed" == "Command" + "" + "pressed"
  {
  }

  /** Replacing " " by "" in "Command pressed ", from its leftmost occurrence on. */
  lemma LayoutOfCommandPressed1Hit1()
    ensures ReplaceAll("Command pressed ", " ", "") == "Commandpressed"
  {
    LayoutOfCommandPressed1Hit1Split();
    LayoutOfCommandPressed1Hit1Joined();
    LayoutOfAltPressed1Hit2();
    ReplaceAllHit("Command pressed ", "Command", "pressed ", " ", "");
  }

  /** Rule 0 of the layout table turns "Command pressed " into "Commandpressed". */
  lemma LayoutOfCommandPressed1()
    ensures ApplyRules("Command pressed ", LayoutRules[0..]) == ApplyRules("Commandpressed", LayoutRules[1..])
  {
    LayoutRule0();
    ApplyRulesFire("Command pressed ", LayoutRules, 0);
    LayoutOfCommandPressed1Hit1();
  }

  /** Rules 1 to 4 of the layout table cannot match "Commandpressed": it lacks a character of each pattern. */
  lemma LayoutOfCommandPressed2()
    ensures ApplyRules("Commandpressed", LayoutRules[1..]) == ApplyRules("Commandpressed", LayoutRules[5..])
  {
    assert forall c :: c in "]][]" ==> c !in "Commandpressed";
    LayoutLacking1To5();
    ApplyRulesPassByChars("Commandpressed", LayoutRules, 1, 5, "]][]");
  }

  /** Replacing "pressed" by "+" in "Commandpressed", from its leftmost occurrence on. */
  lemma LayoutOfCommandPressed3Hit()
    ensures ReplaceAll("Commandpressed", "pressed", "+") == "Command+"
  {
    assert "Commandpressed" == "Command" + "pressed" + "";
    assert "Command+" == "Command" + "+" + "";
    assert ReplaceAll([], "pressed", "+") == [];
    ReplaceAllHit("Commandpressed", "Command", "", "pressed", "+");
  }

  /** Rule 5 of the layout table turns "Commandpressed" into "Command+". */
  lemma LayoutOfCommandPressed3()
    ensures ApplyRules("Commandpressed", LayoutRules[5..]) == ApplyRules("Command+", LayoutRules[6..])
  {
    LayoutRule5();
    ApplyRulesFire("Commandpressed", LayoutRules, 5);
    LayoutOfCommandPressed3Hit();
  }

  /** The layout stage on "Command pressed ". */
  lemma LayoutOfCommandPressed()
    ensures ApplyRules("Command pressed ", LayoutRules) == "Command+"
  {
    assert LayoutRules[0..] == LayoutRules;
    LayoutOfCommandPressed1();
    LayoutOfCommandPressed2();
    LayoutOfCommandPressed3();
    assert LayoutRules[6..] == [];
  }

  /** The layout stage on "C". */
  lemma LayoutOfC()
    ensures ApplyRules("C", LayoutRules) == "C"
  {
    LayoutSpareKeyChar('C');
    ApplyRulesUntouchedChar('C', LayoutRules);
  }

  /** "[Command pressed C]" cut into the pieces the layout table works on separately. */
  lemma CommandKeyLayoutSplit()
    ensures "[Command pressed C]" == "[" + "Command pressed " + "C" + "]"
  {
  }

  /** "\"Command+C\"" cut into the results of those pieces. */
  lemma CommandKeyLayoutJoined()
    ensures "\"Command+C\"" == "\"" + "Command+" + "C" + "\""
  {
  }

  /** The layout table on "[Command pressed C]". */
  lemma CommandKeyLayout()
    ensures ApplyRules("[Command pressed C]", LayoutRules) == "\"Command+C\""
  {
    CommandKeyLayoutSplit();
    CommandKeyLayoutJoined();
    LayoutSpareKeyChar('C');
    ApplyRulesSplit("[", "Command pressed ", LayoutRules);
    ApplyRulesSplit("[" + "Command pressed ", "C", LayoutRules);
    ApplyRulesSplit("[" + "Command pressed " + "C", "]", LayoutRules);
    LayoutOfOpen();
    LayoutOfCommandPressed();
    LayoutOfC();
    LayoutOfClose();
  }

  /** The key table on "\"Command+C\"". */
  lemma CommandKeyKeys()
    ensures ApplyRules("\"Command+C\"", KeyNameRules) == "\"Command+C\""
  {
    assert KeyNameRules[0..] == KeyNameRules;
    KeyNamesInert("\"Command+C\"", 0);
  }

  /** Rule 0 of the clean-up table cannot match "\"Command+C\"": part of its pattern never stands in it. */
  lemma CommandKeyCleanup1()
    ensures ApplyRules("\"Command+C\"", CleanupRules[0..]) == ApplyRules("\"Command+C\"", CleanupRules[1..])
  {
    assert NoPair("\"Command+C\"", '"', '+');
    CleanupRule0();
    ApplyRulesPassByPair("\"Command+C\"", CleanupRules, 0, 0);
  }

  /** Rules 1 to 1 of the clean-up table are unanchored, and the pattern of each holds its character of "r". */
  lemma CleanupLacking1To2B()
    ensures forall k :: 1 <= k < 2 ==> CleanupRules[k].Anywhere? && "r"[k - 1] in CleanupRules[k].pat
  {
  }

  /** Rules 1 to 1 of the clean-up table cannot match "\"Command+C\"": it lacks a character of each pattern. */
  lemma CommandKeyCleanup2()
    ensures ApplyRules("\"Command+C\"", CleanupRules[1..]) == ApplyRules("\"Command+C\"", CleanupRules[2..])
  {
    assert forall c :: c in "r" ==> c !in "\"Command+C\"";
    CleanupLacking1To2B();
    ApplyRulesPassByChars("\"Command+C\"", CleanupRules, 1, 2, "r");
  }

  /** The clean-up table on "\"Command+C\"". */
  lemma CommandKeyCleanup()
    ensures ApplyRules("\"Command+C\"", CleanupRules) == "\"Command+C\""
  {
    assert CleanupRules[0..] == CleanupRules;
    CommandKeyCleanup1();
    CommandKeyCleanup2();
    assert CleanupRules[2..] == [];
  }

  /** `meta` is shown as `Command`. */
  lemma CommandKey()
    ensures Format("[meta pressed C]") == "\"Command+C\""
  {
    FormatStages("[meta pressed C]");
    CommandKeyModifiers();
    CommandKeyLayout();
    CommandKeyKeys();
    CommandKeyCleanup();
  }

  /** Rules 0 to 8 of the modifier table are unanchored, and the pattern of each holds its character of "sssamsmss". */
  lemma ModifiersLacking0To9()
    ensures forall k :: 0 <= k < 9 ==> ModifierRules[k].Anywhere? && "sssamsmss"[k - 0] in ModifierRules[k].pat
  {
  }

  /** Rules 0 to 8 of the modifier table cannot match "ctrl ": it lacks a character of each pattern. */
  lemma ModifiersOfCtrl1()
    ensures ApplyRules("ctrl ", ModifierRules[0..]) == ApplyRules("ctrl ", ModifierRules[9..])
  {
    assert forall c :: c in "sssamsmss" ==> c !in "ctrl ";
    ModifiersLacking0To9();
    ApplyRulesPassByChars("ctrl ", ModifierRules, 0, 9, "sssamsmss");
  }

  /** Replacing "ctrl" by "Ctrl" in "ctrl ", from its leftmost occurrence on. */
  lemma ModifiersOfCtrl2Hit()
    ensures ReplaceAll("ctrl ", "ctrl", "Ctrl") == "Ctrl "
  {
    assert "ctrl " == "" + "ctrl" + " ";
    assert "Ctrl " == "" + "Ctrl" + " ";
    ReplaceAllLacking(" ", "ctrl", "Ctrl", 'c');
    ReplaceAllHit("ctrl ", "", " ", "ctrl", "Ctrl");
  }

  /** Rule 9 of the modifier table turns "ctrl " into "Ctrl ". */
  lemma ModifiersOfCtrl2()
    ensures ApplyRules("ctrl ", ModifierRules[9..]) == ApplyRules("Ctrl ", ModifierRules[10..])
  {
    ModifiersRule9();
    ApplyRulesFire("ctrl ", ModifierRules, 9);
    ModifiersOfCtrl2Hit();
  }

  /** Rules 10 to 11 of the modifier table are unanchored, and the pattern of each holds its character of "ma". */
  lemma ModifiersLacking10To12()
    ensures forall k :: 10 <= k < 12 ==> ModifierRules[k].Anywhere? && "ma"[k - 10] in ModifierRules[k].pat
  {
  }

  /** Rules 10 to 11 of the modifier table cannot match "Ctrl ": it lacks a character of each pattern. */
  lemma ModifiersOfCtrl3()
    ensures ApplyRules("Ctrl ", ModifierRules[10..]) == ApplyRules("Ctrl ", ModifierRules[12..])
  {
    assert forall c :: c in "ma" ==> c !in "Ctrl ";
    ModifiersLacking10To12();
    ApplyRulesPassByChars("Ctrl ", ModifierRules, 10, 12, "ma");
  }

  /** The modifiers stage on "ctrl ". */
  lemma ModifiersOfCtrl()
    ensures ApplyRules("ctrl ", ModifierRules) == "Ctrl "
  {
    assert ModifierRules[0..] == ModifierRules;
    ModifiersOfCtrl1();
    ModifiersOfCtrl2();
    ModifiersOfCtrl3();
    assert ModifierRules[12..] == [];
  }

  /** The modifiers stage on "C],[". */
  lemma ModifiersOfCCloseCommaOpen()
    ensures ApplyRules("C],[", ModifierRules) == "C],["
  {
    forall i | 0 <= i < |"C],["| ensures Untouched("C],["[i], ModifierRules) { ModifiersSpareOutside("C],["[i]); }
    ApplyRulesUntouched("C],[", ModifierRules);
  }

  /** The modifiers stage on "INSERT]". */
  lemma ModifiersOfINSERTClose()
    ensures ApplyRules("INSERT]", ModifierRules) == "INSERT]"
  {
    forall i | 0 <= i < |"INSERT]"| ensures Untouched("INSERT]"[i], ModifierRules) { ModifiersSpareOutside("INSERT]"[i]); }
    ApplyRulesUntouched("INSERT]", ModifierRules);
  }

  /** "[ctrl pressed C],[ctrl pressed INSERT]" cut into the pieces the modifier table works on separately. */
  lemma AlternativeBindingsModifiersSplit()
    ensures "[ctrl pressed C],[ctrl pressed INSERT]" == "[" + "ctrl " + "pressed " + "C],[" + "ctrl " + "pressed " + "INSERT]"
  {
  }

  /** "[Ctrl pressed C],[Ctrl pressed INSERT]" cut into the results of those pieces. */
  lemma AlternativeBindingsModifiersJoined()
    ensures "[Ctrl pressed C],[Ctrl pressed INSERT]" == "[" + "Ctrl " + "pressed " + "C],[" + "Ctrl " + "pressed " + "INSERT]"
  {
  }

  /** The modifier table on "[ctrl pressed C],[ctrl pressed INSERT]". */
  lemma AlternativeBindingsModifiers()
    ensures ApplyRules("[ctrl pressed C],[ctrl pressed INSERT]", ModifierRules) == "[Ctrl pressed C],[Ctrl pressed INSERT]"
  {
    AlternativeBindingsModifiersSplit();
    AlternativeBindingsModifiersJoined();
    ModifiersSpareOutside('[');
    ApplyRulesSplit("[", "ctrl ", ModifierRules);
    ModifiersSpareP();
    ApplyRulesSplit("[" + "ctrl ", "pressed ", ModifierRules);
    ModifiersSpareOutside('C');
    ApplyRulesSplit("[" + "ctrl " + "pressed ", "C],[", ModifierRules);
    ApplyRulesSplit("[" + "ctrl " + "pressed " + "C],[", "ctrl ", ModifierRules);
    ApplyRulesSplit("[" + "ctrl " + "pressed " + "C],[" + "ctrl ", "pressed ", ModifierRules);
    ModifiersSpareOutside('I');
    ApplyRulesSplit("[" + "ctrl " + "pressed " + "C],[" + "ctrl " + "pressed ", "INSERT]", ModifierRules);
    ModifiersOfOpen();
    ModifiersOfCtrl();
    ModifiersOfPressed();
    ModifiersOfCCloseCommaOpen();
    ModifiersOfCtrl();
    ModifiersOfPressed();
    ModifiersOfINSERTClose();
  }

  /** "Ctrl pressed " cut around its first " ". */
  lemma LayoutOfCtrlPressed1Hit1Split()
    ensures "Ctrl pressed " == "Ctrl" + " " + "pressed "
  {
  }

  /** "Ctrlpressed" cut the same way, around "". */
  lemma LayoutOfCtrlPressed1Hit1Joined()
    ensures "Ctrlpressed" == "Ctrl" + "" + "pressed"
  {
  }

  /** Replacing " " by "" in "Ctrl pressed ", from its leftmost occurrence on. */
  lemma LayoutOfCtrlPressed1Hit1()
    ensures ReplaceAll("Ctrl pressed ", " ", "") == "Ctrlpressed"
  {
    LayoutOfCtrlPressed1Hit1Split();
    LayoutOfCtrlPressed1Hit1Joined();
    LayoutOfAltPressed1Hit2();
    ReplaceAllHit("Ctrl pressed ", "Ctrl", "pressed ", " ", "");
  }

  /** Rule 0 of the layout table turns "Ctrl pressed " into "Ctrlpressed". */
  lemma LayoutOfCtrlPressed1()
    ensures ApplyRules("Ctrl pressed ", LayoutRules[0..]) == ApplyRules("Ctrlpressed", LayoutRules[1..])
  {
    LayoutRule0();
    ApplyRulesFire("Ctrl pressed ", LayoutRules, 0);
    LayoutOfCtrlPressed1Hit1();
  }

  /** Rules 1 to 4 of the layout table cannot match "Ctrlpressed": it lacks a character of each pattern. */
  lemma LayoutOfCtrlPressed2()
    ensures ApplyRules("Ctrlpressed", LayoutRules[1..]) == ApplyRules("Ctrlpressed", LayoutRules[5..])
  {
    assert forall c :: c in "]][]" ==> c !in "Ctrlpressed";
    LayoutLacking1To5();
    ApplyRulesPassByChars("Ctrlpressed", LayoutRules, 1, 5, "]][]");
  }

  /** Replacing "pressed" by "+" in "Ctrlpressed", from its leftmost occurrence on. */
  lemma LayoutOfCtrlPressed3Hit()
    ensures ReplaceAll("Ctrlpressed", "pressed", "+") == "Ctrl+"
  {
    assert "Ctrlpressed" == "Ctrl" + "pressed" + "";
    assert "Ctrl+" == "Ctrl" + "+" + "";
    assert ReplaceAll([], "pressed", "+") == [];
    ReplaceAllHit("Ctrlpressed", "Ctrl", "", "pressed", "+");
  }

  /** Rule 5 of the layout table turns "Ctrlpressed" into "Ctrl+". */
  lemma LayoutOfCtrlPressed3()
    ensures ApplyRules("Ctrlpressed", LayoutRules[5..]) == ApplyRules("Ctrl+", LayoutRules[6..])
  {
    LayoutRule5();
    ApplyRulesFire("Ctrlpressed", LayoutRules, 5);
    LayoutOfCtrlPressed3Hit();
  }

  /** The layout stage on "Ctrl pressed ". */
  lemma LayoutOfCtrlPressed()
    ensures ApplyRules("Ctrl pressed ", LayoutRules) == "Ctrl+"
  {
    assert LayoutRules[0..] == LayoutRules;
    LayoutOfCtrlPressed1();
    LayoutOfCtrlPressed2();
    LayoutOfCtrlPressed3();
    assert LayoutRules[6..] == [];
  }

  /** Rules 0 to 1 of the layout table are unanchored, and the pattern of each holds its character of " +". */
  lemma LayoutLacking0To2()
    ensures forall k :: 0 <= k < 2 ==> LayoutRules[k].Anywhere? && " +"[k - 0] in LayoutRules[k].pat
  {
  }

  /** Rules 0 to 1 of the layout table cannot match "],[": it lacks a character of each pattern. */
  lemma LayoutOfCloseCommaOpen1()
    ensures ApplyRules("],[", LayoutRules[0..]) == ApplyRules("],[", LayoutRules[2..])
  {
    assert forall c :: c in " +" ==> c !in "],[";
    LayoutLacking0To2();
    ApplyRulesPassByChars("],[", LayoutRules, 0, 2, " +");
  }

  /** "],[" is the whole pattern, so it becomes " or ". */
  lemma LayoutOfCloseCommaOpen2Hit()
    ensures ReplaceAll("],[", "],[", " or ") == " or "
  {
    ReplaceAllWhole("],[", " or ");
  }

  /** Rule 2 of the layout table: "],[" becomes " or ". */
  lemma LayoutRule2()
    ensures LayoutRules[2] == Plain("],[", " or ")
  {
  }

  /** Rule 2 of the layout table turns "],[" into " or ". */
  lemma LayoutOfCloseCommaOpen2()
    ensures ApplyRules("],[", LayoutRules[2..]) == ApplyRules(" or ", LayoutRules[3..])
  {
    LayoutRule2();
    ApplyRulesFire("],[", LayoutRules, 2);
    LayoutOfCloseCommaOpen2Hit();
  }

  /** Rules 3 to 5 of the layout table are unanchored, and the pattern of each holds its character of "[]p". */
  lemma LayoutLacking3To6()
    ensures forall k :: 3 <= k < 6 ==> LayoutRules[k].Anywhere? && "[]p"[k - 3] in LayoutRules[k].pat
  {
  }

  /** Rules 3 to 5 of the layout table cannot match " or ": it lacks a character of each pattern. */
  lemma LayoutOfCloseCommaOpen3()
    ensures ApplyRules(" or ", LayoutRules[3..]) == ApplyRules(" or ", LayoutRules[6..])
  {
    assert forall c :: c in "[]p" ==> c !in " or ";
    LayoutLacking3To6();
    ApplyRulesPassByChars(" or ", LayoutRules, 3, 6, "[]p");
  }

  /** The layout stage on "],[". */
  lemma LayoutOfCloseCommaOpen()
    ensures ApplyRules("],[", LayoutRules) == " or "
  {
    assert LayoutRules[0..] == LayoutRules;
    LayoutOfCloseCommaOpen1();
    LayoutOfCloseCommaOpen2();
    LayoutOfCloseCommaOpen3();
    assert LayoutRules[6..] == [];
  }

  /** The layout stage on "INSERT". */
  lemma LayoutOfINSERT()
    ensures ApplyRules("INSERT", LayoutRules) == "INSERT"
  {
    forall i | 0 <= i < |"INSERT"| ensures Untouched("INSERT"[i], LayoutRules) { LayoutSpareKeyChar("INSERT"[i]); }
    ApplyRulesUntouched("INSERT", LayoutRules);
  }

  /** "[Ctrl pressed C],[Ctrl pressed INSERT]" cut into the pieces the layout table works on separately. */
  lemma AlternativeBindingsLayoutSplit()
    ensures "[Ctrl pressed C],[Ctrl pressed INSERT]" == "[" + "Ctrl pressed " + "C" + "],[" + "Ctrl pressed " + "INSERT" + "]"
  {
  }

  /** "\"Ctrl+C or Ctrl+INSERT\"" cut into the results of those pieces. */
  lemma AlternativeBindingsLayoutJoined()
    ensures "\"Ctrl+C or Ctrl+INSERT\"" == "\"" + "Ctrl+" + "C" + " or " + "Ctrl+" + "INSERT" + "\""
  {
  }

  /** The layout table on "[Ctrl pressed C],[Ctrl pressed INSERT]". */
  lemma AlternativeBindingsLayout()
    ensures ApplyRules("[Ctrl pressed C],[Ctrl pressed INSERT]", LayoutRules) == "\"Ctrl+C or Ctrl+INSERT\""
  {
    AlternativeBindingsLayoutSplit();
    AlternativeBindingsLayoutJoined();
    LayoutSpareKeyChar('C');
    ApplyRulesSplit("[", "Ctrl pressed ", LayoutRules);
    ApplyRulesSplit("[" + "Ctrl pressed ", "C", LayoutRules);
    ApplyRulesSplit("[" + "Ctrl pressed " + "C", "],[", LayoutRules);
    ApplyRulesSplit("[" + "Ctrl pressed " + "C" + "],[", "Ctrl pressed ", LayoutRules);
    LayoutSpareKeyChar('I');
    ApplyRulesSplit("[" + "Ctrl pressed " + "C" + "],[" + "Ctrl pressed ", "INSERT", LayoutRules);
    LayoutSpareKeyChar('T');
    ApplyRulesSplit("[" + "Ctrl pressed " + "C" + "],[" + "Ctrl pressed " + "INSERT", "]", LayoutRules);
    LayoutOfOpen();
    LayoutOfCtrlPressed();
    LayoutOfC();
    LayoutOfCloseCommaOpen();
    LayoutOfCtrlPressed();
    LayoutOfINSERT();
    LayoutOfClose();
  }

  /** Rules 0 to 11 of the navigation key names are unanchored, and the pattern of each holds its character of "PPGLDUHBDALD". */
  lemma NavigationKeysLacking0To12()
    ensures forall k :: 0 <= k < 12 ==> NavigationKeyRules[k].Anywhere? && "PPGLDUHBDALD"[k - 0] in NavigationKeyRules[k].pat
  {
  }

  /** "\"Ctrl+C or Ctrl+INSERT\"" holds none of "PPGLDUHBDALD". */
  lemma AlternativeBindingsKeysNavigation1Text()
    ensures forall c :: c in "PPGLDUHBDALD" ==> c !in "\"Ctrl+C or Ctrl+INSERT\""
  {
  }

  /** Rules 0 to 11 of the navigation key names cannot match "\"Ctrl+C or Ctrl+INSERT\"": it lacks a character of each pattern. */
  lemma AlternativeBindingsKeysNavigation1()
    ensures ApplyRules("\"Ctrl+C or Ctrl+INSERT\"", NavigationKeyRules[0..]) == ApplyRules("\"Ctrl+C or Ctrl+INSERT\"", NavigationKeyRules[12..])
  {
    AlternativeBindingsKeysNavigation1Text();
    NavigationKeysLacking0To12();
    ApplyRulesPassByChars("\"Ctrl+C or Ctrl+INSERT\"", NavigationKeyRules, 0, 12, "PPGLDUHBDALD");
  }

  /** Replacing "INSERT" by "Insert" in "\"Ctrl+C or Ctrl+INSERT\"", from its leftmost occurrence on. */
  lemma AlternativeBindingsKeysNavigation2Hit()
    ensures ReplaceAll("\"Ctrl+C or Ctrl+INSERT\"", "INSERT", "Insert") == "\"Ctrl+C or Ctrl+Insert\""
  {
    assert "\"Ctrl+C or Ctrl+INSERT\"" == "\"Ctrl+C or Ctrl+" + "INSERT" + "\"";
    assert "\"Ctrl+C or Ctrl+Insert\"" == "\"Ctrl+C or Ctrl+" + "Insert" + "\"";
    ReplaceAllLacking("\"", "INSERT", "Insert", 'I');
    ReplaceAllHit("\"Ctrl+C or Ctrl+INSERT\"", "\"Ctrl+C or Ctrl+", "\"", "INSERT", "Insert");
  }

  /** Rule 12 of the navigation key names: "INSERT" becomes "Insert". */
  lemma NavigationKeysRule12()
    ensures NavigationKeyRules[12] == Plain("INSERT", "Insert")
  {
  }

  /** Rule 12 of the navigation key names turns "\"Ctrl+C or Ctrl+INSERT\"" into "\"Ctrl+C or Ctrl+Insert\"". */
  lemma AlternativeBindingsKeysNavigation2()
    ensures ApplyRules("\"Ctrl+C or Ctrl+INSERT\"", NavigationKeyRules[12..]) == ApplyRules("\"Ctrl+C or Ctrl+Insert\"", NavigationKeyRules[13..])
  {
    NavigationKeysRule12();
    ApplyRulesFire("\"Ctrl+C or Ctrl+INSERT\"", NavigationKeyRules, 12);
    AlternativeBindingsKeysNavigation2Hit();
  }

  /** "\"Ctrl+C or Ctrl+Insert\"" has no two adjacent capitals, so rules 13 on of the navigation key names leave it alone. */
  lemma AlternativeBindingsKeysNavigation3()
    ensures ApplyRules("\"Ctrl+C or Ctrl+Insert\"", NavigationKeyRules[13..]) == "\"Ctrl+C or Ctrl+Insert\""
  {
    NavigationKeysShaped();
    UpperKeysInert("\"Ctrl+C or Ctrl+Insert\"", NavigationKeyRules, 13);
  }

  /** The navigation key names on "\"Ctrl+C or Ctrl+INSERT\"". */
  lemma AlternativeBindingsKeysNavigation()
    ensures ApplyRules("\"Ctrl+C or Ctrl+INSERT\"", NavigationKeyRules) == "\"Ctrl+C or Ctrl+Insert\""
  {
    assert NavigationKeyRules[0..] == NavigationKeyRules;
    AlternativeBindingsKeysNavigation1();
    AlternativeBindingsKeysNavigation2();
    AlternativeBindingsKeysNavigation3();
  }

  /** "\"Ctrl+C or Ctrl+Insert\"" has no two adjacent capitals, so rules 0 on of the punctuation key names leave it alone. */
  lemma AlternativeBindingsKeysPunctuation1()
    ensures ApplyRules("\"Ctrl+C or Ctrl+Insert\"", PunctuationKeyRules[0..]) == "\"Ctrl+C or Ctrl+Insert\""
  {
    PunctuationKeysShaped();
    UpperKeysInert("\"Ctrl+C or Ctrl+Insert\"", PunctuationKeyRules, 0);
  }

  /** The punctuation key names on "\"Ctrl+C or Ctrl+Insert\"". */
  lemma AlternativeBindingsKeysPunctuation()
    ensures ApplyRules("\"Ctrl+C or Ctrl+Insert\"", PunctuationKeyRules) == "\"Ctrl+C or Ctrl+Insert\""
  {
    assert PunctuationKeyRules[0..] == PunctuationKeyRules;
    AlternativeBindingsKeysPunctuation1();
  }

  /** "\"Ctrl+C or Ctrl+Insert\"" has no two adjacent capitals, so rules 0 on of the numeric-pad key names leave it alone. */
  lemma AlternativeBindingsKeysNumpad1()
    ensures ApplyRules("\"Ctrl+C or Ctrl+Insert\"", NumpadKeyRules[0..]) == "\"Ctrl+C or Ctrl+Insert\""
  {
    NumpadKeysShaped();
    UpperKeysInert("\"Ctrl+C or Ctrl+Insert\"", NumpadKeyRules, 0);
  }

  /** The numeric-pad key names on "\"Ctrl+C or Ctrl+Insert\"". */
  lemma AlternativeBindingsKeysNumpad()
    ensures ApplyRules("\"Ctrl+C or Ctrl+Insert\"", NumpadKeyRules) == "\"Ctrl+C or Ctrl+Insert\""
  {
    assert NumpadKeyRules[0..] == NumpadKeyRules;
    AlternativeBindingsKeysNumpad1();
  }

  /** The key table on "\"Ctrl+C or Ctrl+INSERT\"". */
  lemma AlternativeBindingsKeys()
    ensures ApplyRules("\"Ctrl+C or Ctrl+INSERT\"", KeyNameRules) == "\"Ctrl+C or Ctrl+Insert\""
  {
    KeyNameStages("\"Ctrl+C or Ctrl+INSERT\"");
    AlternativeBindingsKeysNavigation();
    AlternativeBindingsKeysPunctuation();
    AlternativeBindingsKeysNumpad();
  }

  /** "\"+" never stands in "\"Ctrl+C or Ctrl+Insert\"". */
  lemma AlternativeBindingsCleanup1Text()
    ensures NoPair("\"Ctrl+C or Ctrl+Insert\"", '"', '+')
  {
  }

  /** Rule 0 of the clean-up table cannot match "\"Ctrl+C or Ctrl+Insert\"": part of its pattern never stands in it. */
  lemma AlternativeBindingsCleanup1()
    ensures ApplyRules("\"Ctrl+C or Ctrl+Insert\"", CleanupRules[0..]) == ApplyRules("\"Ctrl+C or Ctrl+Insert\"", CleanupRules[1..])
  {
    AlternativeBindingsCleanup1Text();
    CleanupRule0();
    ApplyRulesPassByPair("\"Ctrl+C or Ctrl+Insert\"", CleanupRules, 0, 0);
  }

  /** " +" never stands in "\"Ctrl+C or Ctrl+Insert\"". */
  lemma AlternativeBindingsCleanup2Text()
    ensures NoPair("\"Ctrl+C or Ctrl+Insert\"", ' ', '+')
  {
  }

  /** Rule 1 of the clean-up table: "or +" becomes "or ". */
  lemma CleanupRule1()
    ensures CleanupRules[1] == Plain("or +", "or ")
  {
  }

  /** Rule 1 of the clean-up table cannot match "\"Ctrl+C or Ctrl+Insert\"": part of its pattern never stands in it. */
  lemma AlternativeBindingsCleanup2()
    ensures ApplyRules("\"Ctrl+C or Ctrl+Insert\"", CleanupRules[1..]) == ApplyRules("\"Ctrl+C or Ctrl+Insert\"", CleanupRules[2..])
  {
    AlternativeBindingsCleanup2Text();
    CleanupRule1();
    ApplyRulesPassByPair("\"Ctrl+C or Ctrl+Insert\"", CleanupRules, 1, 2);
  }

  /** The clean-up table on "\"Ctrl+C or Ctrl+Insert\"". */
  lemma AlternativeBindingsCleanup()
    ensures ApplyRules("\"Ctrl+C or Ctrl+Insert\"", CleanupRules) == "\"Ctrl+C or Ctrl+Insert\""
  {
    assert CleanupRules[0..] == CleanupRules;
    AlternativeBindingsCleanup1();
    AlternativeBindingsCleanup2();
    assert CleanupRules[2..] == [];
  }

  /** Two bindings come out separated by ` or `, and a key name in capitals is spelled out. */
  lemma AlternativeBindings()
    ensures Format("[ctrl pressed C],[ctrl pressed INSERT]") == "\"Ctrl+C or Ctrl+Insert\""
  {
    FormatStages("[ctrl pressed C],[ctrl pressed INSERT]");
    AlternativeBindingsModifiers();
    AlternativeBindingsLayout();
    AlternativeBindingsKeys();
    AlternativeBindingsCleanup();
  }

  /** The modifiers stage on "A]+[". */
  lemma ModifiersOfAClosePlusOpen()
    ensures ApplyRules("A]+[", ModifierRules) == "A]+["
  {
    forall i | 0 <= i < |"A]+["| ensures Untouched("A]+["[i], ModifierRules) { ModifiersSpareOutside("A]+["[i]); }
    ApplyRulesUntouched("A]+[", ModifierRules);
  }

  /** The modifiers stage on "B]". */
  lemma ModifiersOfBClose()
    ensures ApplyRules("B]", ModifierRules) == "B]"
  {
    forall i | 0 <= i < |"B]"| ensures Untouched("B]"[i], ModifierRules) { ModifiersSpareOutside("B]"[i]); }
    ApplyRulesUntouched("B]", ModifierRules);
  }

  /** "[ctrl pressed A]+[pressed B]" cut into the pieces the modifier table works on separately. */
  lemma TwoStrokeBindingModifiersSplit()
    ensures "[ctrl pressed A]+[pressed B]" == "[" + "ctrl " + "pressed " + "A]+[" + "pressed " + "B]"
  {
  }

  /** "[Ctrl pressed A]+[pressed B]" cut into the results of those pieces. */
  lemma TwoStrokeBindingModifiersJoined()
    ensures "[Ctrl pressed A]+[pressed B]" == "[" + "Ctrl " + "pressed " + "A]+[" + "pressed " + "B]"
  {
  }

  /** The modifier table on "[ctrl pressed A]+[pressed B]". */
  lemma TwoStrokeBindingModifiers()
    ensures ApplyRules("[ctrl pressed A]+[pressed B]", ModifierRules) == "[Ctrl pressed A]+[pressed B]"
  {
    TwoStrokeBindingModifiersSplit();
    TwoStrokeBindingModifiersJoined();
    ModifiersSpareOutside('[');
    ApplyRulesSplit("[", "ctrl ", ModifierRules);
    ModifiersSpareP();
    ApplyRulesSplit("[" + "ctrl ", "pressed ", ModifierRules);
    ModifiersSpareOutside('A');
    ApplyRulesSplit("[" + "ctrl " + "pressed ", "A]+[", ModifierRules);
    ApplyRulesSplit("[" + "ctrl " + "pressed " + "A]+[", "pressed ", ModifierRules);
    ModifiersSpareOutside('B');
    ApplyRulesSplit("[" + "ctrl " + "pressed " + "A]+[" + "pressed ", "B]", ModifierRules);
    ModifiersOfOpen();
    ModifiersOfCtrl();
    ModifiersOfPressed();
    ModifiersOfAClosePlusOpen();
    ModifiersOfPressed();
    ModifiersOfBClose();
  }

  /** Replacing " " by "" in "]+[pressed ", from its leftmost occurrence on. */
  lemma LayoutOfClosePlusOpenPressed1Hit()
    ensures ReplaceAll("]+[pressed ", " ", "") == "]+[pressed"
  {
    assert "]+[pressed " == "]+[pressed" + " " + "";
    assert "]+[pressed" == "]+[pressed" + "" + "";
    assert ReplaceAll([], " ", "") == [];
    ReplaceAllHit("]+[pressed ", "]+[pressed", "", " ", "");
  }

  /** Rule 0 of the layout table turns "]+[pressed " into "]+[pressed". */
  lemma LayoutOfClosePlusOpenPressed1()
    ensures ApplyRules("]+[pressed ", LayoutRules[0..]) == ApplyRules("]+[pressed", LayoutRules[1..])
  {
    LayoutRule0();
    ApplyRulesFire("]+[pressed ", LayoutRules, 0);
    LayoutOfClosePlusOpenPressed1Hit();
  }

  /** Replacing "]+[" by " or " in "]+[pressed", from its leftmost occurrence on. */
  lemma LayoutOfClosePlusOpenPressed2Hit()
    ensures ReplaceAll("]+[pressed", "]+[", " or ") == " or pressed"
  {
    assert "]+[pressed" == "" + "]+[" + "pressed";
    assert " or pressed" == "" + " or " + "pressed";
    ReplaceAllLacking("pressed", "]+[", " or ", ']');
    ReplaceAllHit("]+[pressed", "", "pressed", "]+[", " or ");
  }

  /** Rule 1 of the layout table: "]+[" becomes " or ". */
  lemma LayoutRule1()
    ensures LayoutRules[1] == Plain("]+[", " or ")
  {
  }

  /** Rule 1 of the layout table turns "]+[pressed" into " or pressed". */
  lemma LayoutOfClosePlusOpenPressed2()
    ensures ApplyRules("]+[pressed", LayoutRules[1..]) == ApplyRules(" or pressed", LayoutRules[2..])
  {
    LayoutRule1();
    ApplyRulesFire("]+[pressed", LayoutRules, 1);
    LayoutOfClosePlusOpenPressed2Hit();
  }

  /** Rules 2 to 4 of the layout table are unanchored, and the pattern of each holds its character of "][]". */
  lemma LayoutLacking2To5()
    ensures forall k :: 2 <= k < 5 ==> LayoutRules[k].Anywhere? && "][]"[k - 2] in LayoutRules[k].pat
  {
  }

  /** Rules 2 to 4 of the layout table cannot match " or pressed": it lacks a character of each pattern. */
  lemma LayoutOfClosePlusOpenPressed3()
    ensures ApplyRules(" or pressed", LayoutRules[2..]) == ApplyRules(" or pressed", LayoutRules[5..])
  {
    assert forall c :: c in "][]" ==> c !in " or pressed";
    LayoutLacking2To5();
    ApplyRulesPassByChars(" or pressed", LayoutRules, 2, 5, "][]");
  }

  /** Replacing "pressed" by "+" in " or pressed", from its leftmost occurrence on. */
  lemma LayoutOfClosePlusOpenPressed4Hit()
    ensures ReplaceAll(" or pressed", "pressed", "+") == " or +"
  {
    assert " or pressed" == " or " + "pressed" + "";
    assert " or +" == " or " + "+" + "";
    assert ReplaceAll([], "pressed", "+") == [];
    ReplaceAllHit(" or pressed", " or ", "", "pressed", "+");
  }

  /** Rule 5 of the layout table turns " or pressed" into " or +". */
  lemma LayoutOfClosePlusOpenPressed4()
    ensures ApplyRules(" or pressed", LayoutRules[5..]) == ApplyRules(" or +", LayoutRules[6..])
  {
    LayoutRule5();
    ApplyRulesFire(" or pressed", LayoutRules, 5);
    LayoutOfClosePlusOpenPressed4Hit();
  }

  /** The layout stage on "]+[pressed ". */
  lemma LayoutOfClosePlusOpenPressed()
    ensures ApplyRules("]+[pressed ", LayoutRules) == " or +"
  {
    assert LayoutRules[0..] == LayoutRules;
    LayoutOfClosePlusOpenPressed1();
    LayoutOfClosePlusOpenPressed2();
    LayoutOfClosePlusOpenPressed3();
    LayoutOfClosePlusOpenPressed4();
    assert LayoutRules[6..] == [];
  }

  /** The layout stage on "B". */
  lemma LayoutOfB()
    ensures ApplyRules("B", LayoutRules) == "B"
  {
    LayoutSpareKeyChar('B');
    ApplyRulesUntouchedChar('B', LayoutRules);
  }

  /** "[Ctrl pressed A]+[pressed B]" cut into the pieces the layout table works on separately. */
  lemma TwoStrokeBindingLayoutSplit()
    ensures "[Ctrl pressed A]+[pressed B]" == "[" + "Ctrl pressed " + "A" + "]+[pressed " + "B" + "]"
  {
  }

  /** "\"Ctrl+A or +B\"" cut into the results of those pieces. */
  lemma TwoStrokeBindingLayoutJoined()
    ensures "\"Ctrl+A or +B\"" == "\"" + "Ctrl+" + "A" + " or +" + "B" + "\""
  {
  }

  /** The layout table on "[Ctrl pressed A]+[pressed B]". */
  lemma TwoStrokeBindingLayout()
    ensures ApplyRules("[Ctrl pressed A]+[pressed B]", LayoutRules) == "\"Ctrl+A or +B\""
  {
    TwoStrokeBindingLayoutSplit();
    TwoStrokeBindingLayoutJoined();
    LayoutSpareKeyChar('C');
    ApplyRulesSplit("[", "Ctrl pressed ", LayoutRules);
    LayoutSpareKeyChar('A');
    ApplyRulesSplit("[" + "Ctrl pressed ", "A", LayoutRules);
    ApplyRulesSplit("[" + "Ctrl pressed " + "A", "]+[pressed ", LayoutRules);
    LayoutSpareKeyChar('B');
    ApplyRulesSplit("[" + "Ctrl pressed " + "A" + "]+[pressed ", "B", LayoutRules);
    ApplyRulesSplit("[" + "Ctrl pressed " + "A" + "]+[pressed " + "B", "]", LayoutRules);
    LayoutOfOpen();
    LayoutOfCtrlPressed();
    LayoutOfA();
    LayoutOfClosePlusOpenPressed();
    LayoutOfB();
    LayoutOfClose();
  }

  /** The key table on "\"Ctrl+A or +B\"". */
  lemma TwoStrokeBindingKeys()
    ensures ApplyRules("\"Ctrl+A or +B\"", KeyNameRules) == "\"Ctrl+A or +B\""
  {
    assert KeyNameRules[0..] == KeyNameRules;
    KeyNamesInert("\"Ctrl+A or +B\"", 0);
  }

  /** Rule 0 of the clean-up table cannot match "\"Ctrl+A or +B\"": part of its pattern never stands in it. */
  lemma TwoStrokeBindingCleanup1()
    ensures ApplyRules("\"Ctrl+A or +B\"", CleanupRules[0..]) == ApplyRules("\"Ctrl+A or +B\"", CleanupRules[1..])
  {
    assert NoPair("\"Ctrl+A or +B\"", '"', '+');
    CleanupRule0();
    ApplyRulesPassByPair("\"Ctrl+A or +B\"", CleanupRules, 0, 0);
  }

  /** Replacing "or +" by "or " in "\"Ctrl+A or +B\"", from its leftmost occurrence on. */
  lemma TwoStrokeBindingCleanup2Hit()
    ensures ReplaceAll("\"Ctrl+A or +B\"", "or +", "or ") == "\"Ctrl+A or B\""
  {
    assert "\"Ctrl+A or +B\"" == "\"Ctrl+A " + "or +" + "B\"";
    assert "\"Ctrl+A or B\"" == "\"Ctrl+A " + "or " + "B\"";
    ReplaceAllLacking("B\"", "or +", "or ", 'o');
    ReplaceAllHit("\"Ctrl+A or +B\"", "\"Ctrl+A ", "B\"", "or +", "or ");
  }

  /** Rule 1 of the clean-up table turns "\"Ctrl+A or +B\"" into "\"Ctrl+A or B\"". */
  lemma TwoStrokeBindingCleanup2()
    ensures ApplyRules("\"Ctrl+A or +B\"", CleanupRules[1..]) == ApplyRules("\"Ctrl+A or B\"", CleanupRules[2..])
  {
    CleanupRule1();
    ApplyRulesFire("\"Ctrl+A or +B\"", CleanupRules, 1);
    TwoStrokeBindingCleanup2Hit();
  }

  /** The clean-up table on "\"Ctrl+A or +B\"". */
  lemma TwoStrokeBindingCleanup()
    ensures ApplyRules("\"Ctrl+A or +B\"", CleanupRules) == "\"Ctrl+A or B\""
  {
    assert CleanupRules[0..] == CleanupRules;
    TwoStrokeBindingCleanup1();
    TwoStrokeBindingCleanup2();
    assert CleanupRules[2..] == [];
  }

  /** The two strokes of a two-stroke binding come out separated by ` or `, and the `+` that `pressed` leaves after ` or ` is dropped. */
  lemma TwoStrokeBinding()
    ensures Format("[ctrl pressed A]+[pressed B]") == "\"Ctrl+A or B\""
  {
    FormatStages("[ctrl pressed A]+[pressed B]");
    TwoStrokeBindingModifiers();
    TwoStrokeBindingLayout();
    TwoStrokeBindingKeys();
    TwoStrokeBindingCleanup();
  }

  /** The modifiers stage on "PAGE_DOWN]". */
  lemma ModifiersOfPAGEDOWNClose()
    ensures ApplyRules("PAGE_DOWN]", ModifierRules) == "PAGE_DOWN]"
  {
    forall i | 0 <= i < |"PAGE_DOWN]"| ensures Untouched("PAGE_DOWN]"[i], ModifierRules) { ModifiersSpareOutside("PAGE_DOWN]"[i]); }
    ApplyRulesUntouched("PAGE_DOWN]", ModifierRules);
  }

  /** "[pressed PAGE_DOWN]" cut into the pieces the modifier table works on separately. */
  lemma PageDownKeyModifiersPieces()
    ensures "[pressed PAGE_DOWN]" == "[" + "pressed " + "PAGE_DOWN]"
  {
  }

  /** The modifier table on "[pressed PAGE_DOWN]". */
  lemma PageDownKeyModifiers()
    ensures ApplyRules("[pressed PAGE_DOWN]", ModifierRules) == "[pressed PAGE_DOWN]"
  {
    PageDownKeyModifiersPieces();
    ModifiersSpareOutside('[');
    ApplyRulesSplit("[", "pressed ", ModifierRules);
    ModifiersSpareOutside('P');
    ApplyRulesSplit("[" + "pressed ", "PAGE_DOWN]", ModifierRules);
    ModifiersOfOpen();
    ModifiersOfPressed();
    ModifiersOfPAGEDOWNClose();
  }

  /** The layout stage on "PAGE_DOWN". */
  lemma LayoutOfPAGEDOWN()
    ensures ApplyRules("PAGE_DOWN", LayoutRules) == "PAGE_DOWN"
  {
    forall i | 0 <= i < |"PAGE_DOWN"| ensures Untouched("PAGE_DOWN"[i], LayoutRules) { LayoutSpareKeyChar("PAGE_DOWN"[i]); }
    ApplyRulesUntouched("PAGE_DOWN", LayoutRules);
  }

  /** "[pressed PAGE_DOWN]" cut into the pieces the layout table works on separately. */
  lemma PageDownKeyLayoutSplit()
    ensures "[pressed PAGE_DOWN]" == "[pressed " + "PAGE_DOWN" + "]"
  {
  }

  /** "\"+PAGE_DOWN\"" cut into the results of those pieces. */
  lemma PageDownKeyLayoutJoined()
    ensures "\"+PAGE_DOWN\"" == "\"+" + "PAGE_DOWN" + "\""
  {
  }

  /** The layout table on "[pressed PAGE_DOWN]". */
  lemma PageDownKeyLayout()
    ensures ApplyRules("[pressed PAGE_DOWN]", LayoutRules) == "\"+PAGE_DOWN\""
  {
    PageDownKeyLayoutSplit();
    PageDownKeyLayoutJoined();
    LayoutSpareKeyChar('P');
    ApplyRulesSplit("[pressed ", "PAGE_DOWN", LayoutRules);
    LayoutSpareKeyChar('N');
    ApplyRulesSplit("[pressed " + "PAGE_DOWN", "]", LayoutRules);
    LayoutOfOpenPressed();
    LayoutOfPAGEDOWN();
    LayoutOfClose();
  }

  /** Rules 0 to 0 of the navigation key names are unanchored, and the pattern of each holds its character of "U". */
  lemma NavigationKeysLacking0To1()
    ensures forall k :: 0 <= k < 1 ==> NavigationKeyRules[k].Anywhere? && "U"[k - 0] in NavigationKeyRules[k].pat
  {
  }

  /** Rules 0 to 0 of the navigation key names cannot match "\"+PAGE_DOWN\"": it lacks a character of each pattern. */
  lemma PageDownKeyKeysNavigation1()
    ensures ApplyRules("\"+PAGE_DOWN\"", NavigationKeyRules[0..]) == ApplyRules("\"+PAGE_DOWN\"", NavigationKeyRules[1..])
  {
    assert forall c :: c in "U" ==> c !in "\"+PAGE_DOWN\"";
    NavigationKeysLacking0To1();
    ApplyRulesPassByChars("\"+PAGE_DOWN\"", NavigationKeyRules, 0, 1, "U");
  }

  /** Replacing "PAGE_DOWN" by "Page Up" in "\"+PAGE_DOWN\"", from its leftmost occurrence on. */
  lemma PageDownKeyKeysNavigation2Hit()
    ensures ReplaceAll("\"+PAGE_DOWN\"", "PAGE_DOWN", "Page Up") == "\"+Page Up\""
  {
    assert "\"+PAGE_DOWN\"" == "\"+" + "PAGE_DOWN" + "\"";
    assert "\"+Page Up\"" == "\"+" + "Page Up" + "\"";
    ReplaceAllLacking("\"", "PAGE_DOWN", "Page Up", 'P');
    ReplaceAllHit("\"+PAGE_DOWN\"", "\"+", "\"", "PAGE_DOWN", "Page Up");
  }

  /** Rule 1 of the navigation key names: "PAGE_DOWN" becomes "Page Up". */
  lemma NavigationKeysRule1()
    ensures NavigationKeyRules[1] == Plain("PAGE_DOWN", "Page Up")
  {
  }

  /** Rule 1 of the navigation key names turns "\"+PAGE_DOWN\"" into "\"+Page Up\"". */
  lemma PageDownKeyKeysNavigation2()
    ensures ApplyRules("\"+PAGE_DOWN\"", NavigationKeyRules[1..]) == ApplyRules("\"+Page Up\"", NavigationKeyRules[2..])
  {
    NavigationKeysRule1();
    ApplyRulesFire("\"+PAGE_DOWN\"", NavigationKeyRules, 1);
    PageDownKeyKeysNavigation2Hit();
  }

  /** "\"+Page Up\"" has no two adjacent capitals, so rules 2 on of the navigation key names leave it alone. */
  lemma PageDownKeyKeysNavigation3()
    ensures ApplyRules("\"+Page Up\"", NavigationKeyRules[2..]) == "\"+Page Up\""
  {
    NavigationKeysShaped();
    UpperKeysInert("\"+Page Up\"", NavigationKeyRules, 2);
  }

  /** The navigation key names on "\"+PAGE_DOWN\"". */
  lemma PageDownKeyKeysNavigation()
    ensures ApplyRules("\"+PAGE_DOWN\"", NavigationKeyRules) == "\"+Page Up\""
  {
    assert NavigationKeyRules[0..] == NavigationKeyRules;
    PageDownKeyKeysNavigation1();
    PageDownKeyKeysNavigation2();
    PageDownKeyKeysNavigation3();
  }

  /** "\"+Page Up\"" has no two adjacent capitals, so rules 0 on of the punctuation key names leave it alone. */
  lemma PageDownKeyKeysPunctuation1()
    ensures ApplyRules("\"+Page Up\"", PunctuationKeyRules[0..]) == "\"+Page Up\""
  {
    PunctuationKeysShaped();
    UpperKeysInert("\"+Page Up\"", PunctuationKeyRules, 0);
  }

  /** The punctuation key names on "\"+Page Up\"". */
  lemma PageDownKeyKeysPunctuation()
    ensures ApplyRules("\"+Page Up\"", PunctuationKeyRules) == "\"+Page Up\""
  {
    assert PunctuationKeyRules[0..] == PunctuationKeyRules;
    PageDownKeyKeysPunctuation1();
  }

  /** "\"+Page Up\"" has no two adjacent capitals, so rules 0 on of the numeric-pad key names leave it alone. */
  lemma PageDownKeyKeysNumpad1()
    ensures ApplyRules("\"+Page Up\"", NumpadKeyRules[0..]) == "\"+Page Up\""
  {
    NumpadKeysShaped();
    UpperKeysInert("\"+Page Up\"", NumpadKeyRules, 0);
  }

  /** The numeric-pad key names on "\"+Page Up\"". */
  lemma PageDownKeyKeysNumpad()
    ensures ApplyRules("\"+Page Up\"", NumpadKeyRules) == "\"+Page Up\""
  {
    assert NumpadKeyRules[0..] == NumpadKeyRules;
    PageDownKeyKeysNumpad1();
  }

  /** The key table on "\"+PAGE_DOWN\"". */
  lemma PageDownKeyKeys()
    ensures ApplyRules("\"+PAGE_DOWN\"", KeyNameRules) == "\"+Page Up\""
  {
    KeyNameStages("\"+PAGE_DOWN\"");
    PageDownKeyKeysNavigation();
    PageDownKeyKeysPunctuation();
    PageDownKeyKeysNumpad();
  }

  /** Replacing "\"+" by "\"" in "\"+Page Up\"", from its leftmost occurrence on. */
  lemma PageDownKeyCleanup1Hit()
    ensures ReplaceAll("\"+Page Up\"", "\"+", "\"") == "\"Page Up\""
  {
    assert "\"+Page Up\"" == "" + "\"+" + "Page Up\"";
    assert "\"Page Up\"" == "" + "\"" + "Page Up\"";
    ReplaceAllLacking("Page Up\"", "\"+", "\"", '+');
    ReplaceAllHit("\"+Page Up\"", "", "Page Up\"", "\"+", "\"");
  }

  /** Rule 0 of the clean-up table turns "\"+Page Up\"" into "\"Page Up\"". */
  lemma PageDownKeyCleanup1()
    ensures ApplyRules("\"+Page Up\"", CleanupRules[0..]) == ApplyRules("\"Page Up\"", CleanupRules[1..])
  {
    CleanupRule0();
    ApplyRulesFire("\"+Page Up\"", CleanupRules, 0);
    PageDownKeyCleanup1Hit();
  }

  /** Rules 1 to 1 of the clean-up table cannot match "\"Page Up\"": it lacks a character of each pattern. */
  lemma PageDownKeyCleanup2()
    ensures ApplyRules("\"Page Up\"", CleanupRules[1..]) == ApplyRules("\"Page Up\"", CleanupRules[2..])
  {
    assert forall c :: c in "o" ==> c !in "\"Page Up\"";
    CleanupLacking1To2();
    ApplyRulesPassByChars("\"Page Up\"", CleanupRules, 1, 2, "o");
  }

  /** The clean-up table on "\"+Page Up\"". */
  lemma PageDownKeyCleanup()
    ensures ApplyRules("\"+Page Up\"", CleanupRules) == "\"Page Up\""
  {
    assert CleanupRules[0..] == CleanupRules;
    PageDownKeyCleanup1();
    PageDownKeyCleanup2();
    assert CleanupRules[2..] == [];
  }

  /** The key-name table as written shows `PAGE_DOWN` as `Page Up`. */
  lemma PageDownKey()
    ensures Format("[pressed PAGE_DOWN]") == "\"Page Up\""
  {
    FormatStages("[pressed PAGE_DOWN]");
    PageDownKeyModifiers();
    PageDownKeyLayout();
    PageDownKeyKeys();
    PageDownKeyCleanup();
  }

  /** The modifiers stage on "CLOSE_BRACKET]". */
  lemma ModifiersOfCLOSEBRACKETClose()
    ensures ApplyRules("CLOSE_BRACKET]", ModifierRules) == "CLOSE_BRACKET]"
  {
    forall i | 0 <= i < |"CLOSE_BRACKET]"| ensures Untouched("CLOSE_BRACKET]"[i], ModifierRules) { ModifiersSpareOutside("CLOSE_BRACKET]"[i]); }
    ApplyRulesUntouched("CLOSE_BRACKET]", ModifierRules);
  }

  /** "[pressed CLOSE_BRACKET]" cut into the pieces the modifier table works on separately. */
  lemma CloseBracketKeyModifiersPieces()
    ensures "[pressed CLOSE_BRACKET]" == "[" + "pressed " + "CLOSE_BRACKET]"
  {
  }

  /** The modifier table on "[pressed CLOSE_BRACKET]". */
  lemma CloseBracketKeyModifiers()
    ensures ApplyRules("[pressed CLOSE_BRACKET]", ModifierRules) == "[pressed CLOSE_BRACKET]"
  {
    CloseBracketKeyModifiersPieces();
    ModifiersSpareOutside('[');
    ApplyRulesSplit("[", "pressed ", ModifierRules);
    ModifiersSpareOutside('C');
    ApplyRulesSplit("[" + "pressed ", "CLOSE_BRACKET]", ModifierRules);
    ModifiersOfOpen();
    ModifiersOfPressed();
    ModifiersOfCLOSEBRACKETClose();
  }

  /** The layout stage on "CLOSE_BRACKET". */
  lemma LayoutOfCLOSEBRACKET()
    ensures ApplyRules("CLOSE_BRACKET", LayoutRules) == "CLOSE_BRACKET"
  {
    forall i | 0 <= i < |"CLOSE_BRACKET"| ensures Untouched("CLOSE_BRACKET"[i], LayoutRules) { LayoutSpareKeyChar("CLOSE_BRACKET"[i]); }
    ApplyRulesUntouched("CLOSE_BRACKET", LayoutRules);
  }

  /** "[pressed CLOSE_BRACKET]" cut into the pieces the layout table works on separately. */
  lemma CloseBracketKeyLayoutSplit()
    ensures "[pressed CLOSE_BRACKET]" == "[pressed " + "CLOSE_BRACKET" + "]"
  {
  }

  /** "\"+CLOSE_BRACKET\"" cut into the results of those pieces. */
  lemma CloseBracketKeyLayoutJoined()
    ensures "\"+CLOSE_BRACKET\"" == "\"+" + "CLOSE_BRACKET" + "\""
  {
  }

  /** The layout table on "[pressed CLOSE_BRACKET]". */
  lemma CloseBracketKeyLayout()
    ensures ApplyRules("[pressed CLOSE_BRACKET]", LayoutRules) == "\"+CLOSE_BRACKET\""
  {
    CloseBracketKeyLayoutSplit();
    CloseBracketKeyLayoutJoined();
    LayoutSpareKeyChar('C');
    ApplyRulesSplit("[pressed ", "CLOSE_BRACKET", LayoutRules);
    LayoutSpareKeyChar('T');
    ApplyRulesSplit("[pressed " + "CLOSE_BRACKET", "]", LayoutRules);
    LayoutOfOpenPressed();
    LayoutOfCLOSEBRACKET();
    LayoutOfClose();
  }

  /** Rules 0 to 8 of the navigation key names are unanchored, and the pattern of each holds its character of "PPIFDUHPD". */
  lemma NavigationKeysLacking0To9()
    ensures forall k :: 0 <= k < 9 ==> NavigationKeyRules[k].Anywhere? && "PPIFDUHPD"[k - 0] in NavigationKeyRules[k].pat
  {
  }

  /** Rules 0 to 8 of the navigation key names cannot match "\"+CLOSE_BRACKET\"": it lacks a character of each pattern. */
  lemma CloseBracketKeyKeysNavigation1()
    ensures ApplyRules("\"+CLOSE_BRACKET\"", NavigationKeyRules[0..]) == ApplyRules("\"+CLOSE_BRACKET\"", NavigationKeyRules[9..])
  {
    assert forall c :: c in "PPIFDUHPD" ==> c !in "\"+CLOSE_BRACKET\"";
    NavigationKeysLacking0To9();
    ApplyRulesPassByChars("\"+CLOSE_BRACKET\"", NavigationKeyRules, 0, 9, "PPIFDUHPD");
  }

  /** Rule 9 of the navigation key names: "TAB" becomes "Tab". */
  lemma NavigationKeysRule9()
    ensures NavigationKeyRules[9] == Plain("TAB", "Tab")
  {
  }

  /** Rule 9 of the navigation key names cannot match "\"+CLOSE_BRACKET\"": part of its pattern never stands in it. */
  lemma CloseBracketKeyKeysNavigation2()
    ensures ApplyRules("\"+CLOSE_BRACKET\"", NavigationKeyRules[9..]) == ApplyRules("\"+CLOSE_BRACKET\"", NavigationKeyRules[10..])
  {
    assert NoPair("\"+CLOSE_BRACKET\"", 'T', 'A');
    NavigationKeysRule9();
    ApplyRulesPassByPair("\"+CLOSE_BRACKET\"", NavigationKeyRules, 9, 0);
  }

  /** Rules 10 to 12 of the navigation key names are unanchored, and the pattern of each holds its character of "HDI". */
  lemma NavigationKeysLacking10To13()
    ensures forall k :: 10 <= k < 13 ==> NavigationKeyRules[k].Anywhere? && "HDI"[k - 10] in NavigationKeyRules[k].pat
  {
  }

  /** Rules 10 to 12 of the navigation key names cannot match "\"+CLOSE_BRACKET\"": it lacks a character of each pattern. */
  lemma CloseBracketKeyKeysNavigation3()
    ensures ApplyRules("\"+CLOSE_BRACKET\"", NavigationKeyRules[10..]) == ApplyRules("\"+CLOSE_BRACKET\"", NavigationKeyRules[13..])
  {
    assert forall c :: c in "HDI" ==> c !in "\"+CLOSE_BRACKET\"";
    NavigationKeysLacking10To13();
    ApplyRulesPassByChars("\"+CLOSE_BRACKET\"", NavigationKeyRules, 10, 13, "HDI");
  }

  /** Replacing "CLOSE_BRACKET" by "[" in "\"+CLOSE_BRACKET\"", from its leftmost occurrence on. */
  lemma CloseBracketKeyKeysNavigation4Hit()
    ensures ReplaceAll("\"+CLOSE_BRACKET\"", "CLOSE_BRACKET", "[") == "\"+[\""
  {
    assert "\"+CLOSE_BRACKET\"" == "\"+" + "CLOSE_BRACKET" + "\"";
    assert "\"+[\"" == "\"+" + "[" + "\"";
    ReplaceAllLacking("\"", "CLOSE_BRACKET", "[", 'C');
    ReplaceAllHit("\"+CLOSE_BRACKET\"", "\"+", "\"", "CLOSE_BRACKET", "[");
  }

  /** Rule 13 of the navigation key names: "CLOSE_BRACKET" becomes "[". */
  lemma NavigationKeysRule13()
    ensures NavigationKeyRules[13] == Plain("CLOSE_BRACKET", "[")
  {
  }

  /** Rule 13 of the navigation key names turns "\"+CLOSE_BRACKET\"" into "\"+[\"". */
  lemma CloseBracketKeyKeysNavigation4()
    ensures ApplyRules("\"+CLOSE_BRACKET\"", NavigationKeyRules[13..]) == ApplyRules("\"+[\"", NavigationKeyRules[14..])
  {
    NavigationKeysRule13();
    ApplyRulesFire("\"+CLOSE_BRACKET\"", NavigationKeyRules, 13);
    CloseBracketKeyKeysNavigation4Hit();
  }

  /** The navigation key names on "\"+CLOSE_BRACKET\"". */
  lemma CloseBracketKeyKeysNavigation()
    ensures ApplyRules("\"+CLOSE_BRACKET\"", NavigationKeyRules) == "\"+[\""
  {
    assert NavigationKeyRules[0..] == NavigationKeyRules;
    CloseBracketKeyKeysNavigation1();
    CloseBracketKeyKeysNavigation2();
    CloseBracketKeyKeysNavigation3();
    CloseBracketKeyKeysNavigation4();
    assert NavigationKeyRules[14..] == [];
  }

  /** "\"+[\"" has no two adjacent capitals, so rules 0 on of the punctuation key names leave it alone. */
  lemma CloseBracketKeyKeysPunctuation1()
    ensures ApplyRules("\"+[\"", PunctuationKeyRules[0..]) == "\"+[\""
  {
    PunctuationKeysShaped();
    UpperKeysInert("\"+[\"", PunctuationKeyRules, 0);
  }

  /** The punctuation key names on "\"+[\"". */
  lemma CloseBracketKeyKeysPunctuation()
    ensures ApplyRules("\"+[\"", PunctuationKeyRules) == "\"+[\""
  {
    assert PunctuationKeyRules[0..] == PunctuationKeyRules;
    CloseBracketKeyKeysPunctuation1();
  }

  /** "\"+[\"" has no two adjacent capitals, so rules 0 on of the numeric-pad key names leave it alone. */
  lemma CloseBracketKeyKeysNumpad1()
    ensures ApplyRules("\"+[\"", NumpadKeyRules[0..]) == "\"+[\""
  {
    NumpadKeysShaped();
    UpperKeysInert("\"+[\"", NumpadKeyRules, 0);
  }

  /** The numeric-pad key names on "\"+[\"". */
  lemma CloseBracketKeyKeysNumpad()
    ensures ApplyRules("\"+[\"", NumpadKeyRules) == "\"+[\""
  {
    assert NumpadKeyRules[0..] == NumpadKeyRules;
    CloseBracketKeyKeysNumpad1();
  }

  /** The key table on "\"+CLOSE_BRACKET\"". */
  lemma CloseBracketKeyKeys()
    ensures ApplyRules("\"+CLOSE_BRACKET\"", KeyNameRules) == "\"+[\""
  {
    KeyNameStages("\"+CLOSE_BRACKET\"");
    CloseBracketKeyKeysNavigation();
    CloseBracketKeyKeysPunctuation();
    CloseBracketKeyKeysNumpad();
  }

  /** Replacing "\"+" by "\"" in "\"+[\"", from its leftmost occurrence on. */
  lemma CloseBracketKeyCleanup1Hit()
    ensures ReplaceAll("\"+[\"", "\"+", "\"") == "\"[\""
  {
    assert "\"+[\"" == "" + "\"+" + "[\"";
    assert "\"[\"" == "" + "\"" + "[\"";
    ReplaceAllLacking("[\"", "\"+", "\"", '+');
    ReplaceAllHit("\"+[\"", "", "[\"", "\"+", "\"");
  }

  /** Rule 0 of the clean-up table turns "\"+[\"" into "\"[\"". */
  lemma CloseBracketKeyCleanup1()
    ensures ApplyRules("\"+[\"", CleanupRules[0..]) == ApplyRules("\"[\"", CleanupRules[1..])
  {
    CleanupRule0();
    ApplyRulesFire("\"+[\"", CleanupRules, 0);
    CloseBracketKeyCleanup1Hit();
  }

  /** Rules 1 to 1 of the clean-up table cannot match "\"[\"": it lacks a character of each pattern. */
  lemma CloseBracketKeyCleanup2()
    ensures ApplyRules("\"[\"", CleanupRules[1..]) == ApplyRules("\"[\"", CleanupRules[2..])
  {
    assert forall c :: c in "o" ==> c !in "\"[\"";
    CleanupLacking1To2();
    ApplyRulesPassByChars("\"[\"", CleanupRules, 1, 2, "o");
  }

  /** The clean-up table on "\"+[\"". */
  lemma CloseBracketKeyCleanup()
    ensures ApplyRules("\"+[\"", CleanupRules) == "\"[\""
  {
    assert CleanupRules[0..] == CleanupRules;
    CloseBracketKeyCleanup1();
    CloseBracketKeyCleanup2();
    assert CleanupRules[2..] == [];
  }

  /** The key-name table as written shows `CLOSE_BRACKET` as an opening bracket. */
  lemma CloseBracketKey()
    ensures Format("[pressed CLOSE_BRACKET]") == "\"[\""
  {
    FormatStages("[pressed CLOSE_BRACKET]");
    CloseBracketKeyModifiers();
    CloseBracketKeyLayout();
    CloseBracketKeyKeys();
    CloseBracketKeyCleanup();
  }

  /** The modifiers stage on "OPEN_BRACKET]". */
  lemma ModifiersOfOPENBRACKETClose()
    ensures ApplyRules("OPEN_BRACKET]", ModifierRules) == "OPEN_BRACKET]"
  {
    forall i | 0 <= i < |"OPEN_BRACKET]"| ensures Untouched("OPEN_BRACKET]"[i], ModifierRules) { ModifiersSpareOutside("OPEN_BRACKET]"[i]); }
    ApplyRulesUntouched("OPEN_BRACKET]", ModifierRules);
  }

  /** "[pressed OPEN_BRACKET]" cut into the pieces the modifier table works on separately. */
  lemma OpenBracketKeyModifiersPieces()
    ensures "[pressed OPEN_BRACKET]" == "[" + "pressed " + "OPEN_BRACKET]"
  {
  }

  /** The modifier table on "[pressed OPEN_BRACKET]". */
  lemma OpenBracketKeyModifiers()
    ensures ApplyRules("[pressed OPEN_BRACKET]", ModifierRules) == "[pressed OPEN_BRACKET]"
  {
    OpenBracketKeyModifiersPieces();
    ModifiersSpareOutside('[');
    ApplyRulesSplit("[", "pressed ", ModifierRules);
    ModifiersSpareOutside('O');
    ApplyRulesSplit("[" + "pressed ", "OPEN_BRACKET]", ModifierRules);
    ModifiersOfOpen();
    ModifiersOfPressed();
    ModifiersOfOPENBRACKETClose();
  }

  /** The layout stage on "OPEN_BRACKET". */
  lemma LayoutOfOPENBRACKET()
    ensures ApplyRules("OPEN_BRACKET", LayoutRules) == "OPEN_BRACKET"
  {
    forall i | 0 <= i < |"OPEN_BRACKET"| ensures Untouched("OPEN_BRACKET"[i], LayoutRules) { LayoutSpareKeyChar("OPEN_BRACKET"[i]); }
    ApplyRulesUntouched("OPEN_BRACKET", LayoutRules);
  }

  /** "[pressed OPEN_BRACKET]" cut into the pieces the layout table works on separately. */
  lemma OpenBracketKeyLayoutSplit()
    ensures "[pressed OPEN_BRACKET]" == "[pressed " + "OPEN_BRACKET" + "]"
  {
  }

  /** "\"+OPEN_BRACKET\"" cut into the results of those pieces. */
  lemma OpenBracketKeyLayoutJoined()
    ensures "\"+OPEN_BRACKET\"" == "\"+" + "OPEN_BRACKET" + "\""
  {
  }

  /** The layout table on "[pressed OPEN_BRACKET]". */
  lemma OpenBracketKeyLayout()
    ensures ApplyRules("[pressed OPEN_BRACKET]", LayoutRules) == "\"+OPEN_BRACKET\""
  {
    OpenBracketKeyLayoutSplit();
    OpenBracketKeyLayoutJoined();
    LayoutSpareKeyChar('O');
    ApplyRulesSplit("[pressed ", "OPEN_BRACKET", LayoutRules);
    LayoutSpareKeyChar('T');
    ApplyRulesSplit("[pressed " + "OPEN_BRACKET", "]", LayoutRules);
    LayoutOfOpenPressed();
    LayoutOfOPENBRACKET();
    LayoutOfClose();
  }

  /** Rules 0 to 8 of the navigation key names are unanchored, and the pattern of each holds its character of "GGILDUHSD". */
  lemma NavigationKeysLacking0To9B()
    ensures forall k :: 0 <= k < 9 ==> NavigationKeyRules[k].Anywhere? && "GGILDUHSD"[k - 0] in NavigationKeyRules[k].pat
  {
  }

  /** Rules 0 to 8 of the navigation key names cannot match "\"+OPEN_BRACKET\"": it lacks a character of each pattern. */
  lemma OpenBracketKeyKeysNavigation1()
    ensures ApplyRules("\"+OPEN_BRACKET\"", NavigationKeyRules[0..]) == ApplyRules("\"+OPEN_BRACKET\"", NavigationKeyRules[9..])
  {
    assert forall c :: c in "GGILDUHSD" ==> c !in "\"+OPEN_BRACKET\"";
    NavigationKeysLacking0To9B();
    ApplyRulesPassByChars("\"+OPEN_BRACKET\"", NavigationKeyRules, 0, 9, "GGILDUHSD");
  }

  /** Rule 9 of the navigation key names cannot match "\"+OPEN_BRACKET\"": part of its pattern never stands in it. */
  lemma OpenBracketKeyKeysNavigation2()
    ensures ApplyRules("\"+OPEN_BRACKET\"", NavigationKeyRules[9..]) == ApplyRules("\"+OPEN_BRACKET\"", NavigationKeyRules[10..])
  {
    assert NoPair("\"+OPEN_BRACKET\"", 'T', 'A');
    NavigationKeysRule9();
    ApplyRulesPassByPair("\"+OPEN_BRACKET\"", NavigationKeyRules, 9, 0);
  }

  /** Rules 10 to 13 of the navigation key names are unanchored, and the pattern of each holds its character of "SDIL". */
  lemma NavigationKeysLacking10To14()
    ensures forall k :: 10 <= k < 14 ==> NavigationKeyRules[k].Anywhere? && "SDIL"[k - 10] in NavigationKeyRules[k].pat
  {
  }

  /** Rules 10 to 13 of the navigation key names cannot match "\"+OPEN_BRACKET\"": it lacks a character of each pattern. */
  lemma OpenBracketKeyKeysNavigation3()
    ensures ApplyRules("\"+OPEN_BRACKET\"", NavigationKeyRules[10..]) == ApplyRules("\"+OPEN_BRACKET\"", NavigationKeyRules[14..])
  {
    assert forall c :: c in "SDIL" ==> c !in "\"+OPEN_BRACKET\"";
    NavigationKeysLacking10To14();
    ApplyRulesPassByChars("\"+OPEN_BRACKET\"", NavigationKeyRules, 10, 14, "SDIL");
  }

  /** The navigation key names on "\"+OPEN_BRACKET\"". */
  lemma OpenBracketKeyKeysNavigation()
    ensures ApplyRules("\"+OPEN_BRACKET\"", NavigationKeyRules) == "\"+OPEN_BRACKET\""
  {
    assert NavigationKeyRules[0..] == NavigationKeyRules;
    OpenBracketKeyKeysNavigation1();
    OpenBracketKeyKeysNavigation2();
    OpenBracketKeyKeysNavigation3();
    assert NavigationKeyRules[14..] == [];
  }

  /** Replacing "OPEN_BRACKET" by "]" in "\"+OPEN_BRACKET\"", from its leftmost occurrence on. */
  lemma OpenBracketKeyKeysPunctuation1Hit()
    ensures ReplaceAll("\"+OPEN_BRACKET\"", "OPEN_BRACKET", "]") == "\"+]\""
  {
    assert "\"+OPEN_BRACKET\"" == "\"+" + "OPEN_BRACKET" + "\"";
    assert "\"+]\"" == "\"+" + "]" + "\"";
    ReplaceAllLacking("\"", "OPEN_BRACKET", "]", 'O');
    ReplaceAllHit("\"+OPEN_BRACKET\"", "\"+", "\"", "OPEN_BRACKET", "]");
  }

  /** Rule 0 of the punctuation key names: "OPEN_BRACKET" becomes "]". */
  lemma PunctuationKeysRule0()
    ensures PunctuationKeyRules[0] == Plain("OPEN_BRACKET", "]")
  {
  }

  /** Rule 0 of the punctuation key names turns "\"+OPEN_BRACKET\"" into "\"+]\"". */
  lemma OpenBracketKeyKeysPunctuation1()
    ensures ApplyRules("\"+OPEN_BRACKET\"", PunctuationKeyRules[0..]) == ApplyRules("\"+]\"", PunctuationKeyRules[1..])
  {
    PunctuationKeysRule0();
    ApplyRulesFire("\"+OPEN_BRACKET\"", PunctuationKeyRules, 0);
    OpenBracketKeyKeysPunctuation1Hit();
  }

  /** "\"+]\"" has no two adjacent capitals, so rules 1 on of the punctuation key names leave it alone. */
  lemma OpenBracketKeyKeysPunctuation2()
    ensures ApplyRules("\"+]\"", PunctuationKeyRules[1..]) == "\"+]\""
  {
    PunctuationKeysShaped();
    UpperKeysInert("\"+]\"", PunctuationKeyRules, 1);
  }

  /** The punctuation key names on "\"+OPEN_BRACKET\"". */
  lemma OpenBracketKeyKeysPunctuation()
    ensures ApplyRules("\"+OPEN_BRACKET\"", PunctuationKeyRules) == "\"+]\""
  {
    assert PunctuationKeyRules[0..] == PunctuationKeyRules;
    OpenBracketKeyKeysPunctuation1();
    OpenBracketKeyKeysPunctuation2();
  }

  /** "\"+]\"" has no two adjacent capitals, so rules 0 on of the numeric-pad key names leave it alone. */
  lemma OpenBracketKeyKeysNumpad1()
    ensures ApplyRules("\"+]\"", NumpadKeyRules[0..]) == "\"+]\""
  {
    NumpadKeysShaped();
    UpperKeysInert("\"+]\"", NumpadKeyRules, 0);
  }

  /** The numeric-pad key names on "\"+]\"". */
  lemma OpenBracketKeyKeysNumpad()
    ensures ApplyRules("\"+]\"", NumpadKeyRules) == "\"+]\""
  {
    assert NumpadKeyRules[0..] == NumpadKeyRules;
    OpenBracketKeyKeysNumpad1();
  }

  /** The key table on "\"+OPEN_BRACKET\"". */
  lemma OpenBracketKeyKeys()
    ensures ApplyRules("\"+OPEN_BRACKET\"", KeyNameRules) == "\"+]\""
  {
    KeyNameStages("\"+OPEN_BRACKET\"");
    OpenBracketKeyKeysNavigation();
    OpenBracketKeyKeysPunctuation();
    OpenBracketKeyKeysNumpad();
  }

  /** Replacing "\"+" by "\"" in "\"+]\"", from its leftmost occurrence on. */
  lemma OpenBracketKeyCleanup1Hit()
    ensures ReplaceAll("\"+]\"", "\"+", "\"") == "\"]\""
  {
    assert "\"+]\"" == "" + "\"+" + "]\"";
    assert "\"]\"" == "" + "\"" + "]\"";
    ReplaceAllLacking("]\"", "\"+", "\"", '+');
    ReplaceAllHit("\"+]\"", "", "]\"", "\"+", "\"");
  }

  /** Rule 0 of the clean-up table turns "\"+]\"" into "\"]\"". */
  lemma OpenBracketKeyCleanup1()
    ensures ApplyRules("\"+]\"", CleanupRules[0..]) == ApplyRules("\"]\"", CleanupRules[1..])
  {
    CleanupRule0();
    ApplyRulesFire("\"+]\"", CleanupRules, 0);
    OpenBracketKeyCleanup1Hit();
  }

  /** Rules 1 to 1 of the clean-up table cannot match "\"]\"": it lacks a character of each pattern. */
  lemma OpenBracketKeyCleanup2()
    ensures ApplyRules("\"]\"", CleanupRules[1..]) == ApplyRules("\"]\"", CleanupRules[2..])
  {
    assert forall c :: c in "o" ==> c !in "\"]\"";
    CleanupLacking1To2();
    ApplyRulesPassByChars("\"]\"", CleanupRules, 1, 2, "o");
  }

  /** The clean-up table on "\"+]\"". */
  lemma OpenBracketKeyCleanup()
    ensures ApplyRules("\"+]\"", CleanupRules) == "\"]\""
  {
    assert CleanupRules[0..] == CleanupRules;
    OpenBracketKeyCleanup1();
    OpenBracketKeyCleanup2();
    assert CleanupRules[2..] == [];
  }

  /** The key-name table as written shows `OPEN_BRACKET` as a closing bracket. */
  lemma OpenBracketKey()
    ensures Format("[pressed OPEN_BRACKET]") == "\"]\""
  {
    FormatStages("[pressed OPEN_BRACKET]");
    OpenBracketKeyModifiers();
    OpenBracketKeyLayout();
    OpenBracketKeyKeys();
    OpenBracketKeyCleanup();
  }

  /** The modifiers stage on "END]". */
  lemma ModifiersOfENDClose()
    ensures ApplyRules("END]", ModifierRules) == "END]"
  {
    forall i | 0 <= i < |"END]"| ensures Untouched("END]"[i], ModifierRules) { ModifiersSpareOutside("END]"[i]); }
    ApplyRulesUntouched("END]", ModifierRules);
  }

  /** "[pressed END]" cut into the pieces the modifier table works on separately. */
  lemma UnnamedKeyModifiersPieces()
    ensures "[pressed END]" == "[" + "pressed " + "END]"
  {
  }

  /** The modifier table on "[pressed END]". */
  lemma UnnamedKeyModifiers()
    ensures ApplyRules("[pressed END]", ModifierRules) == "[pressed END]"
  {
    UnnamedKeyModifiersPieces();
    ModifiersSpareOutside('[');
    ApplyRulesSplit("[", "pressed ", ModifierRules);
    ModifiersSpareOutside('E');
    ApplyRulesSplit("[" + "pressed ", "END]", ModifierRules);
    ModifiersOfOpen();
    ModifiersOfPressed();
    ModifiersOfENDClose();
  }

  /** The layout stage on "END". */
  lemma LayoutOfEND()
    ensures ApplyRules("END", LayoutRules) == "END"
  {
    forall i | 0 <= i < |"END"| ensures Untouched("END"[i], LayoutRules) { LayoutSpareKeyChar("END"[i]); }
    ApplyRulesUntouched("END", LayoutRules);
  }

  /** "[pressed END]" cut into the pieces the layout table works on separately. */
  lemma UnnamedKeyLayoutSplit()
    ensures "[pressed END]" == "[pressed " + "END" + "]"
  {
  }

  /** "\"+END\"" cut into the results of those pieces. */
  lemma UnnamedKeyLayoutJoined()
    ensures "\"+END\"" == "\"+" + "END" + "\""
  {
  }

  /** The layout table on "[pressed END]". */
  lemma UnnamedKeyLayout()
    ensures ApplyRules("[pressed END]", LayoutRules) == "\"+END\""
  {
    UnnamedKeyLayoutSplit();
    UnnamedKeyLayoutJoined();
    LayoutSpareKeyChar('E');
    ApplyRulesSplit("[pressed ", "END", LayoutRules);
    LayoutSpareKeyChar('D');
    ApplyRulesSplit("[pressed " + "END", "]", LayoutRules);
    LayoutOfOpenPressed();
    LayoutOfEND();
    LayoutOfClose();
  }

  /** Rules 0 to 13 of the navigation key names are unanchored, and the pattern of each holds its character of "PPRLOUHBLTSIIC". */
  lemma NavigationKeysLacking0To14()
    ensures forall k :: 0 <= k < 14 ==> NavigationKeyRules[k].Anywhere? && "PPRLOUHBLTSIIC"[k - 0] in NavigationKeyRules[k].pat
  {
  }

  /** Rules 0 to 13 of the navigation key names cannot match "\"+END\"": it lacks a character of each pattern. */
  lemma UnnamedKeyKeysNavigation1()
    ensures ApplyRules("\"+END\"", NavigationKeyRules[0..]) == ApplyRules("\"+END\"", NavigationKeyRules[14..])
  {
    assert forall c :: c in "PPRLOUHBLTSIIC" ==> c !in "\"+END\"";
    NavigationKeysLacking0To14();
    ApplyRulesPassByChars("\"+END\"", NavigationKeyRules, 0, 14, "PPRLOUHBLTSIIC");
  }

  /** The navigation key names on "\"+END\"". */
  lemma UnnamedKeyKeysNavigation()
    ensures ApplyRules("\"+END\"", NavigationKeyRules) == "\"+END\""
  {
    assert NavigationKeyRules[0..] == NavigationKeyRules;
    UnnamedKeyKeysNavigation1();
    assert NavigationKeyRules[14..] == [];
  }

  /** Rules 0 to 12 of the punctuation key names are unanchored, and the pattern of each holds its character of "OBQPSTSAMMSCQ". */
  lemma PunctuationKeysLacking0To13()
    ensures forall k :: 0 <= k < 13 ==> PunctuationKeyRules[k].Anywhere? && "OBQPSTSAMMSCQ"[k - 0] in PunctuationKeyRules[k].pat
  {
  }

  /** Rules 0 to 12 of the punctuation key names cannot match "\"+END\"": it lacks a character of each pattern. */
  lemma UnnamedKeyKeysPunctuation1()
    ensures ApplyRules("\"+END\"", PunctuationKeyRules[0..]) == ApplyRules("\"+END\"", PunctuationKeyRules[13..])
  {
    assert forall c :: c in "OBQPSTSAMMSCQ" ==> c !in "\"+END\"";
    PunctuationKeysLacking0To13();
    ApplyRulesPassByChars("\"+END\"", PunctuationKeyRules, 0, 13, "OBQPSTSAMMSCQ");
  }

  /** The punctuation key names on "\"+END\"". */
  lemma UnnamedKeyKeysPunctuation()
    ensures ApplyRules("\"+END\"", PunctuationKeyRules) == "\"+END\""
  {
    assert PunctuationKeyRules[0..] == PunctuationKeyRules;
    UnnamedKeyKeysPunctuation1();
    assert PunctuationKeyRules[13..] == [];
  }

  /** Rules 0 to 9 of the numeric-pad key names are unanchored, and the pattern of each holds its character of "UUUUUUUUUU". */
  lemma NumpadKeysLacking0To10()
    ensures forall k :: 0 <= k < 10 ==> NumpadKeyRules[k].Anywhere? && "UUUUUUUUUU"[k - 0] in NumpadKeyRules[k].pat
  {
  }

  /** Rules 0 to 9 of the numeric-pad key names cannot match "\"+END\"": it lacks a character of each pattern. */
  lemma UnnamedKeyKeysNumpad1()
    ensures ApplyRules("\"+END\"", NumpadKeyRules[0..]) == ApplyRules("\"+END\"", NumpadKeyRules[10..])
  {
    assert forall c :: c in "UUUUUUUUUU" ==> c !in "\"+END\"";
    NumpadKeysLacking0To10();
    ApplyRulesPassByChars("\"+END\"", NumpadKeyRules, 0, 10, "UUUUUUUUUU");
  }

  /** The numeric-pad key names on "\"+END\"". */
  lemma UnnamedKeyKeysNumpad()
    ensures ApplyRules("\"+END\"", NumpadKeyRules) == "\"+END\""
  {
    assert NumpadKeyRules[0..] == NumpadKeyRules;
    UnnamedKeyKeysNumpad1();
    assert NumpadKeyRules[10..] == [];
  }

  /** The key table on "\"+END\"". */
  lemma UnnamedKeyKeys()
    ensures ApplyRules("\"+END\"", KeyNameRules) == "\"+END\""
  {
    KeyNameStages("\"+END\"");
    UnnamedKeyKeysNavigation();
    UnnamedKeyKeysPunctuation();
    UnnamedKeyKeysNumpad();
  }

  /** Replacing "\"+" by "\"" in "\"+END\"", from its leftmost occurrence on. */
  lemma UnnamedKeyCleanup1Hit()
    ensures ReplaceAll("\"+END\"", "\"+", "\"") == "\"END\""
  {
    assert "\"+END\"" == "" + "\"+" + "END\"";
    assert "\"END\"" == "" + "\"" + "END\"";
    ReplaceAllLacking("END\"", "\"+", "\"", '+');
    ReplaceAllHit("\"+END\"", "", "END\"", "\"+", "\"");
  }

  /** Rule 0 of the clean-up table turns "\"+END\"" into "\"END\"". */
  lemma UnnamedKeyCleanup1()
    ensures ApplyRules("\"+END\"", CleanupRules[0..]) == ApplyRules("\"END\"", CleanupRules[1..])
  {
    CleanupRule0();
    ApplyRulesFire("\"+END\"", CleanupRules, 0);
    UnnamedKeyCleanup1Hit();
  }

  /** Rules 1 to 1 of the clean-up table cannot match "\"END\"": it lacks a character of each pattern. */
  lemma UnnamedKeyCleanup2()
    ensures ApplyRules("\"END\"", CleanupRules[1..]) == ApplyRules("\"END\"", CleanupRules[2..])
  {
    assert forall c :: c in "o" ==> c !in "\"END\"";
    CleanupLacking1To2();
    ApplyRulesPassByChars("\"END\"", CleanupRules, 1, 2, "o");
  }

  /** The clean-up table on "\"+END\"". */
  lemma UnnamedKeyCleanup()
    ensures ApplyRules("\"+END\"", CleanupRules) == "\"END\""
  {
    assert CleanupRules[0..] == CleanupRules;
    UnnamedKeyCleanup1();
    UnnamedKeyCleanup2();
    assert CleanupRules[2..] == [];
  }

  /** A key in capitals the table does not name, such as `END`, is shown as it is. */
  lemma UnnamedKey()
    ensures Format("[pressed END]") == "\"END\""
  {
    FormatStages("[pressed END]");
    UnnamedKeyModifiers();
    UnnamedKeyLayout();
    UnnamedKeyKeys();
    UnnamedKeyCleanup();
  }
}

=== FILE: shortcut_format.dfy ===
/**
 * How one command's bindings in one keymap become display text
 * (`ShortcutExporterAction.formatShortcut` and the filter-and-join that feeds it).
 *
 * The host renders each binding as a raw string such as `[ctrl pressed C]`
 * (a two-stroke binding as `[ctrl pressed A]+[pressed B]`). Bindings whose
 * raw text mentions `button` (mouse gestures) are dropped, the rest are
 * joined with `,`, and the joined text is rewritten by a fixed table.
 */
module ShortcutFormat {
  import opened Strings
  import opened Rules

  /** Modifier phrases get `+` between their words, then each modifier word is capitalised. */
  const ModifierRules: seq<Rule> := [
    Plain("shift ctrl alt", "shift + ctrl + alt"),
    Plain("shift ctrl", "shift + ctrl"),
    Plain("shift alt", "shift + alt"),
    Plain("ctrl alt", "ctrl + alt"),
    Plain("meta alt", "meta + alt"),
    Plain("shift meta", "shift + meta"),
    Plain("ctrl meta", "ctrl + meta"),
    Plain("shift meta alt", "shift + meta + alt"),
    Plain("shift", "Shift"),
    Plain("ctrl", "Ctrl"),
    Plain("meta", "Command"),
    Plain("alt", "Alt")
  ]

  /** Spaces go, binding separators become ` or `, brackets become quotes, `pressed` becomes `+`. */
  const LayoutRules: seq<Rule> := [
    Plain(" ", ""),
    Plain("]+[", " or "),
    Plain("],[", " or "),
    Plain("[", "\""),
    Plain("]", "\""),
    Plain("pressed", "+")
  ]

  /** Key names, in the order the source lists them (PAGE_DOWN and the two brackets included as written). */
  const KeyNameRules: seq<Rule> := NavigationKeyRules + PunctuationKeyRules + NumpadKeyRules

  /** Navigation and editing keys. */
  const NavigationKeyRules: seq<Rule> := [
    Plain("PAGE_UP", "Page Up"),
    Plain("PAGE_DOWN", "Page Up"),
    Plain("RIGHT", "Right Arrow"),
    Plain("LEFT", "Left Arrow"),
    Plain("DOWN", "Down"),
    Plain("UP", "Up"),
    Plain("HOME", "Home"),
    Plain("BACK_SPACE", "Backspace"),
    Plain("DELETE", "Delete"),
    Plain("TAB", "Tab"),
    Plain("SLASH", "/"),
    Plain("DIVIDE", "/"),
    Plain("INSERT", "Insert"),
    Plain("CLOSE_BRACKET", "[")
  ]

  /** Punctuation and arithmetic keys. */
  const PunctuationKeyRules: seq<Rule> := [
    Plain("OPEN_BRACKET", "]"),
    Plain("BACK_QUOTE", "`"),
    Plain("QUOTE", "'"),
    Plain("PERIOD", "."),
    Plain("SPACE", "Space"),
    Plain("ENTER", "Enter"),
    Plain("SUBTRACT", "-"),
    Plain("ADD", "+"),
    Plain("MINUS", "-"),
    Plain("MULTIPLY", "*"),
    Plain("ESCAPE", "Esc"),
    Plain("COMMA", ","),
    Plain("EQUALS", "=")
  ]

  /** Numeric-keypad digits. */
  const NumpadKeyRules: seq<Rule> := [
    Plain("NUMPAD1", "Numpad 1"),
    Plain("NUMPAD2", "Numpad 2"),
    Plain("NUMPAD3", "Numpad 3"),
    Plain("NUMPAD4", "Numpad 4"),
    Plain("NUMPAD5", "Numpad 5"),
    Plain("NUMPAD6", "Numpad 6"),
    Plain("NUMPAD7", "Numpad 7"),
    Plain("NUMPAD8", "Numpad 8"),
    Plain("NUMPAD9", "Numpad 9"),
    Plain("NUMPAD0", "Numpad 0")
  ]

  /** The `+` left after an opening quote or after ` or ` by a binding without modifiers is dropped. */
  const CleanupRules: seq<Rule> := [
    Plain("\"+", "\""),
    Plain("or +", "or ")
  ]

  /** The complete chain of `formatShortcut`, in source order. */
  const ShortcutRules: seq<Rule> := ModifierRules + LayoutRules + KeyNameRules + CleanupRules

  /** Display text for the joined raw bindings of one command in one keymap. */
  function Format(raw: string): string
  {
    ApplyRules(raw, ShortcutRules)
  }

  /** Raw bindings that are not mouse gestures, in their original order. */
  function DropButtons(raws: seq<string>): (kept: seq<string>)
    ensures |kept| <= |raws|
    decreases |raws|
  {
    if raws == [] then []
    else
      var front := DropButtons(raws[..|raws| - 1]);
      var last := raws[|raws| - 1];
      if Occurs(last, "button") then front else front + [last]
  }

  /**
   * The filter keeps exactly the bindings that do not mention `button`:
   * all of them when none does, none when all do.
   */
  lemma {:induction false} DropButtonsSpec(raws: seq<string>)
    ensures forall r :: r in DropButtons(raws) ==> r in raws && !Occurs(r, "button")
    ensures forall r :: r in raws && !Occurs(r, "button") ==> r in DropButtons(raws)
    ensures (forall r :: r in raws ==> !Occurs(r, "button")) ==> DropButtons(raws) == raws
    ensures (forall r :: r in raws ==> Occurs(r, "button")) ==> DropButtons(raws) == []
    decreases |raws|
  {
    if raws != [] {
      var front := raws[..|raws| - 1];
      var last := raws[|raws| - 1];
      DropButtonsSpec(front);
      SnocSplit([], raws);
      assert forall r :: r in front ==> r in raws;
    }
  }

  /** The filter keeps order: filtering two lists of bindings in turn is filtering their concatenation. */
  lemma {:induction false} DropButtonsAppend(a: seq<string>, b: seq<string>)
    ensures DropButtons(a + b) == DropButtons(a) + DropButtons(b)
    decreases |b|
  {
    if b == [] {
      assert a + b == a;
      assert DropButtons(a) + [] == DropButtons(a);
    } else {
      var front := b[..|b| - 1];
      var last := b[|b| - 1];
      DropButtonsAppend(a, front);
      SnocSplit(a, b);
      DropButtonsSnoc(a + front, last);
      DropButtonsSnoc(front, last);
      if !Occurs(last, "button") {
        var x, y := DropButtons(a), DropButtons(front);
        assert x + y + [last] == x + (y + [last]);
      }
    }
  }

  /** One more binding at the end is kept at the end, unless it is a mouse gesture. */
  lemma DropButtonsSnoc(raws: seq<string>, r: string)
    ensures DropButtons(raws + [r]) == if Occurs(r, "button") then DropButtons(raws) else DropButtons(raws) + [r]
  {
    assert (raws + [r])[..|raws|] == raws;
  }

  /** The comma-joined raw text handed to the formatter. */
  function BindingText(raws: seq<string>): string
  {
    Join(DropButtons(raws), ",")
  }

  // ---------------------------------------------------------------------
  // The four stages

  /** The chain is the modifier stage, then layout, then key names, then clean-up. */
  lemma FormatStages(raw: string)
    ensures Format(raw) ==
      ApplyRules(ApplyRules(ApplyRules(ApplyRules(raw, ModifierRules), LayoutRules), KeyNameRules), CleanupRules)
  {
    ApplyRulesAppend(raw, ModifierRules + LayoutRules + KeyNameRules, CleanupRules);
    ApplyRulesAppend(raw, ModifierRules + LayoutRules, KeyNameRules);
    ApplyRulesAppend(raw, ModifierRules, LayoutRules);
  }

  /** The key-name stage is the three key tables one after the other. */
  lemma KeyNameStages(s: string)
    ensures ApplyRules(s, KeyNameRules) ==
      ApplyRules(ApplyRules(ApplyRules(s, NavigationKeyRules), PunctuationKeyRules), NumpadKeyRules)
  {
    ApplyRulesAppend(s, NavigationKeyRules + PunctuationKeyRules, NumpadKeyRules);
    ApplyRulesAppend(s, NavigationKeyRules, PunctuationKeyRules);
  }

  // ---------------------------------------------------------------------
  // Emptiness

  /** Formatting empty text gives empty text. */
  lemma FormatEmpty()
    ensures Format([]) == []
  {
    ApplyRulesEmpty(ShortcutRules);
  }

  /** Each modifier pattern and each modifier replacement begins with a letter, not a space. */
  lemma ModifierRulesShape()
    ensures forall k :: 0 <= k < |ModifierRules| ==>
      ModifierRules[k].pat[0] != ' ' && ModifierRules[k].rep != [] && ModifierRules[k].rep[0] != ' '
  {
  }

  /** Apart from the space deletion that opens the layout stage, no rule has an empty replacement. */
  lemma LaterRulesKeepText()
    ensures forall k :: 1 <= k < |LayoutRules| ==> LayoutRules[k].rep != []
    ensures forall k :: 0 <= k < |KeyNameRules| ==> KeyNameRules[k].rep != []
    ensures forall k :: 0 <= k < |CleanupRules| ==> CleanupRules[k].rep != []
  {
    KeepsText(NavigationKeyRules);
    KeepsText(PunctuationKeyRules);
    KeepsText(NumpadKeyRules);
    assert KeyNameRules == NavigationKeyRules + PunctuationKeyRules + NumpadKeyRules;
  }

  /** Table facts: no replacement in the given key table is empty. */
  lemma KeepsText(rules: seq<Rule>)
    requires rules == NavigationKeyRules || rules == PunctuationKeyRules || rules == NumpadKeyRules
    ensures forall k :: 0 <= k < |rules| ==> rules[k].rep != []
  {
  }

  /** The layout stage is the space deletion followed by the other layout rules. */
  lemma LayoutStages(s: string)
    ensures ApplyRules(s, LayoutRules) == ApplyRules(ReplaceAll(s, " ", ""), LayoutRules[1..])
  {
    ApplyRulesFire(s, LayoutRules, 0);
  }

  /** The rules after the space deletion, in order. */
  const TailRules: seq<Rule> := LayoutRules[1..] + KeyNameRules + CleanupRules

  /** Formatting is the modifier stage, then the space deletion, then the remaining rules. */
  lemma {:induction false} FormatTail(raw: string)
    ensures Format(raw) == ApplyRules(ReplaceAll(ApplyRules(raw, ModifierRules), " ", ""), TailRules)
  {
    var m := ApplyRules(raw, ModifierRules);
    var d := ReplaceAll(m, " ", "");
    FormatStages(raw);
    LayoutStages(m);
    ApplyRulesAppend(d, LayoutRules[1..], KeyNameRules);
    ApplyRulesAppend(d, LayoutRules[1..] + KeyNameRules, CleanupRules);
  }

  /** None of the remaining rules has an empty replacement. */
  lemma TailRulesKeepText()
    ensures forall k :: 0 <= k < |TailRules| ==> TailRules[k].rep != []
  {
    LaterRulesKeepText();
  }

  /** Blank text formats to empty text: no modifier rule applies, and the spaces are then deleted. */
  lemma FormatBlank(raw: string)
    requires Blank(raw)
    ensures Format(raw) == []
  {
    FormatTail(raw);
    ModifiersKeepBlank(raw);
    TailOfBlank(raw);
  }

  /** Text with a non-space formats to non-empty text. */
  lemma FormatNonBlank(raw: string)
    requires !Blank(raw)
    ensures Format(raw) != []
  {
    FormatTail(raw);
    ModifiersKeepNonBlank(raw);
    TailOfNonBlank(ApplyRules(raw, ModifierRules));
  }

  /** Deleting the spaces of blank text leaves nothing for the remaining rules. */
  lemma TailOfBlank(m: string)
    requires Blank(m)
    ensures ApplyRules(ReplaceAll(m, " ", ""), TailRules) == []
  {
    DeleteCharEmpty(m, ' ');
    ApplyRulesEmpty(TailRules);
  }

  /** Text with a non-space survives the space deletion and the remaining rules non-empty. */
  lemma TailOfNonBlank(m: string)
    requires !Blank(m)
    ensures ApplyRules(ReplaceAll(m, " ", ""), TailRules) != []
  {
    DeleteCharEmpty(m, ' ');
    TailRulesKeepText();
    ApplyRulesKeepsNonEmpty(ReplaceAll(m, " ", ""), TailRules);
  }

  /** Every modifier pattern holds a letter, so blank text passes the modifier stage unchanged. */
  lemma ModifiersKeepBlank(raw: string)
    requires Blank(raw)
    ensures ApplyRules(raw, ModifierRules) == raw
  {
    ModifierRulesShape();
    ApplyRulesBlankFixedByHead(raw, ModifierRules);
  }

  /** Every modifier replacement holds a letter, so text with a non-space keeps one through the modifier stage. */
  lemma ModifiersKeepNonBlank(raw: string)
    requires !Blank(raw)
    ensures !Blank(ApplyRules(raw, ModifierRules))
  {
    ModifierRulesShape();
    ApplyRulesKeepsNonBlankByHead(raw, ModifierRules);
  }

  /**
   * The formatter yields empty text exactly when its input is blank: the only
   * rule with an empty replacement deletes spaces, and every rule before it
   * keeps a non-space character.
   */
  lemma FormatEmptyIffBlank(raw: string)
    ensures Format(raw) == [] <==> Blank(raw)
  {
    if Blank(raw) {
      FormatBlank(raw);
    } else {
      FormatNonBlank(raw);
    }
  }

  /** Bindings that are all mouse gestures leave nothing to format, so the display text is empty. */
  lemma OnlyButtonsFormatEmpty(raws: seq<string>)
    requires forall r :: r in raws ==> Occurs(r, "button")
    ensures BindingText(raws) == [] && Format(BindingText(raws)) == []
  {
    OnlyButtonsNoText(raws);
    FormatEmpty();
  }

  /** Bindings that are all mouse gestures join to empty text. */
  lemma OnlyButtonsNoText(raws: seq<string>)
    requires forall r :: r in raws ==> Occurs(r, "button")
    ensures BindingText(raws) == []
  {
    DropButtonsSpec(raws);
  }

  /**
   * The joined binding text is blank exactly when every raw binding is a
   * mouse gesture, or a single keyboard binding survives and it is blank.
   */
  lemma BindingTextBlank(raws: seq<string>)
    ensures Blank(BindingText(raws)) <==>
      (forall r :: r in raws ==> Occurs(r, "button"))
      || (|DropButtons(raws)| == 1 && Blank(DropButtons(raws)[0]))
  {
    DropButtonsSpec(raws);
    JoinBlank(DropButtons(raws), ",");
    if exists r :: r in raws && !Occurs(r, "button") {
      var r :| r in raws && !Occurs(r, "button");
      assert r in DropButtons(raws);
    }
  }

  // ---------------------------------------------------------------------
  // Key names

  /** An upper-case ASCII letter. */
  predicate IsUpper(c: char) {
    'A' <= c <= 'Z'
  }

  /** No two upper-case letters stand side by side, so no key name can be spelled. */
  predicate NoUpperPair(s: string) {
    forall i :: 0 <= i < |s| - 1 ==> !(IsUpper(s[i]) && IsUpper(s[i + 1]))
  }

  /** Every key name in the table begins with two upper-case letters. */
  lemma KeyNamesStartUpper()
    ensures forall k :: 0 <= k < |KeyNameRules| ==> KeyShaped(KeyNameRules[k])
  {
    NavigationKeysShaped();
    PunctuationKeysShaped();
    NumpadKeysShaped();
  }

  lemma NavigationKeysShaped()
    ensures forall k :: 0 <= k < |NavigationKeyRules| ==> KeyShaped(NavigationKeyRules[k])
  {
  }

  lemma PunctuationKeysShaped()
    ensures forall k :: 0 <= k < |PunctuationKeyRules| ==> KeyShaped(PunctuationKeyRules[k])
  {
  }

  lemma NumpadKeysShaped()
    ensures forall k :: 0 <= k < |NumpadKeyRules| ==> KeyShaped(NumpadKeyRules[k])
  {
  }

  /** An unanchored rule whose pattern begins with two upper-case letters. */
  predicate KeyShaped(r: Rule) {
    r.Anywhere? && |r.pat| >= 2 && IsUpper(r.pat[0]) && IsUpper(r.pat[1])
  }

  /** Text in which no two upper-case letters are adjacent passes through the key-name table unchanged. */
  lemma KeyNamesInert(s: string, i: nat)
    requires i <= |KeyNameRules| && NoUpperPair(s)
    ensures ApplyRules(s, KeyNameRules[i..]) == s
  {
    KeyNamesStartUpper();
    UpperKeysInert(s, KeyNameRules, i);
  }

  /** The same for any table whose patterns all begin with two upper-case letters. */
  lemma {:induction false} UpperKeysInert(s: string, rules: seq<Rule>, i: nat)
    requires i <= |rules| && NoUpperPair(s)
    requires forall k :: 0 <= k < |rules| ==> KeyShaped(rules[k])
    ensures ApplyRules(s, rules[i..]) == s
    decreases |rules| - i
  {
    if i < |rules| {
      var r := rules[i];
      NotOccursUpperPair(s, r.pat);
      AnywhereAbsent(s, r);
      ApplyRulesFire(s, rules, i);
      UpperKeysInert(s, rules, i + 1);
    }
  }

  /** A pattern opening with two upper-case letters does not occur in text without such a pair. */
  lemma NotOccursUpperPair(s: string, pat: string)
    requires |pat| >= 2 && IsUpper(pat[0]) && IsUpper(pat[1]) && NoUpperPair(s)
    ensures !Occurs(s, pat)
  {
    if i: nat :| i <= |s| && OccursAt(s, pat, i) {
      assert s[i..i + |pat|][0] == s[i] && s[i..i + |pat|][1] == s[i + 1];
    }
  }
}

=== FILE: strings.dfy ===
/**
 * Literal text operations used by the exporter: substring search, the
 * leftmost non-overlapping "replace every occurrence" that Java's
 * `String.replaceAll` performs when the pattern is a plain literal and the
 * replacement holds neither `$` nor `\`, and joining with a separator.
 */
module Strings {

  /** `pat` occurs in `s` at position `i`. */
  predicate OccursAt(s: string, pat: string, i: nat) {
    i + |pat| <= |s| && s[i..i + |pat|] == pat
  }

  /** `pat` occurs somewhere in `s` (Java's `String.contains`). */
  predicate Occurs(s: string, pat: string) {
    exists i: nat | i <= |s| :: OccursAt(s, pat, i)
  }

  /** No position of `s` holds `a` immediately followed by `b`. */
  predicate NoPair(s: string, a: char, b: char) {
    forall i :: 0 <= i < |s| - 1 ==> !(s[i] == a && s[i + 1] == b)
  }

  /** No position of `s` holds `a`, `b`, `c` in a row. */
  predicate NoTriple(s: string, a: char, b: char, c: char) {
    forall i :: 0 <= i < |s| - 2 ==> !(s[i] == a && s[i + 1] == b && s[i + 2] == c)
  }

  /** Every character of `s` is a space. */
  predicate Blank(s: string) {
    forall i :: 0 <= i < |s| ==> s[i] == ' '
  }

  /**
   * Replaces every occurrence of the literal `pat` in `s` by `rep`, scanning
   * left to right and resuming after each match, so matches never overlap.
   */
  function ReplaceAll(s: string, pat: string, rep: string): string
    requires |pat| > 0
    decreases |s|
  {
    if s == [] then []
    else if pat <= s then rep + ReplaceAll(s[|pat|..], pat, rep)
    else [s[0]] + ReplaceAll(s[1..], pat, rep)
  }

  /** The parts of `parts` in order, with `sep` between neighbours. */
  function Join(parts: seq<string>, sep: string): string
  {
    if |parts| == 0 then []
    else if |parts| == 1 then parts[0]
    else Join(parts[..|parts| - 1], sep) + sep + parts[|parts| - 1]
  }

  // ---------------------------------------------------------------------
  // Occurrence

  /** A prefix agrees with the text position by position. */
  lemma PrefixAgrees(s: string, pat: string, j: nat)
    requires j < |pat|
    ensures pat <= s ==> j < |s| && s[j] == pat[j]
  {
  }

  /** An occurrence in the tail of `s` is an occurrence in `s`, one further on. */
  lemma OccursInTail(s: string, pat: string)
    requires s != []
    requires Occurs(s[1..], pat)
    ensures Occurs(s, pat)
  {
    var i: nat :| i <= |s[1..]| && OccursAt(s[1..], pat, i);
    assert i + 1 + |pat| <= |s|;
    assert s[i + 1..i + 1 + |pat|] == s[1..][i..i + |pat|];
    assert OccursAt(s, pat, i + 1);
  }

  /** A pattern holding a character that `s` lacks does not occur in `s`. */
  lemma NotOccursByChar(s: string, pat: string, c: char)
    requires c in pat && c !in s
    ensures !Occurs(s, pat)
  {
  }

  /** A pattern holding two adjacent characters that never stand side by side in `s` does not occur in `s`. */
  lemma NotOccursByPair(s: string, pat: string, j: nat)
    requires j + 1 < |pat| && NoPair(s, pat[j], pat[j + 1])
    ensures !Occurs(s, pat)
  {
  }

  /** A pattern holding three consecutive characters that never stand in a row in `s` does not occur in `s`. */
  lemma NotOccursByTriple(s: string, pat: string, j: nat)
    requires j + 2 < |pat| && NoTriple(s, pat[j], pat[j + 1], pat[j + 2])
    ensures !Occurs(s, pat)
  {
  }

  /** A pattern with a non-space character never occurs in blank text. */
  lemma NotOccursInBlank(s: string, pat: string, j: nat)
    requires Blank(s) && j < |pat| && pat[j] != ' '
    ensures !Occurs(s, pat)
  {
  }

  // ---------------------------------------------------------------------
  // ReplaceAll

  /** Text without an occurrence of the pattern comes back unchanged. */
  lemma {:induction false} ReplaceAllNoOccurrence(s: string, pat: string, rep: string)
    requires |pat| > 0 && !Occurs(s, pat)
    ensures ReplaceAll(s, pat, rep) == s
    decreases |s|
  {
    if s != [] {
      if pat <= s {
        assert OccursAt(s, pat, 0);
        assert false;
      }
      if Occurs(s[1..], pat) {
        OccursInTail(s, pat);
      }
      ReplaceAllNoOccurrence(s[1..], pat, rep);
      assert s == [s[0]] + s[1..];
    }
  }

  /** Replacing a pattern by itself is the identity: the scan and the rebuild undo each other. */
  lemma {:induction false} ReplaceAllSelf(s: string, pat: string)
    requires |pat| > 0
    ensures ReplaceAll(s, pat, pat) == s
    decreases |s|
  {
    if s != [] {
      if pat <= s {
        ReplaceAllSelf(s[|pat|..], pat);
        assert s == pat + s[|pat|..];
      } else {
        ReplaceAllSelf(s[1..], pat);
        assert s == [s[0]] + s[1..];
      }
    }
  }

  /** A prefix free of the pattern's first character is copied through untouched. */
  lemma {:induction false} ReplaceAllSkip(a: string, b: string, pat: string, rep: string)
    requires |pat| > 0 && pat[0] !in a
    ensures ReplaceAll(a + b, pat, rep) == a + ReplaceAll(b, pat, rep)
    decreases |a|
  {
    if a != [] {
      var s := a + b;
      assert s[0] == a[0];
      assert !(pat <= s);
      assert s[1..] == a[1..] + b;
      ReplaceAllSkip(a[1..], b, pat, rep);
      calc {
        ReplaceAll(s, pat, rep);
        [a[0]] + ReplaceAll(a[1..] + b, pat, rep);
        [a[0]] + (a[1..] + ReplaceAll(b, pat, rep));
        ([a[0]] + a[1..]) + ReplaceAll(b, pat, rep);
        { assert a == [a[0]] + a[1..]; }
        a + ReplaceAll(b, pat, rep);
      }
    } else {
      assert a + b == b;
    }
  }

  /** A prefix at none of whose positions the pattern starts is copied through untouched. */
  lemma {:induction false} ReplaceAllSkipFree(a: string, b: string, pat: string, rep: string)
    requires |pat| > 0
    requires forall i :: 0 <= i < |a| ==> !OccursAt(a + b, pat, i)
    ensures ReplaceAll(a + b, pat, rep) == a + ReplaceAll(b, pat, rep)
    decreases |a|
  {
    if a != [] {
      var s := a + b;
      assert !OccursAt(s, pat, 0);
      assert !(pat <= s);
      var t := a[1..] + b;
      assert s[1..] == t;
      forall i | 0 <= i < |a[1..]|
        ensures !OccursAt(t, pat, i)
      {
        assert !OccursAt(s, pat, i + 1);
        if i + |pat| <= |t| {
          forall k | i <= k < i + |pat| ensures t[k] == s[k + 1] { }
          assert t[i..i + |pat|] == s[i + 1..i + 1 + |pat|];
        }
      }
      ReplaceAllSkipFree(a[1..], b, pat, rep);
      calc {
        ReplaceAll(s, pat, rep);
        [a[0]] + ReplaceAll(t, pat, rep);
        [a[0]] + (a[1..] + ReplaceAll(b, pat, rep));
        ([a[0]] + a[1..]) + ReplaceAll(b, pat, rep);
        { assert a == [a[0]] + a[1..]; }
        a + ReplaceAll(b, pat, rep);
      }
    } else {
      assert a + b == b;
    }
  }

  /**
   * The leftmost occurrence of the pattern is the one replaced, and the scan
   * resumes right after it.
   */
  lemma ReplaceAllLeftmost(s: string, a: string, b: string, pat: string, rep: string)
    requires |pat| > 0 && s == a + pat + b
    requires forall i :: 0 <= i < |a| ==> !OccursAt(s, pat, i)
    ensures ReplaceAll(s, pat, rep) == a + rep + ReplaceAll(b, pat, rep)
  {
    assert s == a + (pat + b);
    ReplaceAllSkipFree(a, pat + b, pat, rep);
    assert pat <= pat + b;
    assert (pat + b)[|pat|..] == b;
  }

  /** Text that is exactly the pattern becomes exactly the replacement. */
  lemma ReplaceAllWhole(pat: string, rep: string)
    requires |pat| > 0
    ensures ReplaceAll(pat, pat, rep) == rep
  {
    assert pat[|pat|..] == [];
    assert rep + [] == rep;
  }

  /**
   * When the first occurrence of the pattern is preceded only by text free of
   * its first character, that occurrence is the one replaced: the special
   * case of `ReplaceAllLeftmost` that one character decides.
   */
  lemma ReplaceAllHit(s: string, a: string, b: string, pat: string, rep: string)
    requires |pat| > 0 && s == a + pat + b && pat[0] !in a
    ensures ReplaceAll(s, pat, rep) == a + rep + ReplaceAll(b, pat, rep)
  {
    ReplaceAllSkip(a, pat + b, pat, rep);
    assert s == a + (pat + b);
    assert (pat + b)[|pat|..] == b;
  }

  /**
   * One step of a left-to-right scan, with every piece named: `s` is `a`
   * then `m`, `m` starts with the pattern and continues with `b`, and the
   * result is `a`, the replacement, and whatever `b` becomes.
   */
  lemma ReplaceAllStep(s: string, a: string, m: string, b: string, pat: string, rep: string, u: string, v: string, t: string)
    requires |pat| > 0 && pat[0] !in a
    requires s == a + m && m == pat + b
    requires ReplaceAll(b, pat, rep) == u && v == rep + u && t == a + v
    ensures ReplaceAll(s, pat, rep) == t
  {
    ReplaceAllHit(s, a, b, pat, rep);
  }

  /** Text lacking one of the pattern's characters comes back unchanged. */
  lemma ReplaceAllLacking(s: string, pat: string, rep: string, c: char)
    requires |pat| > 0 && c in pat && c !in s
    ensures ReplaceAll(s, pat, rep) == s
  {
    NotOccursByChar(s, pat, c);
    ReplaceAllNoOccurrence(s, pat, rep);
  }

  /**
   * Replacement distributes over a concatenation whose seam is marked by a
   * character outside the pattern (the last of `x` or the first of `y`): no
   * match can straddle the seam, and the scan of `x` ends exactly at it.
   */
  lemma {:induction false} ReplaceAllSplit(x: string, y: string, pat: string, rep: string)
    requires |pat| > 0
    requires (x != [] && x[|x| - 1] !in pat) || (y != [] && y[0] !in pat)
    ensures ReplaceAll(x + y, pat, rep) == ReplaceAll(x, pat, rep) + ReplaceAll(y, pat, rep)
    decreases |x|, 1
  {
    if x == [] {
      assert x + y == y;
    } else {
      PrefixAcrossSeam(x, y, pat);
      if pat <= x + y {
        SplitAtMatch(x, y, pat, rep);
      } else {
        SplitAtMiss(x, y, pat, rep);
      }
    }
  }

  /** The seam case of `ReplaceAllSplit` where the scan matches at the front of `x`. */
  lemma {:induction false} SplitAtMatch(x: string, y: string, pat: string, rep: string)
    requires |pat| > 0
    requires (x != [] && x[|x| - 1] !in pat) || (y != [] && y[0] !in pat)
    requires |pat| <= |x| && pat <= x + y
    ensures ReplaceAll(x + y, pat, rep) == ReplaceAll(x, pat, rep) + ReplaceAll(y, pat, rep)
    decreases |x|, 0
  {
    var s := x + y;
    MatchInFront(x, y, pat);
    var x' := x[|pat|..];
    if x' == [] {
      assert s[|pat|..] == y;
    } else {
      assert x'[|x'| - 1] == x[|x| - 1];
      ReplaceAllSplit(x', y, pat, rep);
    }
  }

  /** A match at the front of `x + y` that fits in `x` is a match at the front of `x`, and the scan resumes inside `x`. */
  lemma MatchInFront(x: string, y: string, pat: string)
    requires |pat| <= |x| && pat <= x + y
    ensures pat <= x && (x + y)[|pat|..] == x[|pat|..] + y
  {
    assert x[..|pat|] == (x + y)[..|pat|];
  }

  /** The seam case of `ReplaceAllSplit` where the scan copies the first character of `x`. */
  lemma {:induction false} SplitAtMiss(x: string, y: string, pat: string, rep: string)
    requires |pat| > 0
    requires (x != [] && x[|x| - 1] !in pat) || (y != [] && y[0] !in pat)
    requires x != [] && !(pat <= x + y)
    ensures ReplaceAll(x + y, pat, rep) == ReplaceAll(x, pat, rep) + ReplaceAll(y, pat, rep)
    decreases |x|, 0
  {
    var s := x + y;
    assert !(pat <= x);
    var x' := x[1..];
    assert s[1..] == x' + y;
    if x' == [] {
      assert s[1..] == y;
    } else {
      assert x'[|x'| - 1] == x[|x| - 1];
      ReplaceAllSplit(x', y, pat, rep);
    }
  }

  /** A prefix of `x + y` longer than `x` holds both characters beside the seam. */
  lemma PrefixAcrossSeam(x: string, y: string, pat: string)
    requires x != []
    ensures pat <= x + y && |pat| > |x| ==> x[|x| - 1] in pat && y != [] && y[0] in pat
  {
    if pat <= x + y && |pat| > |x| {
      assert pat[|x| - 1] == (x + y)[|x| - 1];
      assert pat[|x|] == (x + y)[|x|];
    }
  }

  /** A last character outside the pattern survives replacement, still last. */
  lemma ReplaceAllKeepsLast(x: string, pat: string, rep: string)
    requires |pat| > 0 && x != [] && x[|x| - 1] !in pat
    ensures ReplaceAll(x, pat, rep) != [] && ReplaceAll(x, pat, rep)[|ReplaceAll(x, pat, rep)| - 1] == x[|x| - 1]
  {
    var c := x[|x| - 1];
    var front := x[..|x| - 1];
    assert x == front + [c];
    ReplaceAllSplit(front, [c], pat, rep);
    assert !([c] <= [c] && pat <= [c]);
    assert ReplaceAll([c], pat, rep) == [c];
  }

  /** A first character outside the pattern survives replacement, still first. */
  lemma ReplaceAllKeepsFirst(y: string, pat: string, rep: string)
    requires |pat| > 0 && y != [] && y[0] !in pat
    ensures ReplaceAll(y, pat, rep) != [] && ReplaceAll(y, pat, rep)[0] == y[0]
  {
    assert !(pat <= y);
  }

  /** Deleting every copy of a character leaves nothing exactly when the text held nothing else. */
  lemma {:induction false} DeleteCharEmpty(s: string, c: char)
    ensures ReplaceAll(s, [c], []) == [] <==> forall i :: 0 <= i < |s| ==> s[i] == c
    decreases |s|
  {
    if s != [] {
      DeleteCharEmpty(s[1..], c);
      if s[0] == c {
        assert [c] <= s;
        assert forall i :: 0 <= i < |s| - 1 ==> s[1..][i] == s[i + 1];
      } else {
        assert ReplaceAll(s, [c], []) == [s[0]] + ReplaceAll(s[1..], [c], []);
      }
    }
  }

  /** A non-empty replacement cannot make non-empty text empty. */
  lemma ReplaceAllNonEmpty(s: string, pat: string, rep: string)
    requires |pat| > 0 && s != [] && rep != []
    ensures ReplaceAll(s, pat, rep) != []
  {
  }

  /** Text holding a non-space keeps one when the replacement holds one too. */
  lemma {:induction false} ReplaceAllKeepsNonBlank(s: string, pat: string, rep: string)
    requires |pat| > 0 && !Blank(s) && !Blank(rep)
    ensures !Blank(ReplaceAll(s, pat, rep))
    decreases |s|
  {
    var r := ReplaceAll(s, pat, rep);
    if pat <= s {
      var k :| 0 <= k < |rep| && rep[k] != ' ';
      assert r[k] == rep[k];
    } else if s[0] != ' ' {
      assert r[0] == s[0];
    } else {
      var k :| 0 <= k < |s| && s[k] != ' ';
      assert s[1..][k - 1] == s[k];
      ReplaceAllKeepsNonBlank(s[1..], pat, rep);
      var m :| 0 <= m < |ReplaceAll(s[1..], pat, rep)| && ReplaceAll(s[1..], pat, rep)[m] != ' ';
      assert r[m + 1] == ReplaceAll(s[1..], pat, rep)[m];
    }
  }

  // ---------------------------------------------------------------------
  // Deleting a tripled character

  /** The number of copies of `c` that open `s`. */
  function LeadingRun(s: string, c: char): (n: nat)
    ensures n <= |s|
  {
    if s != [] && s[0] == c then 1 + LeadingRun(s[1..], c) else 0
  }

  /** The opening run is all `c`, and the character after it, if any, is not. */
  lemma {:induction false} LeadingRunSpec(s: string, c: char)
    ensures forall i :: 0 <= i < LeadingRun(s, c) ==> s[i] == c
    ensures LeadingRun(s, c) < |s| ==> s[LeadingRun(s, c)] != c
    decreases |s|
  {
    if s != [] && s[0] == c {
      LeadingRunSpec(s[1..], c);
    }
  }

  /** Text opening with three copies of `c` starts with the triple. */
  lemma LeadingRunTriple(s: string, c: char)
    ensures LeadingRun(s, c) >= 3 ==> [c, c, c] <= s
  {
    LeadingRunSpec(s, c);
    if LeadingRun(s, c) >= 3 {
      assert s[..3] == [c, c, c];
    }
  }

  /** A triple at the head of `[a] + u` needs `a == c` and two more copies opening `u`. */
  lemma TripleAtHead(a: char, u: string, c: char)
    ensures OccursAt([a] + u, [c, c, c], 0) ==> a == c && LeadingRun(u, c) >= 2
  {
    var s := [a] + u;
    if OccursAt(s, [c, c, c], 0) {
      assert s[0] == s[0..3][0] && s[1] == s[0..3][1] && s[2] == s[0..3][2];
      assert u[0] == s[1] && u[1] == s[2];
      assert LeadingRun(u[1..], c) >= 1;
    }
  }

  /** An occurrence in `[a] + u` that does not start at the head lies within `u`. */
  lemma OccursAfterHead(a: char, u: string, pat: string)
    ensures Occurs([a] + u, pat) ==> OccursAt([a] + u, pat, 0) || Occurs(u, pat)
  {
    var s := [a] + u;
    if Occurs(s, pat) {
      var i: nat :| i <= |s| && OccursAt(s, pat, i);
      if i > 0 {
        assert s[i..i + |pat|] == u[i - 1..i - 1 + |pat|];
        assert OccursAt(u, pat, i - 1);
      }
    }
  }

  /** The opening run of `[a] + u` is one longer than that of `u` exactly when `a` is `c`. */
  lemma LeadingRunCons(a: char, u: string, c: char)
    ensures LeadingRun([a] + u, c) == if a == c then 1 + LeadingRun(u, c) else 0
  {
    assert ([a] + u)[1..] == u;
  }

  /** Deleting every `ccc` leaves the opening run of `c` reduced modulo three. */
  lemma {:induction false} DeleteTripleLeadingRun(s: string, c: char)
    ensures LeadingRun(ReplaceAll(s, [c, c, c], []), c) == LeadingRun(s, c) % 3
    decreases |s|
  {
    if s != [] {
      if [c, c, c] <= s {
        DeleteTripleLeadingRun(s[3..], c);
        DeleteTripleRunHit(s, c);
      } else {
        DeleteTripleLeadingRun(s[1..], c);
        DeleteTripleRunMiss(s, c);
      }
    }
  }

  /** The step of `DeleteTripleLeadingRun` where the text opens with the triple. */
  lemma DeleteTripleRunHit(s: string, c: char)
    requires [c, c, c] <= s
    ensures ReplaceAll(s, [c, c, c], []) == ReplaceAll(s[3..], [c, c, c], [])
    ensures LeadingRun(s, c) % 3 == LeadingRun(s[3..], c) % 3
  {
    assert [] + ReplaceAll(s[3..], [c, c, c], []) == ReplaceAll(s[3..], [c, c, c], []);
    LeadingRunDropTriple(s, c);
    ThreeMore(LeadingRun(s[3..], c));
  }

  /** Dropping an opening triple shortens the opening run by three. */
  lemma LeadingRunDropTriple(s: string, c: char)
    requires [c, c, c] <= s
    ensures LeadingRun(s, c) == 3 + LeadingRun(s[3..], c)
  {
    PrefixAgrees(s, [c, c, c], 0);
    PrefixAgrees(s, [c, c, c], 1);
    PrefixAgrees(s, [c, c, c], 2);
    assert s[1..][0] == c && s[1..][1..][0] == c;
    assert s[1..][1..][1..] == s[3..];
    assert LeadingRun(s[1..][1..], c) == 1 + LeadingRun(s[3..], c);
    assert LeadingRun(s[1..], c) == 2 + LeadingRun(s[3..], c);
  }

  /** Three more leave the remainder modulo three alone. */
  lemma ThreeMore(n: nat)
    ensures (n + 3) % 3 == n % 3
  {
  }

  /** The step of `DeleteTripleLeadingRun` where the text does not open with the triple. */
  lemma DeleteTripleRunMiss(s: string, c: char)
    requires s != [] && !([c, c, c] <= s)
    requires LeadingRun(ReplaceAll(s[1..], [c, c, c], []), c) == LeadingRun(s[1..], c) % 3
    ensures LeadingRun(ReplaceAll(s, [c, c, c], []), c) == LeadingRun(s, c) % 3
  {
    var u := ReplaceAll(s[1..], [c, c, c], []);
    assert ReplaceAll(s, [c, c, c], []) == [s[0]] + u;
    assert s == [s[0]] + s[1..];
    LeadingRunTriple(s, c);
    LeadingRunCons(s[0], u, c);
    LeadingRunCons(s[0], s[1..], c);
  }

  /**
   * Deleting every `ccc` leaves none behind: a run of `c` shrinks to its
   * length modulo three, so `"...."` becomes `"."`, never a fresh `"..."`.
   */
  lemma {:induction false} DeleteTripleLeavesNone(s: string, c: char)
    ensures !Occurs(ReplaceAll(s, [c, c, c], []), [c, c, c])
    decreases |s|
  {
    var t := [c, c, c];
    LeadingRunTriple(s, c);
    if s == [] {
    } else if t <= s {
      DeleteTripleLeavesNone(s[3..], c);
      assert ReplaceAll(s, t, []) == ReplaceAll(s[3..], t, []);
    } else {
      DeleteTripleLeavesNone(s[1..], c);
      DeleteTripleLeadingRun(s[1..], c);
      var u := ReplaceAll(s[1..], t, []);
      assert ReplaceAll(s, t, []) == [s[0]] + u;
      TripleAtHead(s[0], u, c);
      OccursAfterHead(s[0], u, t);
    }
  }

  // ---------------------------------------------------------------------
  // Join

  /** Joining puts the separator between parts only: none before the first part, none after the last. */
  lemma {:induction false} JoinFrame(parts: seq<string>, sep: string)
    requires |parts| > 0
    ensures parts[0] <= Join(parts, sep)
    ensures Join(parts, sep)[|Join(parts, sep)| - |parts[|parts| - 1]|..] == parts[|parts| - 1]
  {
    if |parts| > 1 {
      JoinFrame(parts[..|parts| - 1], sep);
      var front := Join(parts[..|parts| - 1], sep);
      assert Join(parts, sep) == front + sep + parts[|parts| - 1];
      assert parts[0] == parts[..|parts| - 1][0];
    }
  }

  /** The joined text is as long as the parts plus one separator per gap. */
  lemma {:induction false} JoinLength(parts: seq<string>, sep: string)
    ensures |parts| > 0 ==> |Join(parts, sep)| == TotalLength(parts) + (|parts| - 1) * |sep|
  {
    if |parts| > 1 {
      JoinLength(parts[..|parts| - 1], sep);
    }
  }

  /** Sum of the lengths of `parts`. */
  function TotalLength(parts: seq<string>): nat
  {
    if parts == [] then 0 else TotalLength(parts[..|parts| - 1]) + |parts[|parts| - 1]|
  }

  /** With a non-empty separator, the join is empty exactly for no parts or a single empty part. */
  lemma JoinEmpty(parts: seq<string>, sep: string)
    requires |sep| > 0
    ensures Join(parts, sep) == [] <==> |parts| == 0 || (|parts| == 1 && parts[0] == [])
  {
    if |parts| > 1 {
      assert |Join(parts, sep)| >= |sep|;
    }
  }

  /** With a separator that starts with a non-space, the join is blank exactly for no parts or a single blank part. */
  lemma JoinBlank(parts: seq<string>, sep: string)
    requires |sep| > 0 && sep[0] != ' '
    ensures Blank(Join(parts, sep)) <==> |parts| == 0 || (|parts| == 1 && Blank(parts[0]))
  {
    if |parts| > 1 {
      var front := Join(parts[..|parts| - 1], sep);
      assert Join(parts, sep)[|front|] == sep[0];
    }
  }

  /** Appending a part after existing ones adds exactly one separator. */
  lemma JoinSnoc(parts: seq<string>, p: string, sep: string)
    ensures Join(parts + [p], sep) == if parts == [] then p else Join(parts, sep) + sep + p
  {
    assert (parts + [p])[..|parts|] == parts;
  }

  // ---------------------------------------------------------------------
  // Sequences

  /** The last element of a non-empty `b` is also the last of `a + b`, after `a` and the rest of `b`. */
  lemma SnocSplit<T>(a: seq<T>, b: seq<T>)
    requires b != []
    ensures a + b == (a + b[..|b| - 1]) + [b[|b| - 1]]
    ensures b == b[..|b| - 1] + [b[|b| - 1]]
  {
  }
}
